=== FILE: README.md ===
# Memorix score and leaderboard core, in Dafny

Memorix is a memory-card game backend. Players finish games in a
category (Animals, Astronomy, Patterns, Food) and submit a score: moves,
time in seconds, and stars. Each category keeps a small leaderboard of
ranked entries. After every new score the leaderboard is rebuilt: more
stars first, then less time, then fewer moves, keeping the top five.
Around that rule sit:
- the score submission path;
- read queries: the public top list, a player's best score per category,
  recent games, the player's rank per category, and a category's board;
- owner-only deletions that trigger rebuilds;
- permission and scoping decisions;
- the commands that seed the category catalogue;
- a relative-time label.

This project models all of that as pure functions over an immutable
`Store`, and proves properties of them. The store holds categories,
scores, leaderboard entries, the next free row id and a logical clock.
The database's schema constraints are one predicate, `Models.Inv`:
- unique category codes;
- the unique five-field score identity;
- one entry per score;
- a unique (category, rank);
- ranks within bounds;
- no dangling references.

To these it adds facts the application keeps rather than the database:
the validator bounds on ranks, every entry naming a score of its own
category, and counters ahead of every stored id and timestamp.

Modules follow the program's components:

| module | file | models |
|---|---|---|
| `Base` | base.dfy | Option/Result, ASCII upper-casing, filtering, distinct keys, de-duplication |
| `Sorting` | sorting.dfy | a stable insertion sort over a total preorder, top-k selection, uniqueness of sorted orders |
| `Models` | models.dfy | the entities, field validators, schema invariant, cascade deletion, the post-save trigger, default orderings |
| `Leaderboard` | leaderboard.dfy | the ranking order, the per-category recompute (atomically and as the program's write loop), the entry listing |
| `Submission` | submission.dfy | `prepare_score_data` (both variants), the five-field upsert, score creation |
| `Access` | access.dfy | `IsOwnerOrReadOnly`, `validate_user_ownership`, per-action permissions, queryset scopes, delete and update |
| `Queries` | queries.dfy | the public leaderboard query, best score per category, recent scores, own scores by category |
| `Actions` | actions.dfy | top players, category top, user rank, scores by category, clear one category, clear all |
| `Catalog` | catalog.dfy | the seed catalogue, `load_categories`, `initialize_data` |
| `NaturalTime` | naturaltime.dfy | `shortnaturaltime` |

Modelling choices:
- **Validator bounds are parameters.** The bounds on moves, time and stars,
  and the maximum rank, are imported by the models but not defined in
  common/constants.py. They are the `Models.Bounds` parameter.
- **Tie-breaks.** Ties on all three ranking fields are broken by score id,
  so every order is total. The program leaves such ties to the database.
- **Timestamps.** `completed_at` is a logical clock. `shortnaturaltime`
  works on whole microseconds, and the current time is a parameter.
- **Duplicated handlers.** The mixin handlers in common/actions.py and
  their standalone twins are the same code, so each is modelled once.
- **Error answers.** An error response is the `Err` side of a `Result`.
- **Anonymous deletes.** The bulk deletions are DELETE requests, so
  `IsOwnerOrReadOnly` turns an anonymous caller away first. The model
  answers such a call with `AuthenticationRequired`.

## Model

| member | source | states |
|---|---|---|
| Models.Inv | memorix/models.py:27-105 | the schema's unique and referential constraints (unique codes, the five-field result identity, one entry per score, unique (category, rank)) together with the rank validator and the score's category on each entry |
| Models.FieldErrors | memorix/models.py:50-61 | a field is reported exactly when its value lies outside that field's validator bounds; all offending fields are reported together |
| Models.FieldErrorsIndependent | memorix/models.py:50-61 | whether a field is rejected does not depend on the other two fields' values |
| Models.CategoryByCode | memorix/models.py:27 | the lookup returns a category carrying exactly that code, and returns nothing only when no category has it |
| Models.CategoryById | memorix/models.py:47-49 | the lookup behind a score's category reference returns a category with exactly that id, and nothing only when no category has it |
| Models.CategoryByCodeUnique | memorix/models.py:27 | with unique codes, looking up a category's own code returns that category |
| Models.DeleteScores | memorix/models.py:86-88 | exactly the scores with the given ids disappear, and with them exactly their leaderboard entries (cascade) |
| Models.DeleteScoresKeepsInv | memorix/models.py:86-88 | a cascade deletion keeps every schema constraint; no entry is left pointing at a deleted score |
| Models.SaveTriggersRecompute | memorix/models.py:112-118 | a save rebuilds the score's category exactly when the row was created or named some update fields |
| Models.CategoriesByName | memorix/models.py:35 | categories are listed as a permutation of the stored ones, sorted by name |
| Models.NewestFirst | memorix/models.py:65 | scores are listed as a permutation of the input, newest first |
| Models.ByCategoryThenRank | memorix/models.py:100 | entries are listed as a permutation of the input, ordered by category and then rank |
| Leaderboard.RankLe | common/leaderboard.py:5-7 | one score ranks no later than another: more stars, then less time, then fewer moves, with the id settling full ties |
| Leaderboard.RankLeTotal | common/leaderboard.py:5-7 | the ranking order (stars descending, time ascending, moves ascending) is a total preorder |
| Leaderboard.RankLeStrict | common/leaderboard.py:5-7 | between two different scores the order never ties, so the ranking is a strict order |
| Leaderboard.Top | common/leaderboard.py:5-7 | the top list holds min(n, number of the category's scores) scores, all stored and all in the category |
| Leaderboard.Recompute | common/leaderboard.py:1-15 | a rebuild leaves categories and scores alone, keeps other categories' entries, and leaves min(n, number of scores) entries in the category |
| Leaderboard.RecomputedCategory | common/leaderboard.py:5-15 | after a rebuild the category's entries are exactly the top list, with the 1-based position as rank |
| Leaderboard.RankedEntryMerit | common/leaderboard.py:12-15 | the i-th entry ranks the i-th top score at rank i+1, and exactly i scores of the category outrank that score |
| Leaderboard.RecomputeEntriesEarnTheirRank | common/leaderboard.py:5-15 | every entry of the rebuilt category names a score of the category that exactly rank-1 scores outrank, with rank at most n |
| Leaderboard.RecomputeRanksEveryQualifier | common/leaderboard.py:5-15 | every score that fewer than n scores outrank gets an entry, whose rank is one more than the number of scores outranking it |
| Leaderboard.RecomputeSelfRanked | common/leaderboard.py:5-15 | after a rebuild, the category's entries are the ranked top list of the rebuilt store itself, so a further rebuild has nothing to change |
| Leaderboard.RecomputeMembership | common/leaderboard.py:8-15 | an entry exists after a rebuild iff it was another category's entry before or it is one of the new ranked entries; stale and orphaned entries are pruned |
| Leaderboard.RankEntriesShape | common/leaderboard.py:12-15 | the new entries have one entry per score, pairwise distinct ranks in 1..min(n, number of scores), and each names a score of the category |
| Leaderboard.RecomputeEntriesWellFormed | memorix/models.py:86-105 | after a rebuild each score still has at most one entry, no two entries share (category, rank), and every entry names an existing score of its category |
| Leaderboard.RecomputeKeepsInv | common/leaderboard.py:1-15 | a rebuild with n no larger than the maximum rank keeps every schema constraint |
| Leaderboard.RecomputeIdempotent | common/leaderboard.py:5-15 | rebuilding twice gives the same store as rebuilding once |
| Leaderboard.RecomputeCommutes | common/leaderboard.py:1-15 | rebuilding two different categories in either order gives the same entries |
| Leaderboard.RecomputeRanksContiguous | common/leaderboard.py:12-15 | the ranks in a rebuilt category are exactly 1..k, with no gaps |
| Leaderboard.DefaultRecomputeKeepsFive | common/leaderboard.py:1 | with the default size a category keeps at most five entries |
| Leaderboard.RecomputeLeavesOthers | common/leaderboard.py:8-10 | every other category's entries are exactly as before |
| Leaderboard.RecomputeEach | common/actions.py:92-97 | rebuilding a list of category ids (skipping ids with no category) changes only the entries of the listed categories |
| Leaderboard.RecomputeEachSettles | common/actions.py:92-97 | after rebuilding distinct ids, each existing listed category holds exactly its ranked top list |
| Leaderboard.RecomputeEachKeepsInv | common/actions.py:92-97 | rebuilding a list of categories keeps every schema constraint |
| Leaderboard.Pruned | common/leaderboard.py:8-11 | the delete step keeps exactly the other categories' entries and the entries whose score stays in the top list |
| Leaderboard.UpsertRank | common/leaderboard.py:13-15 | one `update_or_create` either writes the rank into the score's row or inserts a row; it fails when the rank is already held in the category |
| Leaderboard.UpdateCategoryLeaderboard | common/leaderboard.py:1-15 | the write loop as the program runs it: when it succeeds, categories and scores are untouched and the entries are, as a set, those of the atomic rebuild. It succeeds from a category with no entries, changes nothing on a settled category, fails when its first write collides, and succeeds exactly when every `update_or_create` in turn succeeds |
| Leaderboard.TopOfTwo | common/leaderboard.py:5-7 | in a category of two scores the top list is the two scores in ranking order |
| Leaderboard.NewLeaderCollides | common/leaderboard.py:12-15 | on a store where a better score arrives, the loop's first write hits the unique (category, rank) constraint, while the atomic rebuild ranks both scores |
| Leaderboard.CategoryLeaderboard | common/leaderboard.py:18-27 | the listing is one category's entries, or every entry when the id is missing or 0, ordered by category and then rank |
| Leaderboard.ListedInRankOrder | common/leaderboard.py:18-27 | right after a rebuild, a category's listing is exactly its ranked entries, rank 1 first |
| Submission.PrepareScoreData | common/score.py:7-26 | an unknown code (after upper-casing) fails on 'category' before anything else. Otherwise a request without an authenticated user fails on 'profile'. Success yields the category with that code and the caller's profile, with moves, time and stars untouched |
| Submission.PrepareScoreDataUnchecked | utils/score_utils.py:7-25 | the variant: same category check; 'profile' fails only when the request or its user is missing; success keeps the numeric fields |
| Submission.PrepareVariantsAgree | utils/score_utils.py:18-23 | the two variants agree except on an anonymous user: there one asks for a profile and the other fails reading it |
| Submission.PrepareIgnoresCase | common/score.py:10-13 | codes that upper-case alike resolve to the same category and give the same result |
| Submission.FindResult | memorix/models.py:66-77 | finds a score with the given five-field identity, and finds nothing only when none exists |
| Submission.FindResultUnique | memorix/models.py:66-77 | with unique identities the lookup returns the one row carrying it |
| Submission.Upsert | memorix/serializers.py:57-59 | the returned score is stored and carries exactly the submitted identity; categories are untouched. A found row is returned with the scores and the id counter unchanged; otherwise a row with the next id, the submitted numbers and the current time is appended and returned |
| Submission.UpsertEffect | memorix/models.py:112-118 | after an upsert the submitted category's entries are the ranked top five of the resulting scores, and every other category's entries stay as they were |
| Submission.UpsertRecomputes | memorix/models.py:112-118 | the post-save hook rebuilds the submitted category of the saved store, for a found row (re-saved with update fields) and for a new one alike |
| Submission.UpsertAsWritten | memorix/serializers.py:57-59 | the submission with the write-loop rebuild, inside the upsert's transaction: when it succeeds it returns the corrected upsert's row, scores and entries (as a set); it succeeds into an unranked category, fails when the first write collides, and succeeds exactly when every write of the loop does |
| Submission.NewLeaderSubmission | common/leaderboard.py:12-15 | a 5-star score arriving in a category whose 4-star score is ranked 1 yields the saved store on which the loop's first write is refused, while the corrected upsert ranks the new score 1 and the old one 2 |
| Submission.NewLeaderSubmissionFails | memorix/serializers.py:57-59 | on that input the as-written submission fails, so nothing is stored |
| Submission.UpsertSingleRow | memorix/serializers.py:57-59 | after the upsert exactly one row carries the submitted identity |
| Submission.UpsertKeepsInv | memorix/serializers.py:57-59 | the upsert keeps every schema constraint |
| Submission.UpsertIdempotent | memorix/serializers.py:57-59 | upserting the same data twice equals upserting once |
| Submission.PayloadErrors | memorix/serializers.py:20 | the `category` field is refused exactly when it is blank after stripping spaces or holds a NUL character; each numeric field is refused exactly when the model's validators refuse it; all refusals are collected together |
| Submission.CreateScore | memorix/serializers.py:48-60 | succeeds exactly when every field is valid and preparing the stripped code succeeds. Invalid fields, the category code included, fail together; otherwise a failed preparation is passed on unchanged. The stored row has the submitted numbers, the caller's profile and the category whose code is the stripped, upper-cased code; an unknown code is reported as stripped. Preparation is `Submission.PrepareScoreData`, the common/score.py variant; `Submission.PrepareVariantsAgree` shows the utils/score_utils.py variant gives the same answer for every authenticated caller, the only callers who reach `create` |
| Submission.CreateIgnoresPadding | memorix/serializers.py:20 | a code sent with spaces around it submits exactly what the bare code submits |
| Submission.CreateIgnoresReadOnly | memorix/serializers.py:35-39 | client-sent id, completion time and profile change nothing |
| Submission.CreateKeepsInv | memorix/serializers.py:48-60 | a successful creation keeps every constraint, stores a row within bounds, and that row is the only one with its identity |
| Submission.CreateResubmitIdempotent | memorix/serializers.py:48-60 | submitting the same result again returns the same row and leaves the store as the first submission left it |
| Access.HasPermission | api/permissions.py:7-11 | a request is admitted iff its method is safe or the user is authenticated |
| Access.HasObjectPermission | api/permissions.py:13-20 | safe methods are always admitted; otherwise the profile's owner decides when there is one, else the object's owner; an object with neither is refused |
| Access.UnownedNeverWritable | api/permissions.py:20 | an object with no profile owner and no owner is never writable |
| Access.ProfileOwnerPrecedes | api/permissions.py:16-19 | when profile owner and owner differ, only the profile owner may write |
| Access.ValidateUserOwnership | common/viewset.py:195-201 | an object without a profile attribute is owned iff its owner is the user; a missing or ownerless profile raises |
| Access.OwnershipAgreesWithPermission | common/viewset.py:195-201 | whenever the ownership check answers, it agrees with the object permission for an unsafe method |
| Access.NullProfileFallsThrough | api/permissions.py:15-19 | a null profile makes the ownership check raise, while the permission falls through to the owner |
| Access.ViewPermission | memorix/views.py:28-31 | only the `leaderboard` action is open to everyone |
| Access.MixinPermission | common/viewset.py:15-19 | the `leaderboard` and `best` actions are open to everyone |
| Access.Admits | api/permissions.py:7-11 | AllowAny admits everything; IsOwnerOrReadOnly admits exactly what `has_permission` admits |
| Access.PermissionsDifferOnlyOnBest | common/viewset.py:15-19 | the two permission tables differ only on `best`, and there only for an unsafe request from an anonymous user |
| Access.OwnScores | common/viewset.py:204-215 | exactly the stored scores of the profile |
| Access.ProfileScope | common/viewset.py:35-47 | an anonymous or profile-less user sees nothing; anyone else sees exactly their profile's scores |
| Access.ViewScope | memorix/views.py:33-43 | staff see every score; others see exactly what the profile scope shows |
| Access.ScopesAgreeForNonStaff | memorix/views.py:33-43 | for non-staff users the view's scope equals the profile scope |
| Access.ScopeIsOwned | common/viewset.py:35-47 | every score in a user's scope belongs to that user, so deleting it passes the object permission |
| Access.Destroy | common/viewset.py:83-101 | 401 exactly for anonymous callers; anything but 204 leaves the store untouched; 204 means the caller's own score was deleted and its category rebuilt; for a well-formed caller, 204 exactly when a score with that id belongs to the caller's profile |
| Access.OwnerDeletes | common/viewset.py:83-101 | with unique score ids, the owner's delete answers 204, removes the score with its entry, and rebuilds the score's category |
| Access.NonOwnerDeletesNothing | common/viewset.py:83-90 | a caller who owns no score with that id deletes nothing |
| Access.OtherUsersScoreNotFound | common/viewset.py:85 | for a signed-in user, another user's score is 404, because the scope hides it |
| Access.DestroyKeepsInv | common/viewset.py:83-101 | a delete keeps every schema constraint, and after a 204 no score with that id remains |
| Access.Update | common/viewset.py:65-77 | the owner-or-read-only guard answers 401 exactly to anonymous callers; everyone else gets 405; the store never changes |
| Access.WritesShareGate | api/permissions.py:7-11 | an update is turned away with 401 exactly when a delete by the same caller is |
| Queries.LeaderboardPool | common/score.py:32-33 | an absent or empty `category` keeps every score; a value that is not an integer literal is the `NotANumber` error; any other value keeps exactly the scores whose category id equals its integer value |
| Queries.LeaderboardScores | common/score.py:28-34 | fails exactly when the pool does; otherwise min(`limit`, pool size) scores of the pool, in ranking order, and no omitted score outranks a listed one |
| Queries.LeaderboardData | common/utils.py:21-27 | fails exactly for a non-empty `category` that is not an integer literal; otherwise at most ten scores, fewer only when the pool is smaller, in ranking order |
| Queries.CodeIsNotAnId | memorix/views.py:52-55 | a category code such as `ANIMALS` in the `category` parameter makes the public leaderboard fail converting it to an id |
| Queries.RankedAreLeaderboardHead | memorix/views.py:49-58 | a category's leaderboard top five are the first five rows of its public top-ten list |
| Queries.MaxStars | common/score.py:48-50 | the maximum star count among the scores, reached by one of them |
| Queries.BestOf | common/score.py:48-57 | nothing for no scores; otherwise a score with most stars, then fewest moves, then least time |
| Queries.BestUnique | common/score.py:48-57 | under the unique five-field identity, one profile's best score in a category is unique |
| Queries.BestDiffersFromRanking | common/score.py:55 | the best-score pick (moves before time) can differ from the ranking order (time before moves) |
| Queries.BestPerCategory | common/score.py:47-59 | one best score per listed category the profile played, each at least as good as every other score there |
| Queries.BestPerCategoryDistinct | common/score.py:47-59 | over distinct category ids the result lists each category at most once |
| Queries.UserBestScores | common/score.py:38-60 | with the category ids de-duplicated: the profile's own scores, each best in its category, exactly one per played category |
| Queries.UserBestScoresAsWritten | common/score.py:38-60 | the program's de-duplication runs over (category, completion time) pairs; the result is still only the profile's own scores, each best in its category, and covers every category the profile played |
| Queries.BestListsCategoryTwice | common/score.py:41-45 | two games in one category make the as-written query list that category's best twice, while the corrected query lists it once |
| Queries.BestScoresDataAsWritten | common/utils.py:30-39 | an anonymous or profile-less user gets []; otherwise the caller's own scores, each best in its category, covering every category the caller played, possibly with repeats |
| Queries.BestScoresData | common/utils.py:30-39 | the same listing over the corrected query of Finding 3: the same categories covered, each exactly once |
| Queries.BestScoresDataSameScores | common/utils.py:30-39 | the program's listing and the corrected one hold exactly the same scores, in both directions |
| Queries.BestScoresDataRepeats | common/score.py:41-45 | on the two-games store the program's listing holds the player's best score twice, the corrected listing once |
| Queries.RecentScores | common/actions.py:15-19 | at most ten scores of the scope, newest first, and no omitted score is newer than a listed one |
| Queries.RecentScoresAreOwn | common/actions.py:196-200 | recent scores are the caller's own |
| Queries.UserScores | common/utils.py:5-18 | the caller's own scores, narrowed to the category whose code equals the upper-cased parameter when one is given |
| Queries.UserScoresOfCategory | common/utils.py:15-17 | with unique codes, the code filter selects exactly the scores of that category |
| Actions.ClampLimit | common/actions.py:110-113 | a numeric limit is capped; a missing or non-numeric one becomes ten |
| Actions.Take | common/actions.py:115 | the slice is a prefix of length min(limit, rows); a negative limit is an error |
| Actions.TopPlayers | common/actions.py:108-117 | at most a hundred rows, a prefix of the view's rows, ten by default; an error only for a negative limit |
| Actions.CategoryTop | common/actions.py:153-181 | an unknown upper-cased code is 404. Otherwise the board lists the category's entries in rank order: at most min(limit, 50), never padded, and no omitted entry ranks better |
| Actions.CategoryTopAfterRecompute | common/actions.py:341-371 | right after a rebuild the board, with any limit of at least five, is exactly the category's ranked entries |
| Actions.BestRanked | common/actions.py:135-143 | the entry of lowest rank among a profile's entries in a category |
| Actions.RowFor | common/actions.py:133-147 | no row iff the profile holds no entry in the category; otherwise the row reports the category and its best-ranked entry |
| Actions.RankRows | common/actions.py:133-147 | one row for each category where the profile holds an entry, none for others |
| Actions.UserRank | common/actions.py:119-151 | 401 for anonymous callers, no rows without a profile, otherwise exactly the rows of the categories where the profile is ranked |
| Actions.UserRankAsWritten | common/actions.py:119-151 | 401 for anonymous callers, no rows without a profile; otherwise it fails exactly when the profile holds more than one entry in some category, and when it answers it answers what the corrected user rank answers |
| Actions.RowForAsWritten | common/actions.py:134-147 | the program's `.get` fails exactly when the profile holds more than one entry in the category, and otherwise agrees with the corrected row |
| Actions.RankRowsAsWritten | common/actions.py:133-147 | the as-written loop fails iff some category holds several entries of the profile, and otherwise agrees with the corrected loop |
| Actions.UserRankAgrees | common/actions.py:306-338 | with at most one entry per category the as-written and corrected user ranks are equal |
| Actions.TwoRanksReachable | common/leaderboard.py:12-15 | the store with one profile ranked 1 and 2 in a category is exactly what a rebuild produces |
| Actions.UserRankRaisesOnTwoEntries | common/actions.py:135 | on that store the as-written user rank fails, while the corrected one reports rank 1 |
| Actions.TwoRanksThroughLoop | common/leaderboard.py:12-15 | a ranked player who submits a worse game passes every write of the as-written rebuild, and on the resulting store the as-written user rank fails |
| Actions.ScoresByCategory | common/actions.py:21-40 | an unknown code is 404; otherwise exactly the caller's scores of that category |
| Actions.ScoresByCategoryAgrees | common/actions.py:203-224 | the category action selects the same scores as the `category` query parameter of the own-scores listing |
| Actions.OwnedScoresIn | common/actions.py:51-52 | the caller's scores of one category; empty iff the caller has none there |
| Actions.ClearCategory | common/actions.py:42-71 | anonymous callers are turned away; an unknown code is 404; for a member and a known code it fails exactly when the caller has no score there, with 404 and nothing deleted; success reports a positive count |
| Actions.ClearCategoryScores | common/actions.py:51-60 | a successful clear removes exactly the caller's scores of that category and reports how many |
| Actions.ClearCategoryEntries | common/actions.py:60-63 | after the clear the category holds the ranked top of what remains; other categories' entries are untouched |
| Actions.ClearCategoryKeepsInv | common/actions.py:227-260 | the clear keeps every schema constraint |
| Actions.ClearAll | common/actions.py:73-102 | fails exactly when the caller is anonymous (401) or holds no score (404); success reports the number of the caller's scores |
| Actions.ClearAllScores | common/actions.py:75-87 | a successful clear-all removes exactly the caller's scores and reports how many |
| Actions.ClearAllSettles | common/actions.py:84-97 | each category the caller played holds the ranked top of what remains |
| Actions.ClearAllLeavesOthers | common/actions.py:84-97 | categories the caller never played keep their entries |
| Actions.ClearAllKeepsInv | common/actions.py:263-291 | the clear-all keeps every schema constraint |
| Catalog.GameCategoriesWellFormed | common/constants.py:9-30 | four entries with distinct, non-empty, upper-case codes within the code length, and names within the name length |
| Catalog.GetOrCreate | memorix/management/commands/load_categories.py:14-20 | a row is created iff the code is absent. An existing category is returned untouched, a new one gets the next id, and afterwards the code exists |
| Catalog.GetOrCreateKeepsInv | memorix/management/commands/load_categories.py:14-20 | get-or-create keeps every schema constraint |
| Catalog.LoadCategories | memorix/management/commands/load_categories.py:11-22 | afterwards every catalogue code exists, every prior category is still there, and scores and entries are untouched |
| Catalog.LoadCategoriesCount | memorix/management/commands/load_categories.py:12-22 | the reported count is the number of catalogue codes absent beforehand |
| Catalog.LoadCategoriesIdempotent | memorix/management/commands/load_categories.py:13-22 | a second run changes nothing and reports zero |
| Catalog.LoadCategoriesKeepsInv | memorix/management/commands/initialize_data.py:34-47 | loading keeps every schema constraint |
| Catalog.LoadIntoEmpty | memorix/management/commands/initialize_data.py:37-47 | into a store without categories every catalogue entry is created |
| Catalog.InitializeLeaderboard | memorix/management/commands/initialize_data.py:55-62 | every category is rebuilt once; the count reported is the number of categories |
| Catalog.InitializeLeaderboardSettles | memorix/management/commands/initialize_data.py:57-61 | afterwards every category holds exactly its ranked top list |
| Catalog.Steps | memorix/management/commands/initialize_data.py:24-27 | at least one step always runs; both run iff the two flags are equal; the catalogue load runs unless only leaderboards were asked for |
| Catalog.InitializeData | memorix/management/commands/initialize_data.py:23-32 | scores are untouched; when the load runs every catalogue code exists, otherwise categories are untouched |
| Catalog.InitializeDataEffect | memorix/management/commands/initialize_data.py:29-32 | for every flag setting the command keeps all constraints, and after a rebuild every category holds its ranked top list |
| NaturalTime.Classify | common/datetime_utils.py:9-15 | exactly one bucket applies. Under a minute (future included) is "just now"; then whole minutes 1..59, whole hours 1..23, or whole days of at least one |
| NaturalTime.ClassifyMonotone | utils/datetime_utils.py:9-15 | more elapsed time never gives a smaller count in the same unit, and never leaves "just now" for an earlier time |
| Base.DigitsRoundTrip | common/datetime_utils.py:12 | the decimal rendering of a count reads back as the count |
| Base.Trim | memorix/serializers.py:20 | the stripped value is empty exactly when the value is all spaces, and otherwise neither starts nor ends with a space |
| Base.TrimPadded | memorix/serializers.py:20 | stripping removes exactly the spaces padded around a value that neither starts nor ends with one |
| Base.ShowIntParses | memorix/views.py:52-55 | the decimal rendering of an integer, sign included, converts back to that integer, as `int()` reads the `category` parameter |
| NaturalTime.RenderParses | common/datetime_utils.py:10-15 | every label reads back as the bucket it came from, so labels of different buckets never coincide |
| NaturalTime.ShortNaturalTime | common/datetime_utils.py:4-15 | the label is "just now" iff less than a minute passed, and it reads back as the bucket of the elapsed time |

## Left out

- Scheduling, transactions and concurrency: each operation is one atomic state change.
- The HTTP transport: serialization, pagination, `filter_queryset`, `select_related` hints, response bodies and messages.
- Configuration and throttling: the settings, `ScoreSubmissionThrottle`, and the user and profile plumbing.
- `SecureDeleteMixin`, `ReadOnlyUpdateMixin`, `OptimizedQuerysetMixin` and `GameLeaderboardViewSetMixin` in common/viewset.py: no score view in the model uses them.
- `format_completed_at` is imported by the serializers, but the formatter file defines only `shortnaturaltime`, so `format_completed_at` is not part of this model.
- `get_category_or_404` is called by the category actions but is not defined in any file shown. The model assumes it resolves the upper-cased code like `category_top`, and answers 404 when nothing matches.
- Actions.CategoryTop: a missing category code makes the program fail on `None.upper()`. The model takes the code as a string, since the route always supplies one.
- Actions.TopPlayers: it is generic over the rows of the view's queryset, whose order the view decides.
- NaturalTime.Classify: `shortnaturaltime` divides a floating-point number of seconds. The model divides whole microseconds exactly, and floating-point rounding is not modelled.
- Models.FieldErrors: the numeric bounds are parameters, because their values are not defined in the constants file. `PositiveIntegerField` also rejects negatives, which the model treats as part of those bounds.
- Cross-field plausibility (time against moves, stars against moves): memorix/tests.py:582-609 expects such submissions to be refused. Neither memorix/serializers.py nor memorix/models.py holds a validator for it, so the model refuses only what the per-field bounds refuse.
- Upper-casing covers ASCII letters only, not full Unicode case mapping.
- Submission.PayloadErrors: the field's refusal of surrogate code points is not modelled, because a Dafny character cannot be one.
- Base.ParseInt: reads an optional sign and ASCII digits. The surrounding whitespace, digit-group underscores and non-ASCII digits that Python's `int()` also accepts are not modelled.
- Queries.BestScoresData: is built on the corrected query of Finding 3, so it lists each category once. The program lists a category once per distinct completion time of the caller's games there; `Queries.BestScoresDataAsWritten` models that, and `Queries.BestScoresDataSameScores` shows both hold the same scores.
- Submission.Upsert: stores and ranks a new score through the atomic rebuild. The program's own rebuild fails, inside the transaction and so storing nothing, when one of its writes gives a score a rank that another score of the new top list still holds. That happens when the new score takes rank 1 from the former leader. `Submission.UpsertAsWritten` models that path, and `Submission.NewLeaderSubmissionFails` shows the failure.
- Submission.CreateScore: builds on `Submission.Upsert`, so it shares that difference on the same input. A request without any `category` key, which the field refuses as required, is not modelled: the payload always carries a code.
- Access.Destroy: rebuilds the score's category with the atomic `Leaderboard.Recompute`, where the program runs the write loop of `update_category_leaderboard`. After a deletion from a settled category the surviving scores keep their order and only move up, so the loop's writes do not collide; this is argued, not proved.
- Actions.ClearCategory: the same atomic rebuild after the deletion, on the same argument.
- Actions.ClearAll: the same atomic rebuild for each category touched, on the same argument.
- Catalog.InitializeLeaderboard: rebuilds every category with the atomic `Leaderboard.Recompute`; on a category that is not settled, the program's write loop can refuse a write where the model does not.

## Findings

| source | as written | input that shows it | evidently intended | confidence | as-written member | corrected member |
|---|---|---|---|---|---|---|
| common/leaderboard.py:12-15 | ranks are written one score at a time with `update_or_create`, under a unique (category, rank) constraint | category with one score ranked 1 (4 stars); a new 5-star score arrives. The first write gives the new score rank 1 while the old row still holds rank 1 | the category ends up holding the new ranking: the new score at 1, the old at 2 | not executed | Leaderboard.NewLeaderCollides | Leaderboard.RecomputeKeepsInv |
| common/actions.py:135 | `Leaderboard.objects.get(score__profile=..., category=...)` | one profile holds ranks 1 and 2 in a category, a state the program reaches when a ranked player submits a worse game (`Actions.TwoRanksThroughLoop`); `.get` raises MultipleObjectsReturned | report the profile's best rank in each category | not executed | Actions.UserRankRaisesOnTwoEntries | Actions.UserRank |
| common/score.py:41-45 | `values_list('category', flat=True).distinct()` under the model's default ordering by `-completed_at` | one profile, two games in one category at different times; the query selects (category, completed_at), so DISTINCT keeps both and the category is listed twice | one best score per distinct category | not executed | Queries.BestListsCategoryTwice | Queries.UserBestScores |

About the findings:
- **Finding 1** is modelled by `Leaderboard.UpdateCategoryLeaderboard`, the
  write loop as written, and `Submission.UpsertAsWritten`, the submission
  that runs it. On the new-leader input the submission fails and stores
  nothing (`Submission.NewLeaderSubmissionFails`). The rest of the model,
  `Submission.Upsert` and `Submission.CreateScore` included, uses the atomic
  `Leaderboard.Recompute`. Where the loop succeeds it leaves the same
  entries as that rebuild.
- **Finding 2.** `Actions.UserRankAsWritten` follows the `.get` in
  `handle_user_rank`. `Actions.UserRank` reports the best rank instead.
- **Finding 3** also affects `best` in memorix/views.py:69-73, which
  repeats the query. The corrected `Queries.UserBestScores` de-duplicates
  the category ids. `Queries.BestScoresDataAsWritten` is
  `get_best_scores_data` over the query as written, and
  `Queries.BestScoresData` is the same function over the corrected query.

=== FILE: access.dfy ===
/**
 * Access decisions: the owner-or-read-only permission, the ownership
 * check, which actions are open to anyone, the per-user score scopes, and
 * the score endpoints that change or refuse to change a stored score.
 */
module Access {
  import opened Base
  import opened Models
  import opened Leaderboard

  datatype HttpMethod = Get | Head | Options | Post | Put | Patch | Delete

  /** The read-only methods, which every permission admits. */
  predicate IsSafe(m: HttpMethod)
  {
    m == Get || m == Head || m == Options
  }

  /** A user is well formed when the profile it carries belongs to it. */
  predicate WellFormedUser(user: User)
  {
    user.Member? && user.profile.Some? ==> user.profile.value.owner == user.id
  }

  /** Whether the request user is the user with id `owner`; an anonymous user is nobody. */
  predicate IsUser(user: User, owner: nat)
  {
    user.Member? && user.id == owner
  }

  // ---------------------------------------------------------------------
  // IsOwnerOrReadOnly

  /** View level: reads are open, writes need an authenticated user. */
  function HasPermission(m: HttpMethod, user: User): (allowed: bool)
    ensures allowed <==> IsSafe(m) || user.IsAuthenticated()
  {
    if IsSafe(m) then true else user.Member?
  }

  /**
   * How an object answers `hasattr(obj, 'profile')`: no such attribute, a
   * profile attribute holding None, or a profile whose `owner` attribute is
   * present (with the owner's id) or missing.
   */
  datatype ProfileAttr = NoProfileAttr | NullProfile | ProfileAttrOf(owner: Option<nat>)

  /** The two attributes the ownership decisions look at. */
  datatype Resource = Resource(profile: ProfileAttr, owner: Option<nat>)

  /** A stored score: it always has a profile, and the profile has an owner. */
  function ScoreResource(x: Score): Resource
  {
    Resource(ProfileAttrOf(Some(x.profile.owner)), None)
  }

  /**
   * Object level: reads are open; a write is allowed to the owner of the
   * object's profile when that profile has an owner, otherwise to the
   * object's own owner, and to nobody when the object has neither.
   */
  function HasObjectPermission(m: HttpMethod, user: User, obj: Resource): (allowed: bool)
    ensures IsSafe(m) ==> allowed
    ensures (!IsSafe(m) && obj.profile.ProfileAttrOf? && obj.profile.owner.Some?)
              ==> (allowed <==> IsUser(user, obj.profile.owner.value))
    ensures (!IsSafe(m) && !(obj.profile.ProfileAttrOf? && obj.profile.owner.Some?))
              ==> (allowed <==> obj.owner.Some? && IsUser(user, obj.owner.value))
  {
    if IsSafe(m) then true
    else match obj.profile
      case ProfileAttrOf(Some(o)) => IsUser(user, o)
      case _ => obj.owner.Some? && IsUser(user, obj.owner.value)
  }

  /** A write to an object with neither a profile owner nor an owner is refused to everybody. */
  lemma UnownedNeverWritable(m: HttpMethod, user: User, obj: Resource)
    requires !IsSafe(m)
    requires obj.owner.None?
    requires !(obj.profile.ProfileAttrOf? && obj.profile.owner.Some?)
    ensures !HasObjectPermission(m, user, obj)
  {
  }

  /** The profile's owner decides even when the object's own owner is someone else. */
  lemma ProfileOwnerPrecedes(m: HttpMethod, user: User, o1: nat, o2: nat)
    requires !IsSafe(m) && o1 != o2
    ensures HasObjectPermission(m, user, Resource(ProfileAttrOf(Some(o1)), Some(o2))) <==> IsUser(user, o1)
    ensures !(HasObjectPermission(m, user, Resource(ProfileAttrOf(Some(o1)), Some(o2))) && IsUser(user, o2))
  {
  }

  /**
   * `validate_user_ownership`: with a profile attribute the profile's owner
   * decides, else the object's owner, else nobody. Reading the owner of a
   * None profile, or of a profile without one, raises: None models that.
   */
  function ValidateUserOwnership(obj: Resource, user: User): (r: Option<bool>)
    ensures r.None? <==> obj.profile.NullProfile? || (obj.profile.ProfileAttrOf? && obj.profile.owner.None?)
    ensures obj.profile.NoProfileAttr? ==> r == Some(obj.owner.Some? && IsUser(user, obj.owner.value))
  {
    match obj.profile
    case ProfileAttrOf(Some(o)) => Some(IsUser(user, o))
    case ProfileAttrOf(None) => None
    case NullProfile => None
    case NoProfileAttr => Some(obj.owner.Some? && IsUser(user, obj.owner.value))
  }

  /** Wherever the ownership check does not raise, it agrees with the permission on every write. */
  lemma OwnershipAgreesWithPermission(m: HttpMethod, user: User, obj: Resource)
    requires !IsSafe(m)
    requires ValidateUserOwnership(obj, user).Some?
    ensures ValidateUserOwnership(obj, user).value == HasObjectPermission(m, user, obj)
  {
  }

  /** Where they part: a None profile raises in the check but falls through to the owner in the permission. */
  lemma NullProfileFallsThrough(m: HttpMethod, user: User, owner: nat)
    requires !IsSafe(m) && IsUser(user, owner)
    ensures ValidateUserOwnership(Resource(NullProfile, Some(owner)), user).None?
    ensures HasObjectPermission(m, user, Resource(NullProfile, Some(owner)))
  {
  }

  // ---------------------------------------------------------------------
  // Which permission guards which action

  datatype PermissionClass = AllowAny | IsOwnerOrReadOnly

  /** `ScoreViewSet.get_permissions`: only the leaderboard action is open. */
  function ViewPermission(action: string): (p: PermissionClass)
    ensures p == AllowAny <==> action == "leaderboard"
  {
    if action == "leaderboard" then AllowAny else IsOwnerOrReadOnly
  }

  /** `GamePermissionMixin.get_permissions`: the leaderboard and best actions are open. */
  function MixinPermission(action: string): (p: PermissionClass)
    ensures p == AllowAny <==> action == "leaderboard" || action == "best"
  {
    if action == "leaderboard" || action == "best" then AllowAny else IsOwnerOrReadOnly
  }

  /** The view-level verdict of a permission class. */
  function Admits(p: PermissionClass, m: HttpMethod, user: User): (allowed: bool)
    ensures p == AllowAny ==> allowed
    ensures p == IsOwnerOrReadOnly ==> (allowed <==> HasPermission(m, user))
  {
    match p
    case AllowAny => true
    case IsOwnerOrReadOnly => HasPermission(m, user)
  }

  /** The two guards differ on the best action alone, and there only for an anonymous write. */
  lemma PermissionsDifferOnlyOnBest(action: string, m: HttpMethod, user: User)
    ensures action != "best" ==> ViewPermission(action) == MixinPermission(action)
    ensures (Admits(ViewPermission(action), m, user) != Admits(MixinPermission(action), m, user))
              <==> (action == "best" && !IsSafe(m) && user.Anonymous?)
  {
  }

  // ---------------------------------------------------------------------
  // Score scopes

  /** The scores of one profile, in store order. */
  function OwnScores(s: Store, p: Profile): (r: seq<Score>)
    ensures forall x :: x in r <==> x in s.scores && x.profile == p
    ensures |r| <= |s.scores|
  {
    Filter(s.scores, (x: Score) => x.profile == p)
  }

  /**
   * `UserProfileQuerysetMixin.get_queryset` and `get_user_profile_queryset`:
   * nothing for an anonymous or profile-less user, else the user's own
   * scores.
   */
  function ProfileScope(s: Store, user: User): (r: seq<Score>)
    ensures forall x :: x in r <==> x in s.scores && user.Member? && user.profile == Some(x.profile)
  {
    match user
    case Anonymous => []
    case Member(_, _, None) => []
    case Member(_, _, Some(p)) => OwnScores(s, p)
  }

  /** `ScoreViewSet.get_queryset`: like the profile scope, except that staff see every score. */
  function ViewScope(s: Store, user: User): (r: seq<Score>)
    ensures user.Member? && user.isStaff ==> r == s.scores
    ensures forall x :: x in r <==>
              x in s.scores && user.Member? && (user.isStaff || user.profile == Some(x.profile))
  {
    match user
    case Anonymous => []
    case Member(_, true, _) => s.scores
    case Member(_, false, _) => ProfileScope(s, user)
  }

  /** For everybody but staff the two scopes are the same list. */
  lemma ScopesAgreeForNonStaff(s: Store, user: User)
    requires !(user.Member? && user.isStaff)
    ensures ViewScope(s, user) == ProfileScope(s, user)
  {
  }

  /** For a well-formed user, every score in the profile scope is owned by that user. */
  lemma ScopeIsOwned(s: Store, user: User, x: Score)
    requires WellFormedUser(user)
    requires x in ProfileScope(s, user)
    ensures IsUser(user, x.profile.owner)
    ensures HasObjectPermission(Delete, user, ScoreResource(x))
  {
  }

  // ---------------------------------------------------------------------
  // Score endpoints that write

  datatype Status = Ok200 | NoContent204 | Unauthorized401 | Forbidden403 | NotFound404 | MethodNotAllowed405

  /** The first score of `xs` with the given id. */
  function FindScore(xs: seq<Score>, id: nat): (r: Option<Score>)
    ensures r.Some? ==> r.value in xs && r.value.id == id
    ensures r.None? <==> forall x :: x in xs ==> x.id != id
  {
    if xs == [] then None
    else if xs[0].id == id then Some(xs[0])
    else FindScore(xs[1..], id)
  }

  /**
   * `ScoreCRUDMixin.destroy` behind the owner-or-read-only guard: 401 for
   * an anonymous caller, 404 when the id is not in the caller's scope, 403
   * when the object permission or the explicit owner check refuses, and
   * otherwise 204 with the score deleted (its entry with it) and its
   * category recomputed.
   */
  function Destroy(s: Store, user: User, id: nat): (r: (Status, Store))
    ensures r.0 != NoContent204 ==> r.1 == s
    ensures r.0 == Unauthorized401 <==> user.Anonymous?
    ensures r.0 == NoContent204 ==>
              exists x :: x in s.scores && x.id == id && IsUser(user, x.profile.owner) && user.profile == Some(x.profile)
                && r.1 == Recompute(DeleteScores(s, {id}), x.category, DefaultTopCount)
    ensures WellFormedUser(user) ==>
              (r.0 == NoContent204 <==> exists x :: x in s.scores && x.id == id && user.Member? && user.profile == Some(x.profile))
  {
    if !HasPermission(Delete, user) then (Unauthorized401, s)
    else match FindScore(ProfileScope(s, user), id)
      case None => (NotFound404, s)
      case Some(x) =>
        if !HasObjectPermission(Delete, user, ScoreResource(x)) then (Forbidden403, s)
        else if !IsUser(user, x.profile.owner) then (Forbidden403, s)
        else (NoContent204, Recompute(DeleteScores(s, {x.id}), x.category, DefaultTopCount))
  }

  /**
   * The owner's delete goes through: with unique score ids, a well-formed
   * caller whose profile holds the score gets 204, the score is gone with
   * its entry, and its category is recomputed.
   */
  lemma OwnerDeletes(s: Store, b: Bounds, user: User, x: Score)
    requires Inv(s, b)
    requires x in s.scores
    requires WellFormedUser(user) && user.Member? && user.profile == Some(x.profile)
    ensures Destroy(s, user, x.id) == (NoContent204, Recompute(DeleteScores(s, {x.id}), x.category, DefaultTopCount))
  {
    assert x in ProfileScope(s, user);
    var y := FindScore(ProfileScope(s, user), x.id).value;
    var i :| 0 <= i < |s.scores| && s.scores[i] == x;
    var j :| 0 <= j < |s.scores| && s.scores[j] == y;
    assert i == j by {
      assert ScoreIdOf(s.scores[i]) == ScoreIdOf(s.scores[j]);
    }
    assert HasObjectPermission(Delete, user, ScoreResource(y));
  }

  /** Nobody deletes a score they do not own: the store comes back unchanged. */
  lemma NonOwnerDeletesNothing(s: Store, user: User, id: nat)
    requires forall x :: x in s.scores && x.id == id ==> !IsUser(user, x.profile.owner)
    ensures Destroy(s, user, id).1 == s
    ensures Destroy(s, user, id).0 != NoContent204
  {
  }

  /**
   * For a well-formed caller another user's score is simply not found: the
   * scope hides it before either ownership check is reached, so 403 never
   * happens.
   */
  lemma OtherUsersScoreNotFound(s: Store, user: User, id: nat)
    requires WellFormedUser(user) && user.Member?
    requires forall x :: x in s.scores && x.id == id ==> !IsUser(user, x.profile.owner)
    ensures Destroy(s, user, id).0 == NotFound404
  {
    match FindScore(ProfileScope(s, user), id)
    case None =>
    case Some(x) =>
      ScopeIsOwned(s, user, x);
  }

  /** The owner's delete removes the score and keeps every schema constraint. */
  lemma DestroyKeepsInv(s: Store, b: Bounds, user: User, id: nat)
    requires Inv(s, b) && DefaultTopCount <= b.maxRank
    ensures Inv(Destroy(s, user, id).1, b)
    ensures Destroy(s, user, id).0 == NoContent204 ==> forall x :: x in Destroy(s, user, id).1.scores ==> x.id != id
  {
    var r := Destroy(s, user, id);
    if r.0 == NoContent204 {
      var x := FindScore(ProfileScope(s, user), id).value;
      DeleteScoresKeepsInv(s, b, {id});
      RecomputeKeepsInv(DeleteScores(s, {id}), b, x.category, DefaultTopCount);
    }
  }

  /**
   * `update` and `partial_update` behind the owner-or-read-only guard: a
   * PUT or PATCH from an anonymous caller is turned away with 401 before
   * the handler runs; everybody else gets 405. The store is left as it was.
   */
  function Update(s: Store, user: User, id: nat, partial: bool): (r: (Status, Store))
    ensures r.1 == s
    ensures r.0 == Unauthorized401 <==> user.Anonymous?
    ensures user.Member? ==> r.0 == MethodNotAllowed405
  {
    var m := if partial then Patch else Put;
    if !HasPermission(m, user) then (Unauthorized401, s) else (MethodNotAllowed405, s)
  }

  /** Writes share one gate: an update is turned away exactly when a delete by the same caller is. */
  lemma WritesShareGate(s: Store, user: User, id: nat, partial: bool)
    ensures Update(s, user, id, partial).0 == Unauthorized401 <==> Destroy(s, user, id).0 == Unauthorized401
  {
  }
}

=== FILE: actions.dfy ===
/**
 * The action handlers shared by the score and leaderboard views: the
 * limited top lists, the caller's rank per category, and the two bulk
 * deletions of the caller's own scores. Each handler is written once
 * here, for both its mixin method and its standalone twin.
 */
module Actions {
  import opened Base
  import opened Sorting
  import opened Models
  import opened Leaderboard
  import opened Access
  import opened Queries
  import Submission

  const DefaultLimit: nat := 10
  const TopPlayersCap: nat := 100
  const CategoryTopCap: nat := 50

  /**
   * The `limit` argument as `int(limit)` sees it: missing (TypeError), not
   * a number (ValueError), or an integer.
   */
  datatype LimitArg = NoLimit | NotNumeric | Numeric(value: int)

  /** What a handler answers instead of data. */
  datatype ActionError =
    | AuthenticationRequired          // 401
    | CategoryNotFound                // 404 "Category not found."
    | NoScoresForCategory             // 404 "No scores found for this category."
    | NoScoresToDelete                // 404 "No scores found to delete."
    | NegativeSlice                   // the ORM refuses a negative slice bound
    | MultipleEntries(code: string)   // `.get` matched more than one row

  // ---------------------------------------------------------------------
  // Limits

  /** `min(int(limit), cap)`, falling back to ten when the argument is not an integer. */
  function ClampLimit(arg: LimitArg, cap: nat): (limit: int)
    requires DefaultLimit <= cap
    ensures limit <= cap
    ensures (arg.Numeric? && arg.value <= cap) ==> limit == arg.value
    ensures (arg.Numeric? && arg.value > cap) ==> limit == cap
    ensures !arg.Numeric? ==> limit == DefaultLimit
  {
    match arg
    case Numeric(v) => Min(v, cap)
    case _ => DefaultLimit
  }

  /** `rows[:limit]` on a queryset: a prefix, and an error for a negative bound. */
  function Take<T>(rows: seq<T>, limit: int): (r: Result<seq<T>, ActionError>)
    ensures r.Ok? <==> limit >= 0
    ensures r.Err? ==> r.error == NegativeSlice
    ensures r.Ok? ==> |r.value| == Min(limit, |rows|) && r.value == rows[..|r.value|]
  {
    if limit < 0 then Err(NegativeSlice) else Ok(rows[..Min(limit, |rows|)])
  }

  /**
   * `handle_top_players` / `get_top_players_action`: the first `limit` rows
   * of the view's queryset, never more than a hundred.
   */
  function TopPlayers<T>(rows: seq<T>, arg: LimitArg): (r: Result<seq<T>, ActionError>)
    ensures r.Err? <==> arg.Numeric? && arg.value < 0
    ensures r.Ok? ==> |r.value| == Min(ClampLimit(arg, TopPlayersCap), |rows|)
    ensures r.Ok? ==> |r.value| <= TopPlayersCap && r.value == rows[..|r.value|]
    ensures !arg.Numeric? ==> r == Ok(rows[..Min(DefaultLimit, |rows|)])
  {
    Take(rows, ClampLimit(arg, TopPlayersCap))
  }

  // ---------------------------------------------------------------------
  // A category's top entries

  /** `order_by('rank')`; equal ranks, which a valid store never holds, stay in score-id order. */
  predicate RankOrder(a: Entry, b: Entry)
  {
    a.rank < b.rank || (a.rank == b.rank && a.scoreId <= b.scoreId)
  }

  lemma RankOrderTotal()
    ensures TotalPreorder(RankOrder)
  {
  }

  datatype CategoryBoard = CategoryBoard(name: string, code: string, entries: seq<Entry>)

  /**
   * `handle_category_top` / `get_category_top_action`: the category whose
   * code is the upper-cased argument (404 when there is none), and its
   * entries in rank order, at most `min(limit, 50)` of them and never
   * padded.
   */
  function CategoryTop(s: Store, code: string, arg: LimitArg): (r: Result<CategoryBoard, ActionError>)
    ensures r == Err(CategoryNotFound) <==> forall c :: c in s.categories ==> c.code != Upper(code)
    ensures r.Err? ==> r.error == CategoryNotFound || (r.error == NegativeSlice && arg.Numeric? && arg.value < 0)
    ensures r.Ok? ==>
              var c := CategoryByCode(s.categories, Upper(code)).value;
              && r.value.name == c.name && r.value.code == c.code
              && |r.value.entries| == Min(ClampLimit(arg, CategoryTopCap), |EntriesIn(s, c.id)|)
              && |r.value.entries| <= CategoryTopCap
              && (forall e :: e in r.value.entries ==> e in s.entries && e.category == c.id)
              && SortedBy(RankOrder, r.value.entries)
              && (forall i, e :: 0 <= i < |r.value.entries| && e in multiset(EntriesIn(s, c.id)) - multiset(r.value.entries)
                    ==> RankOrder(r.value.entries[i], e))
  {
    match CategoryByCode(s.categories, Upper(code))
    case None => Err(CategoryNotFound)
    case Some(c) =>
      var limit := ClampLimit(arg, CategoryTopCap);
      if limit < 0 then Err(NegativeSlice)
      else
        var es := EntriesIn(s, c.id);
        RankOrderTotal();
        TopKSelects(es, RankOrder, limit);
        var top := TopK(es, RankOrder, limit);
        assert forall e :: e in top ==> e in multiset(es);
        Ok(CategoryBoard(c.name, c.code, top))
  }

  /**
   * Right after a recompute the category's board, with the default limit
   * or any limit of at least five, lists exactly the ranked top scores,
   * rank 1 first.
   */
  lemma CategoryTopAfterRecompute(s: Store, c: Category, code: string, arg: LimitArg)
    requires KeysDistinct(s.categories, CodeOf)
    requires c in s.categories && c.code == Upper(code)
    requires !arg.Numeric? || arg.value >= DefaultTopCount
    ensures CategoryTop(Recompute(s, c.id, DefaultTopCount), code, arg)
              == Ok(CategoryBoard(c.name, c.code, RankEntries(Top(s, c.id, DefaultTopCount), c.id)))
  {
    var r := Recompute(s, c.id, DefaultTopCount);
    CategoryByCodeUnique(s.categories, c);
    CategoryTopOf(r, c, code, arg);
    RecomputedCategory(s, c.id, DefaultTopCount);
    RankedTopIsItself(RankEntries(Top(s, c.id, DefaultTopCount), c.id), Top(s, c.id, DefaultTopCount), c.id,
                      ClampLimit(arg, CategoryTopCap));
  }

  /** Taking at least as many entries as a ranked list holds, in rank order, gives the list back. */
  lemma RankedTopIsItself(ranked: seq<Entry>, top: seq<Score>, category: nat, limit: nat)
    requires ranked == RankEntries(top, category)
    requires limit >= |ranked|
    ensures TopK(ranked, RankOrder, limit) == ranked
  {
    assert TopK(ranked, RankOrder, limit) == SortBy(ranked, RankOrder);
    RankedSortsToItself(ranked, top, category);
  }

  /** The board of a category the code resolves to, under a usable limit. */
  lemma CategoryTopOf(s: Store, c: Category, code: string, arg: LimitArg)
    requires CategoryByCode(s.categories, Upper(code)) == Some(c)
    requires ClampLimit(arg, CategoryTopCap) >= 0
    ensures CategoryTop(s, code, arg)
              == Ok(CategoryBoard(c.name, c.code, TopK(EntriesIn(s, c.id), RankOrder, ClampLimit(arg, CategoryTopCap))))
  {
  }

  /** Sorting a ranked list by rank leaves it as it is. */
  lemma RankedSortsToItself(ranked: seq<Entry>, top: seq<Score>, category: nat)
    requires ranked == RankEntries(top, category)
    ensures SortBy(ranked, RankOrder) == ranked
  {
    var sorted := SortBy(ranked, RankOrder);
    RankOrderTotal();
    SortBySorted(ranked, RankOrder);
    RankedByRank(ranked, top, category);
    forall a | a in sorted
      ensures a in ranked
    {
      assert a in multiset(ranked);
    }
    SortedUnique(sorted, ranked, RankOrder);
  }

  /** A ranked list is in rank order, and no two of its entries tie. */
  lemma RankedByRank(ranked: seq<Entry>, top: seq<Score>, category: nat)
    requires ranked == RankEntries(top, category)
    ensures SortedBy(RankOrder, ranked)
    ensures forall a, b :: a in ranked && b in ranked && RankOrder(a, b) && RankOrder(b, a) ==> a == b
  {
    forall a, b | a in ranked && b in ranked && RankOrder(a, b) && RankOrder(b, a)
      ensures a == b
    {
      var i :| 0 <= i < |ranked| && ranked[i] == a;
      var j :| 0 <= j < |ranked| && ranked[j] == b;
    }
  }

  // ---------------------------------------------------------------------
  // The caller's rank in each category

  datatype RankRow = RankRow(category: string, code: string, rank: int, scoreId: nat)

  /** Whether the score an entry ranks belongs to profile p. */
  predicate RanksProfile(s: Store, p: Profile, e: Entry)
  {
    match FindScore(s.scores, e.scoreId)
    case Some(x) => x.profile == p
    case None => false
  }

  predicate ProfileEntryIn(s: Store, p: Profile, category: nat, e: Entry)
  {
    e.category == category && RanksProfile(s, p, e)
  }

  /** `Leaderboard.objects.filter(score__profile=p, category=c)`. */
  function ProfileEntries(s: Store, p: Profile, category: nat): (r: seq<Entry>)
    ensures forall e :: e in r <==> e in s.entries && e.category == category && RanksProfile(s, p, e)
  {
    Filter(s.entries, (e: Entry) => ProfileEntryIn(s, p, category, e))
  }

  /** The entry of best (lowest) rank in a non-empty list. */
  function BestRanked(es: seq<Entry>): (e: Entry)
    requires es != []
    ensures e in es
    ensures forall x :: x in es ==> e.rank <= x.rank
  {
    if |es| == 1 then es[0]
    else
      var rest := BestRanked(es[1..]);
      assert forall x :: x in es ==> x == es[0] || x in es[1..];
      if es[0].rank <= rest.rank then es[0] else rest
  }

  /** The row for one category: its best entry held by the profile, or nothing when it holds none. */
  function RowFor(s: Store, p: Profile, c: Category): (r: Option<RankRow>)
    ensures r.None? <==> ProfileEntries(s, p, c.id) == []
    ensures r.Some? ==>
              && r.value.category == c.name && r.value.code == c.code
              && Entry(r.value.scoreId, c.id, r.value.rank) in ProfileEntries(s, p, c.id)
              && (forall e :: e in ProfileEntries(s, p, c.id) ==> r.value.rank <= e.rank)
  {
    var es := ProfileEntries(s, p, c.id);
    if es == [] then None
    else
      var e := BestRanked(es);
      assert e == Entry(e.scoreId, c.id, e.rank);
      Some(RankRow(c.name, c.code, e.rank, e.scoreId))
  }

  /** The loop over the categories, keeping the rows that exist. */
  function RankRows(s: Store, p: Profile, cats: seq<Category>): (r: seq<RankRow>)
    ensures |r| <= |cats|
    ensures forall c :: c in cats && RowFor(s, p, c).Some? ==> RowFor(s, p, c).value in r
    ensures forall row :: row in r ==> exists c :: c in cats && RowFor(s, p, c) == Some(row)
  {
    if cats == [] then []
    else
      var rest := RankRows(s, p, cats[1..]);
      assert forall c :: c in cats ==> c == cats[0] || c in cats[1..];
      match RowFor(s, p, cats[0])
      case None => rest
      case Some(row) => [row] + rest
  }

  /**
   * `handle_user_rank` / `get_user_rank_action`, reporting the best rank
   * where the profile holds several: 401 for an anonymous caller, no rows
   * without a profile, otherwise one row for each category, in name order,
   * where the profile holds an entry, and none for any other.
   */
  function UserRank(s: Store, user: User): (r: Result<seq<RankRow>, ActionError>)
    ensures r.Err? <==> user.Anonymous?
    ensures r.Err? ==> r.error == AuthenticationRequired
    ensures (user.Member? && user.profile.None?) ==> r == Ok([])
    ensures (r.Ok? && user.profile.Some?) ==>
              && (forall c :: c in s.categories && ProfileEntries(s, user.profile.value, c.id) != []
                    ==> RowFor(s, user.profile.value, c).value in r.value)
              && (forall row :: row in r.value ==>
                    exists c :: c in s.categories && RowFor(s, user.profile.value, c) == Some(row))
  {
    match user
    case Anonymous => Err(AuthenticationRequired)
    case Member(_, _, None) => Ok([])
    case Member(_, _, Some(p)) =>
      var cats := CategoriesByName(s);
      assert forall c :: c in cats <==> c in s.categories by {
        forall c ensures c in cats <==> c in s.categories {
          assert c in cats <==> c in multiset(cats);
        }
      }
      Ok(RankRows(s, p, cats))
  }

  /** The row for one category as `handle_user_rank` computes it: `.get` raises when more than one entry matches. */
  function RowForAsWritten(s: Store, p: Profile, c: Category): (r: Result<Option<RankRow>, ActionError>)
    ensures r.Err? <==> |ProfileEntries(s, p, c.id)| > 1
    ensures r.Ok? ==> r.value == RowFor(s, p, c)
  {
    var es := ProfileEntries(s, p, c.id);
    if es == [] then Ok(None)
    else if |es| == 1 then
      assert es[0] in es;
      Ok(Some(RankRow(c.name, c.code, es[0].rank, es[0].scoreId)))
    else Err(MultipleEntries(c.code))
  }

  function RankRowsAsWritten(s: Store, p: Profile, cats: seq<Category>): (r: Result<seq<RankRow>, ActionError>)
    ensures r.Err? <==> exists c :: c in cats && |ProfileEntries(s, p, c.id)| > 1
    ensures r.Ok? ==> r.value == RankRows(s, p, cats)
  {
    if cats == [] then Ok([])
    else
      assert forall c :: c in cats ==> c == cats[0] || c in cats[1..];
      match RowForAsWritten(s, p, cats[0])
      case Err(e) => Err(e)
      case Ok(row) =>
        match RankRowsAsWritten(s, p, cats[1..])
        case Err(e) => Err(e)
        case Ok(rest) => if row.Some? then Ok([row.value] + rest) else Ok(rest)
  }

  /**
   * `handle_user_rank` as written: it fails exactly when the caller's
   * profile holds more than one entry in some category, and otherwise
   * answers what the best-rank reading answers.
   */
  function UserRankAsWritten(s: Store, user: User): (r: Result<seq<RankRow>, ActionError>)
    ensures user.Anonymous? ==> r == Err(AuthenticationRequired)
    ensures (user.Member? && user.profile.None?) ==> r == Ok([])
    ensures (user.Member? && user.profile.Some?) ==>
              (r.Err? <==> exists c :: c in s.categories && |ProfileEntries(s, user.profile.value, c.id)| > 1)
    ensures r.Ok? ==> r == UserRank(s, user)
  {
    match user
    case Anonymous => Err(AuthenticationRequired)
    case Member(_, _, None) => Ok([])
    case Member(_, _, Some(p)) =>
      var cats := CategoriesByName(s);
      assert forall c :: c in cats <==> c in s.categories by {
        forall c ensures c in cats <==> c in s.categories {
          assert c in cats <==> c in multiset(cats);
        }
      }
      RankRowsAsWritten(s, p, cats)
  }

  /** Where the profile holds at most one entry per category, the two readings agree. */
  lemma UserRankAgrees(s: Store, user: User)
    requires user.Member? && user.profile.Some?
    requires forall c :: c in s.categories ==> |ProfileEntries(s, user.profile.value, c.id)| <= 1
    ensures UserRankAsWritten(s, user) == UserRank(s, user)
  {
    var cats := CategoriesByName(s);
    forall c | c in cats
      ensures |ProfileEntries(s, user.profile.value, c.id)| <= 1
    {
      assert c in multiset(cats);
    }
  }

  /** The store the recompute leaves after the new leader arrives: one player holds ranks 1 and 2. */
  function TwoRanksStore(): Store
  {
    var s := NewLeaderStore();
    s.(entries := [Entry(2, 1, 1), Entry(1, 1, 2)])
  }

  lemma TwoRanksReachable()
    ensures Recompute(NewLeaderStore(), 1, DefaultTopCount) == TwoRanksStore()
  {
    NewLeaderRecomputed();
  }

  lemma TwoRanksEntries()
    ensures ProfileEntries(TwoRanksStore(), Profile(1, 1), 1) == [Entry(2, 1, 1), Entry(1, 1, 2)]
  {
    var s := TwoRanksStore();
    assert FindScore(s.scores, 2) == Some(s.scores[1]);
    assert FindScore(s.scores, 1) == Some(s.scores[0]);
    assert RanksProfile(s, Profile(1, 1), Entry(2, 1, 1));
    assert RanksProfile(s, Profile(1, 1), Entry(1, 1, 2));
    FilterAll(s.entries, (e: Entry) => ProfileEntryIn(s, Profile(1, 1), 1, e));
  }

  /**
   * A state the recompute itself produces makes `handle_user_rank`'s lookup
   * raise, while the best-rank reading reports rank 1.
   */
  lemma UserRankRaisesOnTwoEntries()
    ensures UserRankAsWritten(TwoRanksStore(), Member(1, false, Some(Profile(1, 1)))).Err?
    ensures UserRank(TwoRanksStore(), Member(1, false, Some(Profile(1, 1))))
              == Ok([RankRow("Animals", "ANIMALS", 1, 2)])
  {
    TwoRanksAsWritten();
    TwoRanksCorrected();
  }

  lemma TwoRanksAsWritten()
    ensures UserRankAsWritten(TwoRanksStore(), Member(1, false, Some(Profile(1, 1)))).Err?
  {
    var s := TwoRanksStore();
    var c := s.categories[0];
    TwoRanksEntries();
    SingleCategoryByName(s);
    assert c in CategoriesByName(s) && c.id == 1;
  }

  lemma TwoRanksCorrected()
    ensures UserRank(TwoRanksStore(), Member(1, false, Some(Profile(1, 1))))
              == Ok([RankRow("Animals", "ANIMALS", 1, 2)])
  {
    var s := TwoRanksStore();
    var p := Profile(1, 1);
    var c := s.categories[0];
    TwoRanksEntries();
    SingleCategoryByName(s);
    assert BestRanked(ProfileEntries(s, p, 1)) == Entry(2, 1, 1);
    TwoRanksRow(s, p, c);
  }

  /** A category whose one score, five stars, holds rank 1. */
  function LeaderRankedStore(): Store
  {
    Store([Category(1, "ANIMALS", "Animals", "")], [Score(1, Profile(1, 1), 1, 15, 45, 5, 0)], [Entry(1, 1, 1)], 2, 1)
  }

  /** The same player's later, worse game: four stars, in more moves and more time. */
  function WorseGame(): Submission.Prepared
  {
    Submission.Prepared(Category(1, "ANIMALS", "Animals", ""), Profile(1, 1), 20, 60, 4)
  }

  /** The store once the worse game is saved, before its category is rebuilt. */
  function WorseSaved(): Store
  {
    Store([Category(1, "ANIMALS", "Animals", "")],
          [Score(1, Profile(1, 1), 1, 15, 45, 5, 0), Score(2, Profile(1, 1), 1, 20, 60, 4, 1)],
          [Entry(1, 1, 1)], 3, 2)
  }

  /**
   * Saving the worse game: the write loop keeps the leader at rank 1 and
   * appends the worse game at rank 2, so every write is accepted, and the
   * rebuilt category ranks both games of the one player.
   */
  lemma WorseGameWrites()
    ensures Submission.Saved(LeaderRankedStore(), WorseGame()) == WorseSaved()
    ensures WriteRanks(Pruned(WorseSaved(), 1, DefaultTopCount), 1, Top(WorseSaved(), 1, DefaultTopCount), 0).Ok?
    ensures Submission.Upsert(LeaderRankedStore(), WorseGame()).0.entries == [Entry(1, 1, 1), Entry(2, 1, 2)]
  {
    WorseGameSaved();
    WorseGameAccepted();
    Submission.UpsertRecomputes(LeaderRankedStore(), WorseGame());
    WorseGameRanked();
  }

  /** The worse game is new, so it is appended with the next id and timestamp. */
  lemma WorseGameSaved()
    ensures Submission.Saved(LeaderRankedStore(), WorseGame()) == WorseSaved()
  {
    var s := LeaderRankedStore();
    var d := WorseGame();
    assert Submission.FindResult(s.scores, (d.profile, d.category.id, d.moves, d.time, d.stars)) == None by {
      assert s.scores[0].moves != d.moves;
    }
    assert Submission.AppendNew(s, d) == WorseSaved();
  }

  /** The pruning keeps the leader's entry, and both writes are accepted. */
  lemma WorseGameAccepted()
    ensures WriteRanks(Pruned(WorseSaved(), 1, DefaultTopCount), 1, Top(WorseSaved(), 1, DefaultTopCount), 0).Ok?
  {
    var w := WorseSaved();
    TopOfTwo(w, 1, DefaultTopCount);
    var top := Top(w, 1, DefaultTopCount);
    assert InTop(top, 1) by { assert top[0].id == 1; }
    assert Pruned(w, 1, DefaultTopCount) == [Entry(1, 1, 1)] by {
      assert w.entries == [Entry(1, 1, 1)];
    }
    WorseGameWriteSteps(Pruned(w, 1, DefaultTopCount), top);
  }

  /** The atomic rebuild of the saved store ranks the leader 1 and the worse game 2. */
  lemma WorseGameRanked()
    ensures Recompute(WorseSaved(), 1, DefaultTopCount).entries == [Entry(1, 1, 1), Entry(2, 1, 2)]
  {
    var w := WorseSaved();
    assert w.entries[0] == Entry(1, 1, 1);
    RecomputeOfTwo(w, 1, DefaultTopCount);
  }

  /** The two writes on the kept leader's entry: rank 1 is rewritten in place, rank 2 is appended. */
  lemma WorseGameWriteSteps(es: seq<Entry>, top: seq<Score>)
    requires es == [Entry(1, 1, 1)]
    requires |top| == 2 && top[0].id == 1 && top[1].id == 2
    ensures WriteRanks(es, 1, top, 0) == Ok(es + [Entry(2, 1, 2)])
  {
    LeaderRewrite(es);
    WorseAppended(es);
    var e2 := es + [Entry(2, 1, 2)];
    assert WriteRanks(e2, 1, top, 2) == Ok(e2);
    assert WriteRanks(es, 1, top, 1) == WriteRanks(e2, 1, top, 2);
    assert WriteRanks(es, 1, top, 0) == WriteRanks(es, 1, top, 1);
  }

  /** Writing rank 1 for the leader finds its entry already holding rank 1. */
  lemma LeaderRewrite(es: seq<Entry>)
    requires es == [Entry(1, 1, 1)]
    ensures UpsertRank(es, 1, 1, 1) == Ok(es)
  {
    assert EntryIndex(es, 1) == 0;
  }

  /** Writing rank 2 for the worse game appends its entry: no entry holds rank 2. */
  lemma WorseAppended(es: seq<Entry>)
    requires es == [Entry(1, 1, 1)]
    ensures UpsertRank(es, 1, 2, 2) == Ok(es + [Entry(2, 1, 2)])
  {
    assert EntryIndex(es, 2) == 1;
  }

  /** Bounds under which the leader's store meets the schema. */
  function LeaderRankedBounds(): (b: Bounds)
    ensures Inv(LeaderRankedStore(), b)
  {
    var s := LeaderRankedStore();
    assert HasScore(s, 1, 1) by { assert s.scores[0].id == 1; }
    assert HasCategory(s, 1) by { assert s.categories[0].id == 1; }
    Bounds(0, 100, 0, 3600, 0, 5, 5)
  }

  /**
   * Finding the two-entry state on the program's own path: the leader
   * submits a worse game, the as-written rebuild accepts every write, and
   * the rank lookup on the resulting store fails.
   */
  method TwoRanksThroughLoop() returns (r: Result<(Store, Score), WriteError>)
    ensures r.Ok?
    ensures UserRankAsWritten(r.value.0, Member(1, false, Some(Profile(1, 1)))).Err?
  {
    WorseGameWrites();
    Submission.UpsertRecomputes(LeaderRankedStore(), WorseGame());
    r := Submission.UpsertAsWritten(LeaderRankedStore(), LeaderRankedBounds(), WorseGame());
    assert r.value.0.scores == WorseSaved().scores;
    assert Entry(1, 1, 1) in r.value.0.entries && Entry(2, 1, 2) in r.value.0.entries;
    TwoEntriesOfOneProfile(r.value.0);
  }

  /**
   * A store holding the worse game's scores and both its entries gives the
   * player two entries in the category, so the rank lookup fails.
   */
  lemma TwoEntriesOfOneProfile(s: Store)
    requires s.categories == [Category(1, "ANIMALS", "Animals", "")]
    requires s.scores == WorseSaved().scores
    requires Entry(1, 1, 1) in s.entries && Entry(2, 1, 2) in s.entries
    ensures |ProfileEntries(s, Profile(1, 1), 1)| > 1
    ensures UserRankAsWritten(s, Member(1, false, Some(Profile(1, 1)))).Err?
  {
    var es := ProfileEntries(s, Profile(1, 1), 1);
    assert FindScore(s.scores, 1) == Some(s.scores[0]);
    assert FindScore(s.scores, 2) == Some(s.scores[1]);
    assert Entry(1, 1, 1) in es && Entry(2, 1, 2) in es;
    var i :| 0 <= i < |es| && es[i] == Entry(1, 1, 1);
    var j :| 0 <= j < |es| && es[j] == Entry(2, 1, 2);
    assert i != j;
    assert s.categories[0] in s.categories;
  }

  /** The store's only category, sorted by name, is itself. */
  lemma SingleCategoryByName(s: Store)
    requires |s.categories| == 1
    ensures CategoriesByName(s) == s.categories
  {
    var cats := CategoriesByName(s);
    assert multiset(cats) == multiset{s.categories[0]};
    assert |cats| == 1 && cats[0] in multiset(cats);
  }

  /** The corrected row for that store's category reports the profile's best entry. */
  lemma TwoRanksRow(s: Store, p: Profile, c: Category)
    requires ProfileEntries(s, p, c.id) != []
    ensures RankRows(s, p, [c]) == [RankRow(c.name, c.code, BestRanked(ProfileEntries(s, p, c.id)).rank,
                                             BestRanked(ProfileEntries(s, p, c.id)).scoreId)]
  {
  }

  // ---------------------------------------------------------------------
  // Deleting the caller's scores

  /** The ids of a list of scores. */
  function IdsOf(xs: seq<Score>): set<nat>
  {
    if xs == [] then {} else {xs[0].id} + IdsOf(xs[1..])
  }

  /** An id is among the ids of xs exactly when some score of xs carries it. */
  lemma {:induction false} IdsOfMembers(xs: seq<Score>)
    ensures forall id :: id in IdsOf(xs) <==> exists x :: x in xs && x.id == id
  {
    if xs != [] {
      IdsOfMembers(xs[1..]);
      assert forall x :: x in xs <==> x == xs[0] || x in xs[1..];
    }
  }

  predicate Owned(user: User, x: Score)
  {
    user.Member? && user.profile == Some(x.profile)
  }

  predicate OwnedIn(user: User, category: nat, x: Score)
  {
    Owned(user, x) && x.category == category
  }

  /** The caller holds no score of the category. */
  predicate HoldsNoneIn(s: Store, user: User, category: nat)
  {
    forall x :: x in s.scores ==> !OwnedIn(user, category, x)
  }

  /** `self.get_queryset().filter(category=category)`: the caller's scores of one category. */
  function OwnedScoresIn(s: Store, user: User, category: nat): (r: seq<Score>)
    ensures forall x :: x in r <==> x in s.scores && OwnedIn(user, category, x)
    ensures r == [] <==> HoldsNoneIn(s, user, category)
  {
    var r := Filter(ProfileScope(s, user), (x: Score) => InCategory(category, x));
    assert r != [] ==> r[0] in r;
    r
  }

  /** The caller's scores of a category, as one filter over the store. */
  lemma OwnedScoresInIsFilter(s: Store, user: User, category: nat)
    requires user.Member? && user.profile.Some?
    ensures OwnedScoresIn(s, user, category) == Filter(s.scores, (x: Score) => OwnedIn(user, category, x))
  {
    var p := user.profile.value;
    FilterFilter(s.scores, (x: Score) => x.profile == p, (x: Score) => InCategory(category, x),
                 (x: Score) => OwnedIn(user, category, x));
  }

  /** The caller's scores, as one filter over the store. */
  lemma ProfileScopeIsFilter(s: Store, user: User)
    requires user.Member? && user.profile.Some?
    ensures ProfileScope(s, user) == Filter(s.scores, (x: Score) => Owned(user, x))
  {
    var p := user.profile.value;
    FilterExt(s.scores, (x: Score) => x.profile == p, (x: Score) => Owned(user, x));
  }

  /** With unique ids, a score is deleted exactly when it is one of the doomed ones. */
  lemma DoomedById(s: Store, doomed: seq<Score>, x: Score)
    requires KeysDistinct(s.scores, ScoreIdOf)
    requires forall y :: y in doomed ==> y in s.scores
    requires x in s.scores
    ensures x.id in IdsOf(doomed) <==> x in doomed
  {
    IdsOfMembers(doomed);
    if x.id in IdsOf(doomed) {
      var y :| y in doomed && y.id == x.id;
      var i :| 0 <= i < |s.scores| && s.scores[i] == x;
      var j :| 0 <= j < |s.scores| && s.scores[j] == y;
      assert ScoreIdOf(s.scores[i]) == ScoreIdOf(s.scores[j]);
    }
  }

  /**
   * Deleting the scores a filter selects removes exactly those, shrinks the
   * store by their number, and keeps every schema constraint.
   */
  lemma DeleteSelected(s: Store, b: Bounds, doomed: seq<Score>, keep: Score -> bool)
    requires Inv(s, b)
    requires doomed == Filter(s.scores, keep)
    ensures forall x :: x in DeleteScores(s, IdsOf(doomed)).scores <==> x in s.scores && !keep(x)
    ensures |DeleteScores(s, IdsOf(doomed)).scores| == |s.scores| - |doomed|
    ensures Inv(DeleteScores(s, IdsOf(doomed)), b)
  {
    var d := DeleteScores(s, IdsOf(doomed));
    var survives := (x: Score) => Survives(IdsOf(doomed), x);
    forall x | x in s.scores
      ensures x in d.scores <==> !keep(x)
    {
      DoomedById(s, doomed, x);
    }
    forall i | 0 <= i < |s.scores|
      ensures survives(s.scores[i]) == !keep(s.scores[i])
    {
      DoomedById(s, doomed, s.scores[i]);
    }
    FilterPartition(s.scores, keep, survives);
    DeleteScoresKeepsInv(s, b, IdsOf(doomed));
  }

  /** Deleting scores that lie outside a category leaves that category's entries as they were. */
  lemma DeleteKeepsCategory(s: Store, b: Bounds, doomed: seq<Score>, c: nat)
    requires Inv(s, b)
    requires forall x :: x in doomed ==> x in s.scores && x.category != c
    ensures EntriesIn(DeleteScores(s, IdsOf(doomed)), c) == EntriesIn(s, c)
  {
    var ids := IdsOf(doomed);
    var inC := (e: Entry) => e.category == c;
    var keep := (e: Entry) => EntrySurvives(ids, e);
    forall i | 0 <= i < |s.entries|
      ensures (keep(s.entries[i]) && inC(s.entries[i])) == inC(s.entries[i])
    {
      var e := s.entries[i];
      if e.category == c {
        var x :| x in s.scores && x.id == e.scoreId && x.category == e.category;
        DoomedById(s, doomed, x);
      }
    }
    FilterFilter(s.entries, keep, inC, inC);
  }

  /**
   * `handle_scores_by_category` / `get_scores_by_category_action`: 404 for
   * an unknown code, otherwise the caller's scores of that category.
   */
  function ScoresByCategory(s: Store, user: User, code: string): (r: Result<seq<Score>, ActionError>)
    ensures r.Err? <==> CategoryByCode(s.categories, Upper(code)).None?
    ensures r.Err? ==> r.error == CategoryNotFound
    ensures r.Ok? ==> forall x :: x in r.value <==>
              x in s.scores && OwnedIn(user, CategoryByCode(s.categories, Upper(code)).value.id, x)
  {
    match CategoryByCode(s.categories, Upper(code))
    case None => Err(CategoryNotFound)
    case Some(c) => Ok(OwnedScoresIn(s, user, c.id))
  }

  /**
   * The category action and the `category` query parameter of the own-scores
   * listing select the same scores, whenever the code names a category.
   */
  lemma ScoresByCategoryAgrees(s: Store, b: Bounds, user: User, code: string)
    requires Inv(s, b) && code != ""
    requires ScoresByCategory(s, user, code).Ok?
    ensures forall x :: x in ScoresByCategory(s, user, code).value <==> x in UserScores(s, user, Some(code))
  {
    var c := CategoryByCode(s.categories, Upper(code)).value;
    UserScoresOfCategory(s, b, user, code, c);
  }

  /**
   * `handle_clear_category_scores` / `clear_category_scores_action`: 401
   * for an anonymous caller, 404 for an unknown code or when the caller has
   * no score there; otherwise the caller's scores of that category are
   * deleted, their count reported, and the category recomputed.
   */
  function ClearCategory(s: Store, user: User, code: string): (r: Result<(Store, nat), ActionError>)
    ensures r == Err(AuthenticationRequired) <==> user.Anonymous?
    ensures (user.Member? && CategoryByCode(s.categories, Upper(code)).None?) ==> r == Err(CategoryNotFound)
    ensures (user.Member? && CategoryByCode(s.categories, Upper(code)).Some?) ==>
              (r == Err(NoScoresForCategory) <==> HoldsNoneIn(s, user, CategoryByCode(s.categories, Upper(code)).value.id))
    ensures (user.Member? && CategoryByCode(s.categories, Upper(code)).Some?) ==>
              (r.Err? <==> HoldsNoneIn(s, user, CategoryByCode(s.categories, Upper(code)).value.id))
    ensures r.Ok? ==> r.value.1 > 0
  {
    if !HasPermission(Delete, user) then Err(AuthenticationRequired)
    else match CategoryByCode(s.categories, Upper(code))
      case None => Err(CategoryNotFound)
      case Some(c) => ClearIn(s, user, c.id)
  }

  /** The part of the clear after the category is found. */
  function ClearIn(s: Store, user: User, category: nat): (r: Result<(Store, nat), ActionError>)
    ensures r.Err? ==> r.error == NoScoresForCategory
    ensures r.Err? <==> HoldsNoneIn(s, user, category)
    ensures r.Ok? ==> r.value.1 > 0
  {
    var doomed := OwnedScoresIn(s, user, category);
    var none := HoldsNoneIn(s, user, category);
    assert none <==> |doomed| == 0;
    if none then Err(NoScoresForCategory)
    else Ok((Cleared(s, doomed, category), |doomed|))
  }

  /** The store once the doomed scores are gone and the category is recomputed. */
  function Cleared(s: Store, doomed: seq<Score>, category: nat): Store
  {
    Recompute(DeleteScores(s, IdsOf(doomed)), category, DefaultTopCount)
  }

  /** A successful clear removes exactly the caller's scores of the category and reports how many. */
  lemma ClearCategoryScores(s: Store, b: Bounds, user: User, code: string)
    requires Inv(s, b)
    requires ClearCategory(s, user, code).Ok?
    ensures var c := CategoryByCode(s.categories, Upper(code)).value;
            var r := ClearCategory(s, user, code).value.0;
            && (forall x :: x in r.scores <==> x in s.scores && !OwnedIn(user, c.id, x))
            && ClearCategory(s, user, code).value.1 == |s.scores| - |r.scores|
  {
    var c := CategoryByCode(s.categories, Upper(code)).value;
    OwnedScoresInIsFilter(s, user, c.id);
    DeleteSelected(s, b, OwnedScoresIn(s, user, c.id), (x: Score) => OwnedIn(user, c.id, x));
  }

  /**
   * After a successful clear the category holds the ranked top of what
   * remains, and every other category's entries are as they were.
   */
  lemma ClearCategoryEntries(s: Store, b: Bounds, user: User, code: string)
    requires Inv(s, b)
    requires ClearCategory(s, user, code).Ok?
    ensures var c := CategoryByCode(s.categories, Upper(code)).value;
            var r := ClearCategory(s, user, code).value.0;
            && EntriesIn(r, c.id) == RankEntries(Top(r, c.id, DefaultTopCount), c.id)
            && (forall d :: d != c.id ==> EntriesIn(r, d) == EntriesIn(s, d))
  {
    var c := CategoryByCode(s.categories, Upper(code)).value;
    var doomed := OwnedScoresIn(s, user, c.id);
    var d := DeleteScores(s, IdsOf(doomed));
    RecomputedCategory(d, c.id, DefaultTopCount);
    RecomputeLeavesOthers(d, c.id, DefaultTopCount);
    forall other | other != c.id
      ensures EntriesIn(d, other) == EntriesIn(s, other)
    {
      DeleteKeepsCategory(s, b, doomed, other);
    }
  }

  /** A successful clear keeps every schema constraint. */
  lemma ClearCategoryKeepsInv(s: Store, b: Bounds, user: User, code: string)
    requires Inv(s, b) && DefaultTopCount <= b.maxRank
    requires ClearCategory(s, user, code).Ok?
    ensures Inv(ClearCategory(s, user, code).value.0, b)
  {
    var c := CategoryByCode(s.categories, Upper(code)).value;
    OwnedScoresInIsFilter(s, user, c.id);
    var doomed := OwnedScoresIn(s, user, c.id);
    DeleteSelected(s, b, doomed, (x: Score) => OwnedIn(user, c.id, x));
    RecomputeKeepsInv(DeleteScores(s, IdsOf(doomed)), b, c.id, DefaultTopCount);
  }

  /**
   * `handle_clear_all_scores` / `clear_all_scores_action`: 401 for an
   * anonymous caller, 404 when the caller has no score; otherwise all the
   * caller's scores are deleted, their count reported, and each category
   * they were in recomputed (a category id that no longer resolves is
   * skipped). The handler walks the touched ids as a set, in no fixed
   * order; recomputes of distinct categories commute
   * (`Leaderboard.RecomputeCommutes`), so the order taken here is immaterial.
   */
  function ClearAll(s: Store, user: User): (r: Result<(Store, nat), ActionError>)
    ensures r == Err(AuthenticationRequired) <==> user.Anonymous?
    ensures (user.Member? && ProfileScope(s, user) == []) <==> r == Err(NoScoresToDelete)
    ensures r.Err? <==> user.Anonymous? || ProfileScope(s, user) == []
    ensures r.Ok? ==> r.value.1 == |ProfileScope(s, user)| > 0
  {
    if !HasPermission(Delete, user) then Err(AuthenticationRequired)
    else
      var doomed := ProfileScope(s, user);
      if |doomed| == 0 then Err(NoScoresToDelete)
      else
        var touched := Dedup(CategoryIds(doomed));
        Ok((RecomputeEach(DeleteScores(s, IdsOf(doomed)), touched, DefaultTopCount), |doomed|))
  }

  /** A successful clear-all removes exactly the caller's scores and reports how many. */
  lemma ClearAllScores(s: Store, b: Bounds, user: User)
    requires Inv(s, b)
    requires ClearAll(s, user).Ok?
    ensures var r := ClearAll(s, user).value.0;
            && (forall x :: x in r.scores <==> x in s.scores && !Owned(user, x))
            && ClearAll(s, user).value.1 == |s.scores| - |r.scores|
  {
    ProfileScopeIsFilter(s, user);
    DeleteSelected(s, b, ProfileScope(s, user), (x: Score) => Owned(user, x));
  }

  /** The categories a clear-all recomputes are exactly those the caller had played. */
  lemma TouchedArePlayed(doomed: seq<Score>)
    ensures forall c :: c in Dedup(CategoryIds(doomed)) <==> c in Played(doomed)
  {
    forall c | c in Played(doomed)
      ensures c in CategoryIds(doomed)
    {
      var w :| w in doomed && w.category == c;
      var k :| 0 <= k < |doomed| && doomed[k] == w;
      assert CategoryIds(doomed)[k] == c;
    }
  }

  /** After a successful clear-all each category the caller had played holds the ranked top of what remains. */
  lemma ClearAllSettles(s: Store, b: Bounds, user: User)
    requires Inv(s, b)
    requires ClearAll(s, user).Ok?
    ensures var r := ClearAll(s, user).value.0;
            forall c :: c in Played(ProfileScope(s, user)) && CategoryById(s.categories, c).Some?
              ==> EntriesIn(r, c) == RankEntries(Top(r, c, DefaultTopCount), c)
  {
    var doomed := ProfileScope(s, user);
    RecomputeEachSettles(DeleteScores(s, IdsOf(doomed)), Dedup(CategoryIds(doomed)), DefaultTopCount);
    TouchedArePlayed(doomed);
  }

  /** A clear-all leaves the entries of every category the caller had not played as they were. */
  lemma ClearAllLeavesOthers(s: Store, b: Bounds, user: User)
    requires Inv(s, b)
    requires ClearAll(s, user).Ok?
    ensures var r := ClearAll(s, user).value.0;
            forall c :: c !in Played(ProfileScope(s, user)) ==> EntriesIn(r, c) == EntriesIn(s, c)
  {
    var doomed := ProfileScope(s, user);
    TouchedArePlayed(doomed);
    forall c | c !in Played(doomed)
      ensures EntriesIn(DeleteScores(s, IdsOf(doomed)), c) == EntriesIn(s, c)
    {
      DeleteKeepsCategory(s, b, doomed, c);
    }
  }

  /** A successful clear-all keeps every schema constraint. */
  lemma ClearAllKeepsInv(s: Store, b: Bounds, user: User)
    requires Inv(s, b) && DefaultTopCount <= b.maxRank
    requires ClearAll(s, user).Ok?
    ensures Inv(ClearAll(s, user).value.0, b)
  {
    var doomed := ProfileScope(s, user);
    ProfileScopeIsFilter(s, user);
    DeleteSelected(s, b, doomed, (x: Score) => Owned(user, x));
    RecomputeEachKeepsInv(DeleteScores(s, IdsOf(doomed)), b, Dedup(CategoryIds(doomed)), DefaultTopCount);
  }
}

=== FILE: base.dfy ===
/** Small shared vocabulary: optional values, results, ASCII upper-casing. */
module Base {

  datatype Option<+T> = None | Some(value: T)

  datatype Result<+T, +E> = Ok(value: T) | Err(error: E)

  function Min(a: int, b: int): int
  {
    if a <= b then a else b
  }

  /** Upper-case one character; only the ASCII letters a..z change. */
  function UpperChar(ch: char): (u: char)
    ensures 'a' <= ch <= 'z' ==> u as int == ch as int - 32
    ensures !('a' <= ch <= 'z') ==> u == ch
  {
    if 'a' <= ch <= 'z' then (ch as int - 32) as char else ch
  }

  /** `str.upper()` restricted to ASCII letters. */
  function Upper(s: string): (u: string)
    ensures |u| == |s|
    ensures forall i :: 0 <= i < |s| ==> u[i] == UpperChar(s[i])
  {
    if s == [] then [] else [UpperChar(s[0])] + Upper(s[1..])
  }

  predicate IsUpper(s: string)
  {
    forall i :: 0 <= i < |s| ==> !('a' <= s[i] <= 'z')
  }

  /** Upper-casing is idempotent, and an upper-case string is its own upper case. */
  lemma UpperIdempotent(s: string)
    ensures IsUpper(Upper(s))
    ensures Upper(Upper(s)) == Upper(s)
    ensures IsUpper(s) ==> Upper(s) == s
  {
  }

  /**
   * The characters Python's `str.isspace()` accepts, which `str.strip()`
   * removes: the ASCII separators and the Unicode spaces and line breaks.
   */
  predicate IsSpace(c: char)
  {
    || ('\t' <= c <= '\r') || ('\U{1C}' <= c <= ' ')
    || c == '\U{85}' || c == '\U{A0}' || c == '\U{1680}'
    || ('\U{2000}' <= c <= '\U{200A}') || c == '\U{2028}' || c == '\U{2029}'
    || c == '\U{202F}' || c == '\U{205F}' || c == '\U{3000}'
  }

  predicate AllSpace(t: string)
  {
    forall i :: 0 <= i < |t| ==> IsSpace(t[i])
  }

  /** How many leading characters of t are spaces. */
  function LeadingSpaces(t: string): (n: nat)
    ensures n <= |t|
    ensures AllSpace(t[..n])
    ensures n < |t| ==> !IsSpace(t[n])
  {
    if t == [] || !IsSpace(t[0]) then 0
    else
      var n := 1 + LeadingSpaces(t[1..]);
      assert t[..n] == [t[0]] + t[1..][..n - 1];
      n
  }

  /** How many trailing characters of t are spaces. */
  function TrailingSpaces(t: string): (n: nat)
    ensures n <= |t|
    ensures AllSpace(t[|t| - n..])
    ensures n < |t| ==> !IsSpace(t[|t| - 1 - n])
  {
    if t == [] || !IsSpace(t[|t| - 1]) then 0
    else
      var u := t[..|t| - 1];
      var n := 1 + TrailingSpaces(u);
      assert t[|t| - n..] == u[|u| - (n - 1)..] + [t[|t| - 1]];
      n
  }

  /** `str.strip()`: t without its leading and trailing spaces. */
  function Trim(t: string): (r: string)
    ensures r == [] <==> AllSpace(t)
    ensures r != [] ==> !IsSpace(r[0]) && !IsSpace(r[|r| - 1])
    ensures |r| <= |t|
  {
    var u := t[LeadingSpaces(t)..];
    assert u == [] ==> AllSpace(t) by {
      if u == [] {
        assert t == t[..LeadingSpaces(t)];
      }
    }
    u[..|u| - TrailingSpaces(u)]
  }

  /**
   * Trimming undoes padding: any spaces put before and after a string that
   * neither starts nor ends with a space are removed again, and nothing
   * more.
   */
  lemma {:induction false} TrimPadded(pre: string, t: string, post: string)
    requires AllSpace(pre) && AllSpace(post)
    requires t != [] ==> !IsSpace(t[0]) && !IsSpace(t[|t| - 1])
    ensures Trim(pre + t + post) == t
  {
    var w := pre + t + post;
    if t == [] {
      assert w == pre + post;
      assert AllSpace(w) by {
        forall i | 0 <= i < |w| ensures IsSpace(w[i]) {
          if i < |pre| { assert w[i] == pre[i]; } else { assert w[i] == post[i - |pre|]; }
        }
      }
    } else {
      LeadingOfPadded(pre, t + post);
      assert w == pre + (t + post);
      var u := w[|pre|..];
      assert u == t + post;
      TrailingOfPadded(t, post);
      assert u[..|u| - |post|] == t;
    }
  }

  lemma {:induction false} LeadingOfPadded(pre: string, v: string)
    requires AllSpace(pre)
    requires v != [] && !IsSpace(v[0])
    ensures LeadingSpaces(pre + v) == |pre|
  {
    if pre != [] {
      assert (pre + v)[1..] == pre[1..] + v;
      assert AllSpace(pre[1..]) by {
        forall i | 0 <= i < |pre| - 1 ensures IsSpace(pre[1..][i]) { assert pre[1..][i] == pre[i + 1]; }
      }
      LeadingOfPadded(pre[1..], v);
      assert (pre + v)[0] == pre[0];
    } else {
      assert pre + v == v;
    }
  }

  lemma {:induction false} TrailingOfPadded(v: string, post: string)
    requires AllSpace(post)
    requires v != [] && !IsSpace(v[|v| - 1])
    ensures TrailingSpaces(v + post) == |post|
  {
    var w := v + post;
    if post != [] {
      var p' := post[..|post| - 1];
      assert w[..|w| - 1] == v + p';
      assert AllSpace(p') by {
        forall i | 0 <= i < |p'| ensures IsSpace(p'[i]) { assert p'[i] == post[i]; }
      }
      TrailingOfPadded(v, p');
      assert w[|w| - 1] == post[|post| - 1];
    } else {
      assert w == v;
    }
  }

  /** The elements of xs satisfying p, in their original order. */
  function Filter<T(!new)>(xs: seq<T>, p: T -> bool): (r: seq<T>)
    ensures |r| <= |xs|
    ensures forall x :: x in r <==> x in xs && p(x)
    ensures multiset(r) <= multiset(xs)
    ensures forall i :: 0 <= i < |r| ==> p(r[i])
  {
    if xs == [] then []
    else
      assert xs == [xs[0]] + xs[1..];
      if p(xs[0]) then [xs[0]] + Filter(xs[1..], p) else Filter(xs[1..], p)
  }

  lemma {:induction false} FilterConcat<T(!new)>(xs: seq<T>, ys: seq<T>, p: T -> bool)
    ensures Filter(xs + ys, p) == Filter(xs, p) + Filter(ys, p)
  {
    if xs != [] {
      var zs := xs + ys;
      assert zs[0] == xs[0] && zs[1..] == xs[1..] + ys;
      FilterConcat(xs[1..], ys, p);
      assert Filter(zs, p) == (if p(xs[0]) then [xs[0]] + Filter(zs[1..], p) else Filter(zs[1..], p));
      assert Filter(xs, p) == (if p(xs[0]) then [xs[0]] + Filter(xs[1..], p) else Filter(xs[1..], p));
    } else {
      assert xs + ys == ys;
    }
  }

  /** Filtering by a predicate every element meets changes nothing. */
  lemma {:induction false} FilterAll<T(!new)>(xs: seq<T>, p: T -> bool)
    requires forall i :: 0 <= i < |xs| ==> p(xs[i])
    ensures Filter(xs, p) == xs
  {
    if xs != [] {
      FilterAll(xs[1..], p);
    }
  }

  /** Filtering by a predicate no element meets yields nothing. */
  lemma {:induction false} FilterNone<T(!new)>(xs: seq<T>, p: T -> bool)
    requires forall i :: 0 <= i < |xs| ==> !p(xs[i])
    ensures Filter(xs, p) == []
  {
    if xs != [] {
      FilterNone(xs[1..], p);
    }
  }

  /** Two predicates that agree on the elements of xs filter it alike. */
  lemma {:induction false} FilterExt<T(!new)>(xs: seq<T>, p: T -> bool, q: T -> bool)
    requires forall i :: 0 <= i < |xs| ==> p(xs[i]) == q(xs[i])
    ensures Filter(xs, p) == Filter(xs, q)
  {
    if xs != [] {
      FilterExt(xs[1..], p, q);
    }
  }

  /** An element is either kept by p or by its complement q, never both. */
  lemma {:induction false} FilterPartition<T(!new)>(xs: seq<T>, p: T -> bool, q: T -> bool)
    requires forall i :: 0 <= i < |xs| ==> q(xs[i]) == !p(xs[i])
    ensures |Filter(xs, p)| + |Filter(xs, q)| == |xs|
  {
    if xs != [] {
      FilterPartition(xs[1..], p, q);
    }
  }

  /** Filtering twice is filtering once by both predicates. */
  lemma {:induction false} FilterFilter<T(!new)>(xs: seq<T>, p: T -> bool, q: T -> bool, pq: T -> bool)
    requires forall i :: 0 <= i < |xs| ==> pq(xs[i]) == (p(xs[i]) && q(xs[i]))
    ensures Filter(Filter(xs, p), q) == Filter(xs, pq)
  {
    if xs != [] {
      FilterFilter(xs[1..], p, q, pq);
    }
  }

  /** No two positions of xs carry the same key. */
  ghost predicate KeysDistinct<T(!new), K>(xs: seq<T>, key: T -> K)
  {
    forall i, j :: 0 <= i < |xs| && 0 <= j < |xs| && i != j ==> key(xs[i]) != key(xs[j])
  }

  ghost function KeySet<T(!new), K>(xs: seq<T>, key: T -> K): set<K>
  {
    set x | x in xs :: key(x)
  }

  lemma {:induction false} FilterKeysDistinct<T(!new), K>(xs: seq<T>, p: T -> bool, key: T -> K)
    requires KeysDistinct(xs, key)
    ensures KeysDistinct(Filter(xs, p), key)
  {
    if xs != [] {
      var rest := Filter(xs[1..], p);
      assert KeysDistinct(xs[1..], key) by {
        forall i, j | 0 <= i < |xs[1..]| && 0 <= j < |xs[1..]| && i != j
          ensures key(xs[1..][i]) != key(xs[1..][j])
        {
          assert xs[1..][i] == xs[i + 1] && xs[1..][j] == xs[j + 1];
        }
      }
      FilterKeysDistinct(xs[1..], p, key);
      if p(xs[0]) {
        forall k | 0 <= k < |rest|
          ensures key(xs[0]) != key(rest[k])
        {
          assert rest[k] in xs[1..];
          var m :| 0 <= m < |xs[1..]| && xs[1..][m] == rest[k];
          assert xs[m + 1] == rest[k];
        }
        var r := [xs[0]] + rest;
        forall i, j | 0 <= i < |r| && 0 <= j < |r| && i != j
          ensures key(r[i]) != key(r[j])
        {
          if i > 0 && j > 0 {
            assert r[i] == rest[i - 1] && r[j] == rest[j - 1];
          }
        }
      }
    }
  }

  /** Keys are distinct exactly when there are as many distinct keys as positions. */
  lemma {:induction false} KeysDistinctCard<T(!new), K>(xs: seq<T>, key: T -> K)
    ensures |KeySet(xs, key)| <= |xs|
    ensures KeysDistinct(xs, key) <==> |KeySet(xs, key)| == |xs|
  {
    if xs == [] {
      assert KeySet(xs, key) == {};
    } else {
      var tail := xs[1..];
      KeysDistinctCard(tail, key);
      assert KeySet(xs, key) == {key(xs[0])} + KeySet(tail, key) by {
        forall x | x in xs ensures x == xs[0] || x in tail {
          var m :| 0 <= m < |xs| && xs[m] == x;
          if m > 0 {
            assert tail[m - 1] == x;
          }
        }
        assert xs == [xs[0]] + tail;
      }
      if key(xs[0]) in KeySet(tail, key) {
        var y :| y in tail && key(y) == key(xs[0]);
        var m :| 0 <= m < |tail| && tail[m] == y;
        assert xs[m + 1] == y;
        assert !KeysDistinct(xs, key);
      } else {
        assert KeysDistinct(xs, key) ==> KeysDistinct(tail, key) by {
          if KeysDistinct(xs, key) {
            forall i, j | 0 <= i < |tail| && 0 <= j < |tail| && i != j
              ensures key(tail[i]) != key(tail[j])
            {
              assert tail[i] == xs[i + 1] && tail[j] == xs[j + 1];
            }
          }
        }
        if KeysDistinct(tail, key) {
          forall i, j | 0 <= i < |xs| && 0 <= j < |xs| && i != j
            ensures key(xs[i]) != key(xs[j])
          {
            if i > 0 && j > 0 {
              assert xs[i] == tail[i - 1] && xs[j] == tail[j - 1];
            } else if i == 0 {
              assert xs[j] == tail[j - 1];
              assert xs[j] in tail;
            } else {
              assert xs[i] == tail[i - 1];
              assert xs[i] in tail;
            }
          }
        }
      }
    }
  }

  /** Rearranging a sequence keeps its keys distinct. */
  lemma PermKeysDistinct<T(!new), K>(xs: seq<T>, ys: seq<T>, key: T -> K)
    requires multiset(xs) == multiset(ys)
    requires KeysDistinct(xs, key)
    ensures KeysDistinct(ys, key)
  {
    KeysDistinctCard(xs, key);
    KeysDistinctCard(ys, key);
    assert |xs| == |ys| by {
      assert |multiset(xs)| == |xs| && |multiset(ys)| == |ys|;
    }
    assert KeySet(xs, key) == KeySet(ys, key) by {
      forall x ensures x in xs <==> x in ys {
        assert x in xs <==> x in multiset(xs);
        assert x in ys <==> x in multiset(ys);
      }
    }
  }

  lemma ConcatKeysDistinct<T(!new), K>(xs: seq<T>, ys: seq<T>, key: T -> K)
    requires KeysDistinct(xs, key) && KeysDistinct(ys, key)
    requires forall x, y :: x in xs && y in ys ==> key(x) != key(y)
    ensures KeysDistinct(xs + ys, key)
  {
    var zs := xs + ys;
    forall i, j | 0 <= i < |zs| && 0 <= j < |zs| && i != j
      ensures key(zs[i]) != key(zs[j])
    {
      if i < |xs| && j >= |xs| {
        assert zs[i] == xs[i] && zs[j] == ys[j - |xs|];
      } else if i >= |xs| && j < |xs| {
        assert zs[j] == xs[j] && zs[i] == ys[i - |xs|];
      } else if i < |xs| {
        assert zs[i] == xs[i] && zs[j] == xs[j];
      } else {
        assert zs[i] == ys[i - |xs|] && zs[j] == ys[j - |xs|];
      }
    }
  }

  /** The distinct elements of xs, each at the place of its first occurrence. */
  function Dedup<T(==, !new)>(xs: seq<T>): (r: seq<T>)
    ensures forall x :: x in r <==> x in xs
    ensures forall i, j :: 0 <= i < j < |r| ==> r[i] != r[j]
    ensures |r| <= |xs|
    decreases |xs|
  {
    if xs == [] then []
    else
      var kept := Filter(xs[1..], (y: T) => y != xs[0]);
      var rest := Dedup(kept);
      DedupCons(xs, kept, rest);
      [xs[0]] + rest
  }

  /**
   * Putting the head in front of the de-duplicated, head-free tail keeps
   * exactly the elements of xs, with no repeats.
   */
  lemma DedupCons<T>(xs: seq<T>, kept: seq<T>, rest: seq<T>)
    requires xs != []
    requires forall y :: y in kept <==> y in xs[1..] && y != xs[0]
    requires forall y :: y in rest <==> y in kept
    requires forall i, j :: 0 <= i < j < |rest| ==> rest[i] != rest[j]
    ensures forall y :: y in [xs[0]] + rest <==> y in xs
    ensures forall i, j :: 0 <= i < j < |[xs[0]] + rest| ==> ([xs[0]] + rest)[i] != ([xs[0]] + rest)[j]
  {
    var r := [xs[0]] + rest;
    assert xs == [xs[0]] + xs[1..];
    forall i, j | 0 <= i < j < |r|
      ensures r[i] != r[j]
    {
      assert r[j] == rest[j - 1] && rest[j - 1] in rest;
      if i > 0 {
        assert r[i] == rest[i - 1];
      }
    }
  }

  /** Dedup on two elements: both kept when they differ, one when they are equal. */
  lemma DedupPair<T(!new)>(a: T, b: T)
    ensures a != b ==> Dedup([a, b]) == [a, b]
    ensures Dedup([a, a]) == [a]
  {
    assert [a, b][1..] == [b] && [a, a][1..] == [a];
    assert Filter([b], (y: T) => y != a) == (if b != a then [b] else []);
    assert Filter([a], (y: T) => y != a) == [];
    assert Dedup([b]) == [b] by {
      assert Filter([b][1..], (y: T) => y != b) == [];
    }
  }

  // ---------------------------------------------------------------------
  // Decimal numerals

  predicate IsDigit(ch: char) { '0' <= ch <= '9' }

  predicate AllDigits(s: string) { forall i :: 0 <= i < |s| ==> IsDigit(s[i]) }

  function DigitChar(d: nat): (ch: char)
    requires d < 10
    ensures IsDigit(ch) && ch as int - '0' as int == d
  {
    ('0' as int + d) as char
  }

  /** The decimal digits of n, as `str(n)` writes them: no leading zero. */
  function Digits(n: nat): (r: string)
    ensures |r| >= 1 && AllDigits(r)
    ensures |r| > 1 ==> r[0] != '0'
  {
    if n < 10 then [DigitChar(n)] else Digits(n / 10) + [DigitChar(n % 10)]
  }

  /** The value of a string of decimal digits. */
  function ParseDigits(s: string): nat
    requires AllDigits(s)
  {
    if s == [] then 0
    else ParseDigits(s[..|s| - 1]) * 10 + (s[|s| - 1] as int - '0' as int)
  }

  /** Reading the digits back gives the number. */
  lemma {:induction false} DigitsRoundTrip(n: nat)
    ensures ParseDigits(Digits(n)) == n
  {
    if n >= 10 {
      var s := Digits(n);
      assert s[..|s| - 1] == Digits(n / 10);
      DigitsRoundTrip(n / 10);
    }
  }

  /** An integer literal as Python's `int()` reads it: an optional sign, then one or more decimal digits. */
  predicate IsIntLiteral(t: string)
  {
    if |t| > 0 && (t[0] == '+' || t[0] == '-') then |t| > 1 && AllDigits(t[1..])
    else |t| > 0 && AllDigits(t)
  }

  /** `int(t)`: the value of an integer literal, or None where `int()` raises ValueError. */
  function ParseInt(t: string): (r: Option<int>)
    ensures r.Some? <==> IsIntLiteral(t)
  {
    if |t| > 0 && (t[0] == '+' || t[0] == '-') then
      if |t| > 1 && AllDigits(t[1..]) then
        var v: int := ParseDigits(t[1..]);
        Some(if t[0] == '-' then -v else v)
      else None
    else if |t| > 0 && AllDigits(t) then Some(ParseDigits(t))
    else None
  }

  /** `str(n)`: a minus sign for a negative number, then the digits of its magnitude. */
  function ShowInt(n: int): string
  {
    if n < 0 then "-" + Digits(-n) else Digits(n)
  }

  /** Every integer's decimal rendering reads back as that integer. */
  lemma ShowIntParses(n: int)
    ensures ParseInt(ShowInt(n)) == Some(n)
  {
    var t := ShowInt(n);
    if n < 0 {
      assert t[0] == '-' && t[1..] == Digits(-n);
      DigitsRoundTrip(-n);
      var v: int := ParseDigits(t[1..]);
      assert ParseInt(t) == Some(-v);
    } else {
      assert t == Digits(n) && IsDigit(t[0]);
      DigitsRoundTrip(n);
      assert ParseInt(t) == Some(ParseDigits(t));
    }
  }
}

=== FILE: catalog.dfy ===
/**
 * The fixed catalogue of game categories and the two management commands
 * that seed it: `load_categories` creates the missing categories, and
 * `initialize_data` can also rebuild every category's leaderboard.
 */
module Catalog {
  import opened Base
  import opened Models
  import opened Leaderboard

  const CategoryNameMaxLength: nat := 100
  const CategoryCodeMaxLength: nat := 50

  /** One entry of the predefined catalogue. */
  datatype CategorySpec = CategorySpec(name: string, code: string, description: string)

  function SpecCode(sp: CategorySpec): string { sp.code }

  /** The four predefined game categories. */
  const GameCategories: seq<CategorySpec> := [
    CategorySpec("Animals", "ANIMALS", "Animal-themed memory cards"),
    CategorySpec("Astronomy", "ASTRONOMY", "Space-themed memory cards"),
    CategorySpec("Patterns", "PATTERN", "Pattern-themed memory cards"),
    CategorySpec("Food", "FOOD", "Food-themed memory cards")
  ]

  /** A catalogue entry the category model accepts: a name and a code within their lengths, an upper-case code. */
  predicate SpecValid(sp: CategorySpec)
  {
    0 < |sp.name| <= CategoryNameMaxLength && 0 < |sp.code| <= CategoryCodeMaxLength && IsUpper(sp.code)
  }

  /**
   * The catalogue has four entries with distinct codes, each valid, so
   * every code the views upper-case before looking up can match.
   */
  lemma GameCategoriesWellFormed()
    ensures |GameCategories| == 4
    ensures KeysDistinct(GameCategories, SpecCode)
    ensures forall sp :: sp in GameCategories ==> SpecValid(sp) && Upper(sp.code) == sp.code
  {
    GameCodesDistinct();
    forall k | 0 <= k < |GameCategories|
      ensures SpecValid(GameCategories[k]) && Upper(GameCategories[k].code) == GameCategories[k].code
    {
      SpecValidAt(k);
      UpperIdempotent(GameCategories[k].code);
    }
  }

  lemma GameCodesDistinct()
    ensures KeysDistinct(GameCategories, SpecCode)
  {
    var codes := ["ANIMALS", "ASTRONOMY", "PATTERN", "FOOD"];
    assert forall k :: 0 <= k < 4 ==> SpecCode(GameCategories[k]) == codes[k];
    forall i, j | 0 <= i < 4 && 0 <= j < 4 && i != j
      ensures codes[i] != codes[j]
    {
      assert |codes[i]| != |codes[j]| || codes[i][0] != codes[j][0];
    }
  }

  lemma SpecValidAt(k: nat)
    requires k < |GameCategories|
    ensures SpecValid(GameCategories[k])
  {
    var code := GameCategories[k].code;
    forall i | 0 <= i < |code|
      ensures !('a' <= code[i] <= 'z')
    {
    }
  }

  /**
   * `Category.objects.get_or_create(code=..., defaults=...)`: the category
   * with that code when there is one, otherwise a new one with the next
   * id. The flag says whether a row was created.
   */
  function GetOrCreate(s: Store, sp: CategorySpec): (r: (Store, bool))
    ensures r.1 <==> CategoryByCode(s.categories, sp.code).None?
    ensures !r.1 ==> r.0 == s
    ensures r.0.scores == s.scores && r.0.entries == s.entries && r.0.clock == s.clock
    ensures r.0.nextId >= s.nextId
    ensures forall c :: c in s.categories ==> c in r.0.categories
    ensures CategoryByCode(r.0.categories, sp.code).Some?
    ensures r.1 ==> r.0.categories == s.categories + [Category(s.nextId, sp.code, sp.name, sp.description)]
    ensures forall code :: code != sp.code ==> CategoryByCode(r.0.categories, code).None? == CategoryByCode(s.categories, code).None?
  {
    match CategoryByCode(s.categories, sp.code)
    case Some(_) => (s, false)
    case None =>
      var c := Category(s.nextId, sp.code, sp.name, sp.description);
      var cats := s.categories + [c];
      assert c in cats;
      (s.(categories := cats, nextId := s.nextId + 1), true)
  }

  /** Creating a category keeps every schema constraint: its code is new and its id is fresh. */
  lemma GetOrCreateKeepsInv(s: Store, b: Bounds, sp: CategorySpec)
    requires Inv(s, b)
    ensures Inv(GetOrCreate(s, sp).0, b)
  {
    var (r, created) := GetOrCreate(s, sp);
    if created {
      var c := Category(s.nextId, sp.code, sp.name, sp.description);
      ConcatKeysDistinct(s.categories, [c], CodeOf);
      ConcatKeysDistinct(s.categories, [c], CategoryIdOf);
      forall x | x in r.scores
        ensures HasCategory(r, x.category)
      {
        var d :| d in s.categories && d.id == x.category;
        assert d in r.categories;
      }
      forall e | e in r.entries
        ensures HasScore(r, e.scoreId, e.category)
      {
        assert HasScore(s, e.scoreId, e.category);
      }
    }
  }

  /**
   * The loop of `load_categories`: get-or-create each catalogue entry in
   * turn and count the rows created.
   */
  function LoadCategories(s: Store, specs: seq<CategorySpec>): (r: (Store, nat))
    decreases |specs|
    ensures r.1 <= |specs|
    ensures r.0.scores == s.scores && r.0.entries == s.entries && r.0.clock == s.clock
    ensures forall c :: c in s.categories ==> c in r.0.categories
    ensures forall sp :: sp in specs ==> CategoryByCode(r.0.categories, sp.code).Some?
  {
    if specs == [] then (s, 0)
    else
      var (s1, created) := GetOrCreate(s, specs[0]);
      var (r, n) := LoadCategories(s1, specs[1..]);
      assert forall sp :: sp in specs ==> sp == specs[0] || sp in specs[1..];
      assert CategoryByCode(r.categories, specs[0].code).Some? by {
        var c := CategoryByCode(s1.categories, specs[0].code).value;
        assert c in r.categories;
      }
      (r, n + if created then 1 else 0)
  }

  /** The catalogue entries whose code is not yet in the store. */
  function Missing(s: Store, specs: seq<CategorySpec>): (r: seq<CategorySpec>)
    ensures forall sp :: sp in r <==> sp in specs && CategoryByCode(s.categories, sp.code).None?
  {
    Filter(specs, (sp: CategorySpec) => CategoryByCode(s.categories, sp.code).None?)
  }

  /** With distinct codes in the catalogue, the reported count is the number of codes that were missing. */
  lemma {:induction false} LoadCategoriesCount(s: Store, specs: seq<CategorySpec>)
    requires KeysDistinct(specs, SpecCode)
    ensures LoadCategories(s, specs).1 == |Missing(s, specs)|
    decreases |specs|
  {
    if specs != [] {
      var s1 := GetOrCreate(s, specs[0]).0;
      var tail := specs[1..];
      assert KeysDistinct(tail, SpecCode) by {
        forall i, j | 0 <= i < |tail| && 0 <= j < |tail| && i != j
          ensures SpecCode(tail[i]) != SpecCode(tail[j])
        {
          assert tail[i] == specs[i + 1] && tail[j] == specs[j + 1];
        }
      }
      LoadCategoriesCount(s1, tail);
      forall k | 0 <= k < |tail|
        ensures CategoryByCode(s1.categories, tail[k].code).None? == CategoryByCode(s.categories, tail[k].code).None?
      {
        assert SpecCode(specs[k + 1]) != SpecCode(specs[0]);
      }
      FilterExt(tail, (sp: CategorySpec) => CategoryByCode(s1.categories, sp.code).None?,
                      (sp: CategorySpec) => CategoryByCode(s.categories, sp.code).None?);
    }
  }

  /** When every code is already present, loading changes nothing and reports zero. */
  lemma {:induction false} LoadCategoriesPresent(s: Store, specs: seq<CategorySpec>)
    requires forall sp :: sp in specs ==> CategoryByCode(s.categories, sp.code).Some?
    ensures LoadCategories(s, specs) == (s, 0)
    decreases |specs|
  {
    if specs != [] {
      assert specs[0] in specs;
      assert forall sp :: sp in specs[1..] ==> sp in specs;
      LoadCategoriesPresent(s, specs[1..]);
    }
  }

  /** Running the command twice is running it once: the second run creates nothing. */
  lemma LoadCategoriesIdempotent(s: Store, specs: seq<CategorySpec>)
    ensures LoadCategories(LoadCategories(s, specs).0, specs) == (LoadCategories(s, specs).0, 0)
  {
    LoadCategoriesPresent(LoadCategories(s, specs).0, specs);
  }

  /** Loading keeps every schema constraint. */
  lemma {:induction false} LoadCategoriesKeepsInv(s: Store, b: Bounds, specs: seq<CategorySpec>)
    requires Inv(s, b)
    ensures Inv(LoadCategories(s, specs).0, b)
    decreases |specs|
  {
    if specs != [] {
      GetOrCreateKeepsInv(s, b, specs[0]);
      LoadCategoriesKeepsInv(GetOrCreate(s, specs[0]).0, b, specs[1..]);
    }
  }

  /** The `load_categories` command: the catalogue loaded into the store. */
  function LoadGameCategories(s: Store): (r: (Store, nat))
    ensures r.1 <= 4
    ensures forall sp :: sp in GameCategories ==> CategoryByCode(r.0.categories, sp.code).Some?
  {
    LoadCategories(s, GameCategories)
  }

  /** Into a store without categories, every entry of a catalogue with distinct codes is created. */
  lemma LoadIntoEmpty(s: Store, specs: seq<CategorySpec>)
    requires s.categories == []
    requires KeysDistinct(specs, SpecCode)
    ensures LoadCategories(s, specs).1 == |specs|
  {
    LoadCategoriesCount(s, specs);
    FilterAll(specs, (sp: CategorySpec) => CategoryByCode(s.categories, sp.code).None?);
  }

  /** Into a store without categories the command creates all four. */
  lemma LoadGameIntoEmpty(s: Store)
    requires s.categories == []
    ensures LoadGameCategories(s).1 == 4
  {
    GameCodesDistinct();
    LoadIntoEmpty(s, GameCategories);
  }

  /**
   * `initialize_leaderboard`: every category, in name order, gets its
   * leaderboard rebuilt with the default size; the count reported is the
   * number of categories.
   */
  function InitializeLeaderboard(s: Store): (r: (Store, nat))
    ensures r.1 == |s.categories|
    ensures r.0.categories == s.categories && r.0.scores == s.scores
    ensures r.0.nextId == s.nextId && r.0.clock == s.clock
  {
    var cats := CategoriesByName(s);
    var ids := seq(|cats|, i requires 0 <= i < |cats| => cats[i].id);
    assert |cats| == |multiset(cats)| == |multiset(s.categories)| == |s.categories|;
    (RecomputeEach(s, ids, DefaultTopCount), |cats|)
  }

  /** After the rebuild every category holds exactly the ranked top of its scores. */
  lemma InitializeLeaderboardSettles(s: Store, b: Bounds)
    requires Inv(s, b)
    ensures forall c :: c in s.categories ==>
              EntriesIn(InitializeLeaderboard(s).0, c.id) == RankEntries(Top(s, c.id, DefaultTopCount), c.id)
  {
    var cats := CategoriesByName(s);
    var ids := seq(|cats|, i requires 0 <= i < |cats| => cats[i].id);
    PermKeysDistinct(s.categories, cats, CategoryIdOf);
    forall i, j | 0 <= i < j < |ids|
      ensures ids[i] != ids[j]
    {
      assert CategoryIdOf(cats[i]) != CategoryIdOf(cats[j]);
    }
    RecomputeEachSettles(s, ids, DefaultTopCount);
    forall c | c in s.categories
      ensures c.id in ids && CategoryById(s.categories, c.id).Some?
    {
      assert c in multiset(cats);
      var k :| 0 <= k < |cats| && cats[k] == c;
      assert ids[k] == c.id;
    }
  }

  /** The rebuild keeps every schema constraint. */
  lemma InitializeLeaderboardKeepsInv(s: Store, b: Bounds)
    requires Inv(s, b) && DefaultTopCount <= b.maxRank
    ensures Inv(InitializeLeaderboard(s).0, b)
  {
    var cats := CategoriesByName(s);
    RecomputeEachKeepsInv(s, b, seq(|cats|, i requires 0 <= i < |cats| => cats[i].id), DefaultTopCount);
  }

  /**
   * Which steps `initialize_data` runs for its two flags: both when
   * neither or both are given, only the named one when one is given.
   */
  function Steps(categoriesOnly: bool, leaderboardsOnly: bool): (r: (bool, bool))
    ensures r.0 || r.1
    ensures r.0 && r.1 <==> categoriesOnly == leaderboardsOnly
    ensures r.0 <==> !leaderboardsOnly || categoriesOnly
  {
    (!leaderboardsOnly || categoriesOnly, !categoriesOnly || leaderboardsOnly)
  }

  /** `initialize_data`: load the catalogue, then rebuild the leaderboards, as the flags select. */
  function InitializeData(s: Store, categoriesOnly: bool, leaderboardsOnly: bool): (r: Store)
    ensures r.scores == s.scores
    ensures Steps(categoriesOnly, leaderboardsOnly).0 ==>
              forall sp :: sp in GameCategories ==> CategoryByCode(r.categories, sp.code).Some?
    ensures !Steps(categoriesOnly, leaderboardsOnly).0 ==> r.categories == s.categories
  {
    var (runCategories, runLeaderboards) := Steps(categoriesOnly, leaderboardsOnly);
    var s1 := if runCategories then LoadGameCategories(s).0 else s;
    if runLeaderboards then InitializeLeaderboard(s1).0 else s1
  }

  /**
   * Whatever the flags, the command keeps every schema constraint, and
   * whenever it rebuilds, every category, the new ones included, ends up
   * holding the ranked top of its scores.
   */
  lemma InitializeDataEffect(s: Store, b: Bounds, categoriesOnly: bool, leaderboardsOnly: bool)
    requires Inv(s, b) && DefaultTopCount <= b.maxRank
    ensures Inv(InitializeData(s, categoriesOnly, leaderboardsOnly), b)
    ensures var r := InitializeData(s, categoriesOnly, leaderboardsOnly);
            Steps(categoriesOnly, leaderboardsOnly).1 ==>
              forall c :: c in r.categories ==> EntriesIn(r, c.id) == RankEntries(Top(r, c.id, DefaultTopCount), c.id)
  {
    var (runCategories, runLeaderboards) := Steps(categoriesOnly, leaderboardsOnly);
    var s1 := if runCategories then LoadGameCategories(s).0 else s;
    if runCategories {
      LoadCategoriesKeepsInv(s, b, GameCategories);
    }
    if runLeaderboards {
      InitializeLeaderboardKeepsInv(s1, b);
      InitializedSettled(s1, b);
    }
  }

  /** After the leaderboard initialisation each category holds the ranked top of its own scores. */
  lemma InitializedSettled(s: Store, b: Bounds)
    requires Inv(s, b)
    ensures var r := InitializeLeaderboard(s).0;
            forall c :: c in r.categories ==> EntriesIn(r, c.id) == RankEntries(Top(r, c.id, DefaultTopCount), c.id)
  {
    InitializeLeaderboardSettles(s, b);
    var r := InitializeLeaderboard(s).0;
    forall c | c in r.categories
      ensures Top(r, c.id, DefaultTopCount) == Top(s, c.id, DefaultTopCount)
    {
      assert ScoresIn(r, c.id) == ScoresIn(s, c.id);
    }
  }
}

=== FILE: leaderboard.dfy ===
/**
 * The leaderboard engine: the ranking order, the per-category recompute
 * that keeps the top scores of a category as ranked entries, and the
 * listing of entries by category and rank.
 */
module Leaderboard {
  import opened Base
  import opened Sorting
  import opened Models

  const DefaultTopCount: nat := 5

  /**
   * `a` ranks no later than `b`: more stars first, then less time, then
   * fewer moves. The database leaves ties on all three open; the score id
   * settles them here, so the order is total and stable.
   */
  predicate RankLe(a: Score, b: Score)
  {
    if a.stars != b.stars then a.stars > b.stars
    else if a.time != b.time then a.time < b.time
    else if a.moves != b.moves then a.moves < b.moves
    else a.id <= b.id
  }

  /** `a` ranks strictly before `b`. */
  predicate Outranks(a: Score, b: Score) { !RankLe(b, a) }

  lemma RankLeTotal()
    ensures TotalPreorder(RankLe)
  {
  }

  /** Two different scores of one store never tie: one of them outranks the other. */
  lemma RankLeStrict(a: Score, b: Score)
    requires a.id != b.id
    ensures RankLe(a, b) <==> Outranks(a, b)
  {
  }

  /** The number of scores of `xs` that outrank `x`. */
  function OutrankCount(xs: seq<Score>, x: Score): nat
  {
    |set y | y in xs && Outranks(y, x)|
  }

  /** The best `n` scores of a category, best first. */
  function Top(s: Store, category: nat, n: nat): (r: seq<Score>)
    ensures |r| == Min(n, |ScoresIn(s, category)|)
    ensures forall x :: x in r ==> x in s.scores && x.category == category
  {
    var r := TopK(ScoresIn(s, category), RankLe, n);
    assert forall x :: x in r ==> x in multiset(ScoresIn(s, category));
    r
  }

  function RankEntry(top: seq<Score>, category: nat, i: nat): Entry
    requires i < |top|
  {
    Entry(top[i].id, category, i + 1)
  }

  /** One entry per kept score, ranked by 1-based position. */
  function RankEntries(top: seq<Score>, category: nat): (r: seq<Entry>)
    ensures |r| == |top|
    ensures forall i :: 0 <= i < |r| ==> r[i].category == category
  {
    seq(|top|, i requires 0 <= i < |top| => RankEntry(top, category, i))
  }

  predicate OtherCategory(category: nat, e: Entry) { e.category != category }

  /**
   * `update_category_leaderboard(category, top_count)`, applied as one
   * atomic step: the entries of the category become exactly the ranked top
   * `n` scores; entries elsewhere, the scores and the categories stay.
   */
  function Recompute(s: Store, category: nat, n: nat): (r: Store)
    ensures r.categories == s.categories && r.scores == s.scores
    ensures r.nextId == s.nextId && r.clock == s.clock
    ensures forall e :: e in r.entries && e.category != category <==> e in s.entries && e.category != category
    ensures |EntriesIn(r, category)| == Min(n, |ScoresIn(s, category)|)
  {
    RecomputeSplit(s, category, n);
    s.(entries := Filter(s.entries, (e: Entry) => OtherCategory(category, e))
                  + RankEntries(Top(s, category, n), category))
  }

  /** Splitting the new entry list: the category's part is the ranked list, the rest is what was kept. */
  lemma RecomputeSplit(s: Store, category: nat, n: nat)
    ensures var r := s.(entries := Filter(s.entries, (e: Entry) => OtherCategory(category, e))
                                   + RankEntries(Top(s, category, n), category));
            EntriesIn(r, category) == RankEntries(Top(s, category, n), category)
            && forall e :: e in r.entries && e.category != category <==> e in s.entries && e.category != category
  {
    var kept := Filter(s.entries, (e: Entry) => OtherCategory(category, e));
    var ranked := RankEntries(Top(s, category, n), category);
    SplitByCategory(kept, ranked, category);
  }

  /** Entries of other categories followed by entries of one category: filtering by it keeps the latter. */
  lemma SplitByCategory(kept: seq<Entry>, ranked: seq<Entry>, category: nat)
    requires forall i :: 0 <= i < |kept| ==> kept[i].category != category
    requires forall i :: 0 <= i < |ranked| ==> ranked[i].category == category
    ensures Filter(kept + ranked, (e: Entry) => e.category == category) == ranked
  {
    FilterConcat(kept, ranked, (e: Entry) => e.category == category);
    FilterNone(kept, (e: Entry) => e.category == category);
    FilterAll(ranked, (e: Entry) => e.category == category);
  }

  // ---------------------------------------------------------------------
  // What the kept entries are

  /** In a strictly sorted sequence with distinct ids, position equals the number of outranking elements. */
  lemma PositionIsOutrankCount(ys: seq<Score>, i: nat)
    requires SortedBy(RankLe, ys)
    requires KeysDistinct(ys, ScoreIdOf)
    requires i < |ys|
    ensures OutrankCount(ys, ys[i]) == i
  {
    var better := set y | y in ys && Outranks(y, ys[i]);
    assert better == set y | y in ys[..i] by {
      forall y | y in ys
        ensures Outranks(y, ys[i]) <==> y in ys[..i]
      {
        var k :| 0 <= k < |ys| && ys[k] == y;
        if k < i {
          assert RankLe(ys[k], ys[i]);
          assert ScoreIdOf(ys[k]) != ScoreIdOf(ys[i]);
          assert y in ys[..i];
        } else {
          assert k == i || RankLe(ys[i], ys[k]);
          forall m | 0 <= m < i
            ensures ys[m] != y
          {
            assert ScoreIdOf(ys[m]) != ScoreIdOf(ys[k]);
          }
        }
      }
    }
    assert KeysDistinct(ys[..i], ScoreIdOf) by {
      forall a, b | 0 <= a < i && 0 <= b < i && a != b
        ensures ScoreIdOf(ys[..i][a]) != ScoreIdOf(ys[..i][b])
      {
        assert ys[..i][a] == ys[a] && ys[..i][b] == ys[b];
      }
    }
    DistinctIdsCount(ys[..i]);
  }

  /** Distinct ids make the elements of a sequence as many as its positions. */
  lemma DistinctIdsCount(xs: seq<Score>)
    requires KeysDistinct(xs, ScoreIdOf)
    ensures |set y | y in xs| == |xs|
  {
    var elems := set y | y in xs;
    KeysDistinctCard(xs, ScoreIdOf);
    KeysDistinctCard(xs, (y: Score) => y);
    assert KeySet(xs, (y: Score) => y) == elems;
    assert KeySet(xs, ScoreIdOf) == set y | y in elems :: ScoreIdOf(y);
    ImageCardBound(elems);
  }

  lemma {:induction false} ImageCardBound(xs: set<Score>)
    ensures |set y | y in xs :: ScoreIdOf(y)| <= |xs|
  {
    if xs != {} {
      var x :| x in xs;
      var rest := xs - {x};
      ImageCardBound(rest);
      var img := set y | y in xs :: ScoreIdOf(y);
      var imgRest := set y | y in rest :: ScoreIdOf(y);
      assert img <= imgRest + {x.id} by {
        forall v | v in img ensures v in imgRest + {x.id} {
          var y :| y in xs && ScoreIdOf(y) == v;
          if y != x {
            assert y in rest;
          }
        }
      }
      var big := imgRest + {x.id};
      assert big == img + (big - img);
      assert |big| == |img| + |big - img|;
      assert |big| <= |imgRest| + 1;
      assert |rest| == |xs| - 1;
    }
  }

  /** The sorted scores of a category and how they relate to the store. */
  lemma SortedCategory(s: Store, category: nat)
    requires KeysDistinct(s.scores, ScoreIdOf)
    ensures SortedBy(RankLe, SortBy(ScoresIn(s, category), RankLe))
    ensures KeysDistinct(SortBy(ScoresIn(s, category), RankLe), ScoreIdOf)
    ensures forall x :: x in SortBy(ScoresIn(s, category), RankLe) <==> x in s.scores && x.category == category
    ensures forall x :: x in ScoresIn(s, category) ==>
              OutrankCount(ScoresIn(s, category), x) == OutrankCount(SortBy(ScoresIn(s, category), RankLe), x)
  {
    var cs := ScoresIn(s, category);
    var ys := SortBy(cs, RankLe);
    RankLeTotal();
    SortBySorted(cs, RankLe);
    FilterKeysDistinct(s.scores, (x: Score) => x.category == category, ScoreIdOf);
    PermKeysDistinct(cs, ys, ScoreIdOf);
    forall x ensures x in ys <==> x in cs {
      assert x in ys <==> x in multiset(ys);
      assert x in cs <==> x in multiset(cs);
    }
    forall x | x in cs
      ensures OutrankCount(cs, x) == OutrankCount(ys, x)
    {
      assert (set y | y in cs && Outranks(y, x)) == (set y | y in ys && Outranks(y, x));
    }
  }

  /** The category's part of the recomputed entries is the ranked top list. */
  lemma RecomputedCategory(s: Store, category: nat, n: nat)
    ensures EntriesIn(Recompute(s, category, n), category) == RankEntries(Top(s, category, n), category)
  {
    RecomputeSplit(s, category, n);
  }

  /** The rebuilt category is already the ranked top list of the store the rebuild produces. */
  lemma RecomputeSelfRanked(s: Store, category: nat, n: nat)
    ensures EntriesIn(Recompute(s, category, n), category)
            == RankEntries(Top(Recompute(s, category, n), category, n), category)
  {
    RecomputedCategory(s, category, n);
    assert ScoresIn(Recompute(s, category, n), category) == ScoresIn(s, category);
  }

  /** `e` ranks a score of the category that fewer than n of the category's scores outrank, at its merit. */
  ghost predicate EarnsRank(s: Store, category: nat, n: nat, e: Entry)
  {
    exists x :: x in s.scores && x.category == category && x.id == e.scoreId
      && OutrankCount(ScoresIn(s, category), x) < n
      && e.rank == OutrankCount(ScoresIn(s, category), x) + 1
  }

  /** The entry at position i of the ranked list, and the score behind it. */
  lemma RankedEntryMerit(s: Store, category: nat, n: nat, i: nat)
    requires KeysDistinct(s.scores, ScoreIdOf)
    requires i < |Top(s, category, n)|
    ensures RankEntries(Top(s, category, n), category)[i] == Entry(Top(s, category, n)[i].id, category, i + 1)
    ensures Top(s, category, n)[i] in s.scores && Top(s, category, n)[i].category == category
    ensures OutrankCount(ScoresIn(s, category), Top(s, category, n)[i]) == i
  {
    var cs := ScoresIn(s, category);
    var ys := SortBy(cs, RankLe);
    SortedCategory(s, category);
    assert Top(s, category, n) == ys[..Min(n, |cs|)];
    PositionIsOutrankCount(ys, i);
  }

  /**
   * Every entry the recompute leaves in the category ranks a score of that
   * category, and its rank is one more than the number of the category's
   * scores that outrank it, which is below n.
   */
  lemma RecomputeEntriesEarnTheirRank(s: Store, category: nat, n: nat)
    requires KeysDistinct(s.scores, ScoreIdOf)
    ensures forall e :: e in EntriesIn(Recompute(s, category, n), category) ==> EarnsRank(s, category, n, e)
  {
    var top := Top(s, category, n);
    var ranked := RankEntries(top, category);
    RecomputedCategory(s, category, n);
    forall e | e in ranked
      ensures EarnsRank(s, category, n, e)
    {
      var i :| 0 <= i < |ranked| && ranked[i] == e;
      RankedEntryMerit(s, category, n, i);
      assert i < n;
      var x := top[i];
      assert x in s.scores && x.category == category && x.id == e.scoreId;
    }
  }

  /** Conversely, every score of the category outranked by fewer than n others gets its entry. */
  lemma RecomputeRanksEveryQualifier(s: Store, category: nat, n: nat, x: Score)
    requires KeysDistinct(s.scores, ScoreIdOf)
    requires x in s.scores && x.category == category
    requires OutrankCount(ScoresIn(s, category), x) < n
    ensures Entry(x.id, category, OutrankCount(ScoresIn(s, category), x) + 1)
              in EntriesIn(Recompute(s, category, n), category)
  {
    var cs := ScoresIn(s, category);
    var ys := SortBy(cs, RankLe);
    SortedCategory(s, category);
    RecomputedCategory(s, category, n);
    assert x in ys;
    var i :| 0 <= i < |ys| && ys[i] == x;
    PositionIsOutrankCount(ys, i);
    assert Top(s, category, n) == ys[..Min(n, |cs|)];
    RankedEntryMerit(s, category, n, i);
  }

  // ---------------------------------------------------------------------
  // Laws of the recompute

  /** Membership in the recomputed entries: untouched entries elsewhere, or the ranked list. */
  lemma RecomputeMembership(s: Store, category: nat, n: nat, e: Entry)
    ensures e in Recompute(s, category, n).entries <==>
              (e in s.entries && e.category != category) || e in RankEntries(Top(s, category, n), category)
  {
    RecomputedCategory(s, category, n);
    if e in RankEntries(Top(s, category, n), category) {
      var ranked := RankEntries(Top(s, category, n), category);
      var i :| 0 <= i < |ranked| && ranked[i] == e;
      assert e.category == category;
      assert e in EntriesIn(Recompute(s, category, n), category);
    }
  }

  /** The ranked list has distinct scores, distinct ranks 1..|top|, all within the category. */
  lemma RankEntriesShape(s: Store, category: nat, n: nat)
    requires KeysDistinct(s.scores, ScoreIdOf)
    ensures KeysDistinct(RankEntries(Top(s, category, n), category), EntryScoreOf)
    ensures KeysDistinct(RankEntries(Top(s, category, n), category), EntrySlotOf)
    ensures forall e :: e in RankEntries(Top(s, category, n), category) ==>
              e.category == category && 1 <= e.rank <= Min(n, |ScoresIn(s, category)|)
              && HasScore(s, e.scoreId, category)
  {
    var top := Top(s, category, n);
    var ranked := RankEntries(top, category);
    forall i | 0 <= i < |ranked|
      ensures ranked[i] == Entry(top[i].id, category, i + 1) && HasScore(s, ranked[i].scoreId, category)
    {
      RankedEntryMerit(s, category, n, i);
    }
    forall i, j | 0 <= i < |ranked| && 0 <= j < |ranked| && i != j
      ensures EntryScoreOf(ranked[i]) != EntryScoreOf(ranked[j])
    {
      var cs := ScoresIn(s, category);
      var ys := SortBy(cs, RankLe);
      SortedCategory(s, category);
      assert top == ys[..Min(n, |cs|)];
      assert ScoreIdOf(ys[i]) != ScoreIdOf(ys[j]);
    }
  }

  /** The recomputed entries keep one entry per score, unique slots, ranks within 1..n, and no dangling entry. */
  lemma RecomputeEntriesWellFormed(s: Store, category: nat, n: nat)
    requires KeysDistinct(s.scores, ScoreIdOf)
    requires KeysDistinct(s.entries, EntryScoreOf) && KeysDistinct(s.entries, EntrySlotOf)
    requires forall e :: e in s.entries ==> HasScore(s, e.scoreId, e.category)
    ensures KeysDistinct(Recompute(s, category, n).entries, EntryScoreOf)
    ensures KeysDistinct(Recompute(s, category, n).entries, EntrySlotOf)
    ensures forall e :: e in Recompute(s, category, n).entries ==>
              (e in s.entries || 1 <= e.rank <= n) && HasScore(s, e.scoreId, e.category)
  {
    var kept := Filter(s.entries, (e: Entry) => OtherCategory(category, e));
    var ranked := RankEntries(Top(s, category, n), category);
    assert Recompute(s, category, n).entries == kept + ranked;
    RankEntriesShape(s, category, n);
    FilterKeysDistinct(s.entries, (e: Entry) => OtherCategory(category, e), EntryScoreOf);
    FilterKeysDistinct(s.entries, (e: Entry) => OtherCategory(category, e), EntrySlotOf);
    forall x, y | x in kept && y in ranked
      ensures EntryScoreOf(x) != EntryScoreOf(y)
    {
      ScoreCategoryDetermined(s, x.scoreId, x.category);
    }
    ConcatKeysDistinct(kept, ranked, EntryScoreOf);
    ConcatKeysDistinct(kept, ranked, EntrySlotOf);
  }

  /** With unique score ids, a score id belongs to one category only. */
  lemma ScoreCategoryDetermined(s: Store, id: nat, c1: nat)
    requires KeysDistinct(s.scores, ScoreIdOf)
    requires HasScore(s, id, c1)
    ensures forall c2 :: HasScore(s, id, c2) ==> c2 == c1
  {
    forall c2 | HasScore(s, id, c2)
      ensures c2 == c1
    {
      var x1 :| x1 in s.scores && x1.id == id && x1.category == c1;
      var x2 :| x2 in s.scores && x2.id == id && x2.category == c2;
      var i :| 0 <= i < |s.scores| && s.scores[i] == x1;
      var j :| 0 <= j < |s.scores| && s.scores[j] == x2;
      assert ScoreIdOf(s.scores[i]) == ScoreIdOf(s.scores[j]);
    }
  }

  /**
   * Recomputing keeps every schema constraint, provided the kept count fits
   * the rank validator: at most one entry per score, unique (category, rank),
   * ranks in 1..maxRank, no dangling entry.
   */
  lemma RecomputeKeepsInv(s: Store, b: Bounds, category: nat, n: nat)
    requires Inv(s, b)
    requires n <= b.maxRank
    ensures Inv(Recompute(s, category, n), b)
  {
    var r := Recompute(s, category, n);
    RecomputeEntriesWellFormed(s, category, n);
    ReplaceEntriesKeepsInv(s, r, b);
  }

  /** Running the recompute twice on an unchanged score set gives the same store as running it once. */
  lemma RecomputeIdempotent(s: Store, category: nat, n: nat)
    ensures Recompute(Recompute(s, category, n), category, n) == Recompute(s, category, n)
  {
    var other := (e: Entry) => OtherCategory(category, e);
    var r := Recompute(s, category, n);
    var kept := Filter(s.entries, other);
    var ranked := RankEntries(Top(s, category, n), category);
    assert r.entries == kept + ranked;
    KeepOthers(kept, ranked, category);
    assert ScoresIn(r, category) == ScoresIn(s, category);
    assert Top(r, category, n) == Top(s, category, n);
    assert Recompute(r, category, n).entries == kept + ranked;
  }

  /** Entries of other categories followed by entries of one category: filtering out that category keeps the former. */
  lemma KeepOthers(kept: seq<Entry>, ranked: seq<Entry>, category: nat)
    requires forall i :: 0 <= i < |kept| ==> OtherCategory(category, kept[i])
    requires forall i :: 0 <= i < |ranked| ==> ranked[i].category == category
    ensures Filter(kept + ranked, (e: Entry) => OtherCategory(category, e)) == kept
  {
    var other := (e: Entry) => OtherCategory(category, e);
    FilterConcat(kept, ranked, other);
    FilterAll(kept, other);
    FilterNone(ranked, other);
  }

  /** Recomputes of two different categories do not interfere: either order leaves the same entries. */
  lemma RecomputeCommutes(s: Store, c1: nat, c2: nat, n: nat)
    requires c1 != c2
    ensures forall e :: e in Recompute(Recompute(s, c1, n), c2, n).entries
                   <==> e in Recompute(Recompute(s, c2, n), c1, n).entries
  {
    var s1 := Recompute(s, c1, n);
    var s2 := Recompute(s, c2, n);
    assert Top(s1, c2, n) == Top(s, c2, n);
    assert Top(s2, c1, n) == Top(s, c1, n);
    forall e
      ensures e in Recompute(s1, c2, n).entries <==> e in Recompute(s2, c1, n).entries
    {
      RecomputeMembership(s, c1, n, e);
      RecomputeMembership(s, c2, n, e);
      RecomputeMembership(s1, c2, n, e);
      RecomputeMembership(s2, c1, n, e);
      RankEntriesInCategory(s, c1, n, e);
      RankEntriesInCategory(s, c2, n, e);
    }
  }

  lemma RankEntriesInCategory(s: Store, category: nat, n: nat, e: Entry)
    ensures e in RankEntries(Top(s, category, n), category) ==> e.category == category
  {
  }

  /** The ranks carried by a list of entries. */
  ghost function Ranks(es: seq<Entry>): set<int>
  {
    set e | e in es :: e.rank
  }

  /** After a recompute the category's ranks are exactly 1..k, k = min(n, number of its scores). */
  lemma RecomputeRanksContiguous(s: Store, category: nat, n: nat)
    requires KeysDistinct(s.scores, ScoreIdOf)
    ensures forall k :: k in Ranks(EntriesIn(Recompute(s, category, n), category))
                   <==> 1 <= k <= Min(n, |ScoresIn(s, category)|)
  {
    var ranked := RankEntries(Top(s, category, n), category);
    RecomputedCategory(s, category, n);
    RankEntriesShape(s, category, n);
    forall k | 1 <= k <= Min(n, |ScoresIn(s, category)|)
      ensures k in Ranks(ranked)
    {
      RankedEntryMerit(s, category, n, k - 1);
      assert ranked[k - 1] in ranked;
    }
  }

  /** With the default top count a category holds at most five entries. */
  lemma DefaultRecomputeKeepsFive(s: Store, category: nat)
    ensures |EntriesIn(Recompute(s, category, DefaultTopCount), category)| <= 5
  {
  }

  /** A recompute of one category leaves every other category's entries as they were. */
  lemma RecomputeLeavesOthers(s: Store, d: nat, n: nat)
    ensures forall c :: c != d ==> EntriesIn(Recompute(s, d, n), c) == EntriesIn(s, c)
  {
    forall c | c != d
      ensures EntriesIn(Recompute(s, d, n), c) == EntriesIn(s, c)
    {
      var kept := Filter(s.entries, (e: Entry) => OtherCategory(d, e));
      var ranked := RankEntries(Top(s, d, n), d);
      var inC := (e: Entry) => e.category == c;
      FilterConcat(kept, ranked, inC);
      FilterNone(ranked, inC);
      FilterFilter(s.entries, (e: Entry) => OtherCategory(d, e), inC, inC);
    }
  }

  /**
   * Recomputes the listed category ids in turn, skipping an id that names
   * no category: the caller catches the failed lookup and moves on.
   */
  function RecomputeEach(s: Store, ids: seq<nat>, n: nat): (r: Store)
    ensures r.categories == s.categories && r.scores == s.scores
    ensures r.nextId == s.nextId && r.clock == s.clock
    ensures forall c :: c !in ids ==> EntriesIn(r, c) == EntriesIn(s, c)
    decreases |ids|
  {
    if ids == [] then s
    else
      var s1 := if CategoryById(s.categories, ids[0]).Some? then Recompute(s, ids[0], n) else s;
      RecomputeLeavesOthers(s, ids[0], n);
      assert forall c :: c !in ids ==> c != ids[0] && c !in ids[1..];
      RecomputeEach(s1, ids[1..], n)
  }

  /**
   * With distinct ids, every listed id that names a category ends holding
   * exactly its ranked top scores, whatever was recomputed before or after.
   */
  lemma {:induction false} RecomputeEachSettles(s: Store, ids: seq<nat>, n: nat)
    requires forall i, j :: 0 <= i < j < |ids| ==> ids[i] != ids[j]
    ensures forall c :: c in ids && CategoryById(s.categories, c).Some? ==>
              EntriesIn(RecomputeEach(s, ids, n), c) == RankEntries(Top(s, c, n), c)
    decreases |ids|
  {
    if ids != [] {
      var s1 := if CategoryById(s.categories, ids[0]).Some? then Recompute(s, ids[0], n) else s;
      var tail := ids[1..];
      assert forall i, j :: 0 <= i < j < |tail| ==> tail[i] != tail[j] by {
        forall i, j | 0 <= i < j < |tail| ensures tail[i] != tail[j] {
          assert tail[i] == ids[i + 1] && tail[j] == ids[j + 1];
        }
      }
      assert ids[0] !in tail by {
        forall k | 0 <= k < |tail| ensures tail[k] != ids[0] {
          assert tail[k] == ids[k + 1];
        }
      }
      RecomputeEachSettles(s1, tail, n);
      assert RecomputeEach(s, ids, n) == RecomputeEach(s1, tail, n);
      assert ScoresIn(s1, ids[0]) == ScoresIn(s, ids[0]);
      forall c | c in ids && CategoryById(s.categories, c).Some?
        ensures EntriesIn(RecomputeEach(s, ids, n), c) == RankEntries(Top(s, c, n), c)
      {
        assert ScoresIn(s1, c) == ScoresIn(s, c);
        if c == ids[0] {
          RecomputedCategory(s, c, n);
        }
      }
    }
  }

  /** Recomputing several categories keeps every schema constraint. */
  lemma {:induction false} RecomputeEachKeepsInv(s: Store, b: Bounds, ids: seq<nat>, n: nat)
    requires Inv(s, b) && n <= b.maxRank
    ensures Inv(RecomputeEach(s, ids, n), b)
    decreases |ids|
  {
    if ids != [] {
      var s1 := if CategoryById(s.categories, ids[0]).Some? then Recompute(s, ids[0], n) else s;
      if CategoryById(s.categories, ids[0]).Some? {
        RecomputeKeepsInv(s, b, ids[0], n);
      }
      RecomputeEachKeepsInv(s1, b, ids[1..], n);
    }
  }

  // ---------------------------------------------------------------------
  // The recompute as `update_category_leaderboard` writes it: prune, then one upsert per rank

  /** Why a single row write is refused by the database. */
  datatype WriteError =
    | DuplicateRank(category: nat, rank: int)   // unique (category, rank)
    | ScoreAlreadyRanked(scoreId: nat)          // one-to-one score

  /** Whether score `sid` is among the kept scores. */
  predicate InTop(top: seq<Score>, sid: nat)
  {
    exists i :: 0 <= i < |top| && top[i].id == sid
  }

  predicate KeepEntry(category: nat, top: seq<Score>, e: Entry)
  {
    e.category != category || InTop(top, e.scoreId)
  }

  /** The entries left after deleting the category's entries whose score fell out of the top list. */
  function Pruned(s: Store, category: nat, n: nat): (r: seq<Entry>)
    ensures forall e :: e in r <==> e in s.entries && (e.category != category || InTop(Top(s, category, n), e.scoreId))
  {
    Filter(s.entries, (e: Entry) => KeepEntry(category, Top(s, category, n), e))
  }

  /** Position of the entry of score `sid`, or |es| when there is none. */
  function EntryIndex(es: seq<Entry>, sid: nat): (k: nat)
    ensures k <= |es|
    ensures k < |es| ==> es[k].scoreId == sid
    ensures k == |es| <==> forall e :: e in es ==> e.scoreId != sid
  {
    if es == [] then 0
    else if es[0].scoreId == sid then 0
    else 1 + EntryIndex(es[1..], sid)
  }

  /**
   * `update_or_create(score=sid, category=category, defaults={'rank': rank})`
   * against the table's constraints: the row for (sid, category) gets the
   * rank, or is created; either write fails when another row of the
   * category already holds the rank, and the create fails when the score
   * is ranked in another category.
   */
  function UpsertRank(es: seq<Entry>, category: nat, sid: nat, rank: int): (r: Result<seq<Entry>, WriteError>)
    ensures r.Ok? ==> Entry(sid, category, rank) in r.value
    ensures r.Ok? && KeysDistinct(es, EntryScoreOf) ==>
              KeysDistinct(r.value, EntryScoreOf)
              && forall e :: e in r.value <==> (e in es && e.scoreId != sid) || e == Entry(sid, category, rank)
    ensures (KeysDistinct(es, EntryScoreOf) && KeysDistinct(es, EntrySlotOf) && Entry(sid, category, rank) in es)
              ==> r == Ok(es)
    ensures KeysDistinct(es, EntryScoreOf) ==>
              (r.Err? <==>
                 (exists e :: e in es && e.scoreId != sid && e.category == category && e.rank == rank)
                 || (exists e :: e in es && e.scoreId == sid && e.category != category))
  {
    var k := EntryIndex(es, sid);
    if k < |es| && es[k].category != category then Err(ScoreAlreadyRanked(sid))
    else if exists j :: 0 <= j < |es| && es[j].scoreId != sid && es[j].category == category && es[j].rank == rank then
      Err(DuplicateRank(category, rank))
    else if k < |es| then
      assert KeysDistinct(es, EntryScoreOf) ==> forall e :: e in es && e.scoreId == sid ==> e == es[k] by {
        if KeysDistinct(es, EntryScoreOf) {
          forall e | e in es && e.scoreId == sid ensures e == es[k] {
            var i :| 0 <= i < |es| && es[i] == e;
            assert EntryScoreOf(es[i]) == EntryScoreOf(es[k]);
          }
        }
      }
      ReplaceEntry(es, k, Entry(sid, category, rank));
      assert KeysDistinct(es, EntryScoreOf) && Entry(sid, category, rank) in es ==> es[k := Entry(sid, category, rank)] == es by {
        if KeysDistinct(es, EntryScoreOf) && Entry(sid, category, rank) in es {
          var i :| 0 <= i < |es| && es[i] == Entry(sid, category, rank);
          assert EntryScoreOf(es[i]) == EntryScoreOf(es[k]);
          assert es[k := es[k]] == es;
        }
      }
      Ok(es[k := Entry(sid, category, rank)])
    else
      Ok(es + [Entry(sid, category, rank)])
  }

  /** Overwriting the entry of a score keeps one entry per score and replaces only that entry. */
  lemma ReplaceEntry(es: seq<Entry>, k: nat, e: Entry)
    requires k < |es| && es[k].scoreId == e.scoreId
    ensures e in es[k := e]
    ensures KeysDistinct(es, EntryScoreOf) ==>
              KeysDistinct(es[k := e], EntryScoreOf)
              && forall x :: x in es[k := e] <==> (x in es && x.scoreId != e.scoreId) || x == e
  {
    var u := es[k := e];
    assert u[k] == e;
    if KeysDistinct(es, EntryScoreOf) {
      forall x | x in es && x.scoreId != e.scoreId
        ensures x in u
      {
        var i :| 0 <= i < |es| && es[i] == x;
        assert u[i] == x;
      }
      forall x | x in u && x != e
        ensures x in es && x.scoreId != e.scoreId
      {
        var i :| 0 <= i < |u| && u[i] == x;
        assert EntryScoreOf(es[i]) != EntryScoreOf(es[k]);
      }
      forall i, j | 0 <= i < |u| && 0 <= j < |u| && i != j
        ensures EntryScoreOf(u[i]) != EntryScoreOf(u[j])
      {
        if i != k && j != k {
          assert u[i] == es[i] && u[j] == es[j];
        } else if i == k {
          assert EntryScoreOf(es[k]) != EntryScoreOf(es[j]);
        } else {
          assert EntryScoreOf(es[k]) != EntryScoreOf(es[i]);
        }
      }
    }
  }

  /** The kept scores have distinct ids. */
  lemma TopIdsDistinct(s: Store, category: nat, n: nat)
    requires KeysDistinct(s.scores, ScoreIdOf)
    ensures KeysDistinct(Top(s, category, n), ScoreIdOf)
  {
    var top := Top(s, category, n);
    forall i, j | 0 <= i < |top| && 0 <= j < |top| && i != j
      ensures ScoreIdOf(top[i]) != ScoreIdOf(top[j])
    {
      var cs := ScoresIn(s, category);
      var ys := SortBy(cs, RankLe);
      SortedCategory(s, category);
      assert top == ys[..Min(n, |cs|)];
      assert top[i] == ys[i] && top[j] == ys[j];
    }
  }

  /** `e` is the entry written for one of the first i kept scores. */
  ghost predicate Written(top: seq<Score>, category: nat, i: nat, e: Entry)
  {
    exists j :: 0 <= j < i && j < |top| && e == RankEntry(top, category, j)
  }

  /**
   * The state of the rank-writing loop after i writes: one entry per score,
   * other categories untouched, the first i ranks written, and every other
   * entry of the category a pruned survivor none of the writes has reached.
   */
  ghost predicate Progress(s: Store, category: nat, top: seq<Score>, es: seq<Entry>, st: seq<Entry>, i: nat)
  {
    && i <= |top|
    && KeysDistinct(st, EntryScoreOf)
    && (forall e :: e in st && e.category != category <==> e in s.entries && e.category != category)
    && (forall j :: 0 <= j < i ==> RankEntry(top, category, j) in st)
    && (forall e :: e in st && e.category == category ==>
          Written(top, category, i, e) || (e in es && forall j :: 0 <= j < i ==> top[j].id != e.scoreId))
  }

  /** A successful write moves the loop state one rank further. */
  lemma StepProgress(s: Store, category: nat, top: seq<Score>, es: seq<Entry>, st: seq<Entry>, i: nat)
    requires KeysDistinct(top, ScoreIdOf)
    requires Progress(s, category, top, es, st, i) && i < |top|
    requires UpsertRank(st, category, top[i].id, i + 1).Ok?
    ensures Progress(s, category, top, es, UpsertRank(st, category, top[i].id, i + 1).value, i + 1)
  {
    var sid := top[i].id;
    var next := UpsertRank(st, category, sid, i + 1).value;
    var want := RankEntry(top, category, i);
    forall j | 0 <= j < i
      ensures RankEntry(top, category, j) in next
    {
      assert ScoreIdOf(top[j]) != ScoreIdOf(top[i]);
    }
    assert want in next;
    forall e | e in next && e.category == category
      ensures Written(top, category, i + 1, e)
              || (e in es && forall j :: 0 <= j < i + 1 ==> top[j].id != e.scoreId)
    {
      if e != want {
        assert e in st && e.scoreId != sid;
        if Written(top, category, i, e) {
          var j :| 0 <= j < i && j < |top| && e == RankEntry(top, category, j);
        }
      }
    }
  }

  /** Writing the ranks of a category that held no entries never collides. */
  lemma StepSucceedsWhenUnranked(s: Store, category: nat, top: seq<Score>, es: seq<Entry>, st: seq<Entry>, i: nat)
    requires KeysDistinct(s.scores, ScoreIdOf)
    requires forall e :: e in s.entries ==> HasScore(s, e.scoreId, e.category)
    requires forall x :: x in top ==> x in s.scores && x.category == category
    requires forall e :: e in es ==> e.category != category
    requires Progress(s, category, top, es, st, i) && i < |top|
    ensures UpsertRank(st, category, top[i].id, i + 1).Ok?
  {
    var sid := top[i].id;
    assert top[i] in top;
    assert HasScore(s, sid, category);
    ScoreCategoryDetermined(s, sid, category);
    forall e | e in st
      ensures !(e.scoreId != sid && e.category == category && e.rank == i + 1)
      ensures !(e.scoreId == sid && e.category != category)
    {
      if e.category == category {
        var j :| 0 <= j < i && j < |top| && e == RankEntry(top, category, j);
      }
    }
  }

  /** Having been written by the completed loop is being in the ranked list. */
  lemma WrittenIsRanked(top: seq<Score>, category: nat, e: Entry)
    ensures Written(top, category, |top|, e) <==> e in RankEntries(top, category)
  {
    if e in RankEntries(top, category) {
      var j :| 0 <= j < |top| && RankEntries(top, category)[j] == e;
    }
    if Written(top, category, |top|, e) {
      var j :| 0 <= j < |top| && e == RankEntry(top, category, j);
      assert RankEntries(top, category)[j] == e;
    }
  }

  /** When the loop has written every rank, the entries are those of the atomic recompute. */
  lemma ProgressComplete(s: Store, category: nat, n: nat, st: seq<Entry>)
    requires Progress(s, category, Top(s, category, n), Pruned(s, category, n), st, |Top(s, category, n)|)
    ensures forall e :: e in st <==> e in Recompute(s, category, n).entries
  {
    var top := Top(s, category, n);
    var es := Pruned(s, category, n);
    forall e
      ensures e in st <==> e in Recompute(s, category, n).entries
    {
      RecomputeMembership(s, category, n, e);
      WrittenIsRanked(top, category, e);
      if e.category == category {
        if e in es {
          assert InTop(top, e.scoreId);
        }
        if Written(top, category, |top|, e) {
          var j :| 0 <= j < |top| && e == RankEntry(top, category, j);
        }
      }
    }
  }

  /** The category holds no entries yet. */
  ghost predicate Unranked(s: Store, category: nat)
  {
    forall e :: e in s.entries ==> e.category != category
  }

  /** The category's entries already are the ranked top list. */
  ghost predicate Consistent(s: Store, category: nat, n: nat)
  {
    forall e :: e in s.entries && e.category == category <==> e in RankEntries(Top(s, category, n), category)
  }

  /** The loop's first write, rank 1 for the best score, is refused. */
  ghost predicate FirstWriteRefused(s: Store, category: nat, n: nat)
  {
    |Top(s, category, n)| > 0 && UpsertRank(Pruned(s, category, n), category, Top(s, category, n)[0].id, 1).Err?
  }

  /**
   * `update_category_leaderboard(category, top_count)` as written: delete
   * the category's entries whose score left the top list, then upsert the
   * kept scores' ranks one at a time. The first refused write aborts the
   * call, with the writes before it already done.
   */
  method UpdateCategoryLeaderboard(s: Store, category: nat, n: nat) returns (r: Result<Store, WriteError>)
    requires KeysDistinct(s.scores, ScoreIdOf)
    requires KeysDistinct(s.entries, EntryScoreOf) && KeysDistinct(s.entries, EntrySlotOf)
    requires forall e :: e in s.entries ==> HasScore(s, e.scoreId, e.category)
    ensures r.Ok? ==> r.value.categories == s.categories && r.value.scores == s.scores
                      && r.value.nextId == s.nextId && r.value.clock == s.clock
    ensures r.Ok? ==> forall e :: e in r.value.entries <==> e in Recompute(s, category, n).entries
    ensures Unranked(s, category) ==> r.Ok?
    ensures Consistent(s, category, n) ==> r == Ok(s)
    ensures FirstWriteRefused(s, category, n) ==> r.Err?
    ensures r.Ok? <==> WriteRanks(Pruned(s, category, n), category, Top(s, category, n), 0).Ok?
  {
    var w := WriteInOrder(Pruned(s, category, n), category, Top(s, category, n));
    WriteOutcome(s, category, n);
    match w
    case Err(e) => r := Err(e);
    case Ok(st) => r := Ok(s.(entries := st));
  }

  /**
   * The loop of `update_category_leaderboard`: write rank j + 1 for the
   * j-th top score, in order, and stop at the first refused write.
   */
  method WriteInOrder(es: seq<Entry>, category: nat, top: seq<Score>) returns (r: Result<seq<Entry>, WriteError>)
    ensures r == WriteRanks(es, category, top, 0)
  {
    var st := es;
    var i := 0;
    while i < |top|
      invariant i <= |top|
      invariant WriteRanks(st, category, top, i) == WriteRanks(es, category, top, 0)
    {
      var step := UpsertRank(st, category, top[i].id, i + 1);
      if step.Err? {
        return Err(step.error);
      }
      st := step.value;
      i := i + 1;
    }
    r := Ok(st);
  }

  /** The writes of ranks i + 1 onwards, stopping at the first one refused. */
  function WriteRanks(st: seq<Entry>, category: nat, top: seq<Score>, i: nat): Result<seq<Entry>, WriteError>
    requires i <= |top|
    decreases |top| - i
  {
    if i == |top| then Ok(st)
    else match UpsertRank(st, category, top[i].id, i + 1)
      case Err(e) => Err(e)
      case Ok(next) => WriteRanks(next, category, top, i + 1)
  }

  /**
   * The outcome of writing every rank after the pruning: when it succeeds
   * the entries are the atomic recompute's; it succeeds on a first build,
   * changes nothing on a consistent category, and fails when the first
   * write is refused.
   */
  lemma WriteOutcome(s: Store, category: nat, n: nat)
    requires KeysDistinct(s.scores, ScoreIdOf)
    requires KeysDistinct(s.entries, EntryScoreOf) && KeysDistinct(s.entries, EntrySlotOf)
    requires forall e :: e in s.entries ==> HasScore(s, e.scoreId, e.category)
    ensures WriteRanks(Pruned(s, category, n), category, Top(s, category, n), 0).Ok? ==>
              forall e :: (e in WriteRanks(Pruned(s, category, n), category, Top(s, category, n), 0).value
                           <==> e in Recompute(s, category, n).entries)
    ensures Unranked(s, category) ==> WriteRanks(Pruned(s, category, n), category, Top(s, category, n), 0).Ok?
    ensures Consistent(s, category, n) ==> WriteRanks(Pruned(s, category, n), category, Top(s, category, n), 0) == Ok(s.entries)
    ensures FirstWriteRefused(s, category, n) ==> WriteRanks(Pruned(s, category, n), category, Top(s, category, n), 0).Err?
  {
    var top := Top(s, category, n);
    var es := Pruned(s, category, n);
    TopIdsDistinct(s, category, n);
    InitialProgress(s, category, n);
    WritesFrom(s, category, top, es, es, 0);
    var w := WriteRanks(es, category, top, 0);
    if w.Ok? {
      ProgressComplete(s, category, n, w.value);
    }
    if Consistent(s, category, n) {
      ConsistentNothingPruned(s, category, n);
      forall j | 0 <= j < |top|
        ensures RankEntry(top, category, j) in s.entries
      {
        assert RankEntries(top, category)[j] in RankEntries(top, category);
      }
      WritesConsistent(s.entries, category, top, 0);
    }
  }

  /**
   * From a valid loop state the remaining writes, if all accepted, complete
   * the loop; when the pruned entries hold none of the category, they are
   * all accepted.
   */
  lemma {:induction false} WritesFrom(s: Store, category: nat, top: seq<Score>, es: seq<Entry>, st: seq<Entry>, i: nat)
    requires KeysDistinct(s.scores, ScoreIdOf)
    requires forall e :: e in s.entries ==> HasScore(s, e.scoreId, e.category)
    requires KeysDistinct(top, ScoreIdOf)
    requires forall x :: x in top ==> x in s.scores && x.category == category
    requires Progress(s, category, top, es, st, i)
    ensures WriteRanks(st, category, top, i).Ok? ==> Progress(s, category, top, es, WriteRanks(st, category, top, i).value, |top|)
    ensures (forall e :: e in es ==> e.category != category) ==> WriteRanks(st, category, top, i).Ok?
    decreases |top| - i
  {
    if i < |top| {
      if forall e :: e in es ==> e.category != category {
        StepSucceedsWhenUnranked(s, category, top, es, st, i);
      }
      var step := UpsertRank(st, category, top[i].id, i + 1);
      if step.Ok? {
        StepProgress(s, category, top, es, st, i);
        assert WriteRanks(st, category, top, i) == WriteRanks(step.value, category, top, i + 1);
        WritesFrom(s, category, top, es, step.value, i + 1);
      }
    }
  }

  /** When every rank's entry is already in place, every remaining write is accepted and changes nothing. */
  lemma {:induction false} WritesConsistent(es: seq<Entry>, category: nat, top: seq<Score>, i: nat)
    requires KeysDistinct(es, EntryScoreOf) && KeysDistinct(es, EntrySlotOf)
    requires forall j :: 0 <= j < |top| ==> RankEntry(top, category, j) in es
    requires i <= |top|
    ensures WriteRanks(es, category, top, i) == Ok(es)
    decreases |top| - i
  {
    if i < |top| {
      assert UpsertRank(es, category, top[i].id, i + 1) == Ok(es) by {
        assert RankEntry(top, category, i) in es;
      }
      WritesConsistent(es, category, top, i + 1);
    }
  }

  /** Before the first write the pruned entries are a valid loop state. */
  lemma InitialProgress(s: Store, category: nat, n: nat)
    requires KeysDistinct(s.entries, EntryScoreOf)
    ensures Progress(s, category, Top(s, category, n), Pruned(s, category, n), Pruned(s, category, n), 0)
  {
    var top := Top(s, category, n);
    FilterKeysDistinct(s.entries, (e: Entry) => KeepEntry(category, top, e), EntryScoreOf);
    assert Pruned(s, category, n) == Filter(s.entries, (e: Entry) => KeepEntry(category, top, e));
  }

  /** When the category's entries already are the ranked top list, pruning removes nothing. */
  lemma ConsistentNothingPruned(s: Store, category: nat, n: nat)
    requires Consistent(s, category, n)
    ensures Pruned(s, category, n) == s.entries
  {
    var top := Top(s, category, n);
    forall i | 0 <= i < |s.entries|
      ensures KeepEntry(category, top, s.entries[i])
    {
      var e := s.entries[i];
      if e.category == category {
        assert e in RankEntries(top, category);
        var j :| 0 <= j < |top| && RankEntries(top, category)[j] == e;
        assert top[j].id == e.scoreId;
      }
    }
    FilterAll(s.entries, (e: Entry) => KeepEntry(category, top, e));
  }

  // ---------------------------------------------------------------------
  // A store on which the as-written loop collides

  /**
   * Category 1 holds one score, ranked 1 (4 stars). A better score arrives
   * (5 stars). The new leader's rank-1 write meets the old leader's row,
   * which still holds rank 1 because its own rank-2 write comes later.
   */
  function NewLeaderStore(): (s: Store)
    ensures KeysDistinct(s.scores, ScoreIdOf)
    ensures KeysDistinct(s.entries, EntryScoreOf) && KeysDistinct(s.entries, EntrySlotOf)
    ensures forall e :: e in s.entries ==> HasScore(s, e.scoreId, e.category)
  {
    var p := Profile(1, 1);
    var former := Score(1, p, 1, 20, 60, 4, 0);
    var leader := Score(2, p, 1, 15, 45, 5, 1);
    var s := Store([Category(1, "ANIMALS", "Animals", "")], [former, leader], [Entry(1, 1, 1)], 3, 2);
    assert HasScore(s, 1, 1) by { assert s.scores[0] == former; }
    s
  }

  /** The new leader comes first in that store's top list. */
  lemma NewLeaderTop()
    ensures Top(NewLeaderStore(), 1, DefaultTopCount) == [NewLeaderStore().scores[1], NewLeaderStore().scores[0]]
  {
    TopOfTwo(NewLeaderStore(), 1, DefaultTopCount);
  }

  /** A category of two scores, both kept: the one ranking first leads the top list. */
  lemma TopOfTwo(s: Store, category: nat, n: nat)
    requires |s.scores| == 2 && s.scores[0].category == category && s.scores[1].category == category
    requires n >= 2
    ensures Top(s, category, n) == if RankLe(s.scores[0], s.scores[1]) then s.scores else [s.scores[1], s.scores[0]]
  {
    var a, b := s.scores[0], s.scores[1];
    assert s.scores == [a] + [b];
    assert ScoresIn(s, category) == [a, b];
    assert SortBy([b], RankLe) == [b];
    assert SortBy([a, b], RankLe) == Insert(a, SortBy([b], RankLe), RankLe);
  }

  /** On that store the write loop fails on its first write, while the atomic recompute ranks both scores. */
  lemma NewLeaderCollides()
    ensures UpsertRank(Pruned(NewLeaderStore(), 1, DefaultTopCount), 1,
                       Top(NewLeaderStore(), 1, DefaultTopCount)[0].id, 1) == Err(DuplicateRank(1, 1))
    ensures Recompute(NewLeaderStore(), 1, DefaultTopCount).entries == [Entry(2, 1, 1), Entry(1, 1, 2)]
  {
    NewLeaderFirstWrite();
    NewLeaderRecomputed();
  }

  /** The pruning keeps the former leader's row, so writing rank 1 for the new leader meets it. */
  lemma NewLeaderFirstWrite()
    ensures UpsertRank(Pruned(NewLeaderStore(), 1, DefaultTopCount), 1,
                       Top(NewLeaderStore(), 1, DefaultTopCount)[0].id, 1) == Err(DuplicateRank(1, 1))
  {
    var s := NewLeaderStore();
    var top := Top(s, 1, DefaultTopCount);
    NewLeaderTop();
    assert InTop(top, 1) by { assert top[1].id == 1; }
    assert Pruned(s, 1, DefaultTopCount) == [Entry(1, 1, 1)] by {
      assert s.entries == [Entry(1, 1, 1)];
    }
    assert EntryIndex([Entry(1, 1, 1)], 2) == 1;
  }

  /** The atomic recompute of that store ranks the new leader 1 and the former leader 2. */
  lemma NewLeaderRecomputed()
    ensures Recompute(NewLeaderStore(), 1, DefaultTopCount).entries == [Entry(2, 1, 1), Entry(1, 1, 2)]
  {
    var s := NewLeaderStore();
    assert s.entries[0] == Entry(1, 1, 1);
    RecomputeOfTwo(s, 1, DefaultTopCount);
  }

  /** A category of two scores holding all the entries: the rebuild ranks the better score 1 and the other 2. */
  lemma RecomputeOfTwo(s: Store, category: nat, n: nat)
    requires |s.scores| == 2 && s.scores[0].category == category && s.scores[1].category == category
    requires n >= 2
    requires forall i :: 0 <= i < |s.entries| ==> s.entries[i].category == category
    ensures RankLe(s.scores[0], s.scores[1]) ==>
              Recompute(s, category, n).entries == [Entry(s.scores[0].id, category, 1), Entry(s.scores[1].id, category, 2)]
    ensures !RankLe(s.scores[0], s.scores[1]) ==>
              Recompute(s, category, n).entries == [Entry(s.scores[1].id, category, 1), Entry(s.scores[0].id, category, 2)]
  {
    TopOfTwo(s, category, n);
    RankTwo(Top(s, category, n), category);
    RecomputeWholeCategory(s, category, n);
  }

  /** Ranking a two-score list. */
  lemma RankTwo(top: seq<Score>, category: nat)
    requires |top| == 2
    ensures RankEntries(top, category) == [Entry(top[0].id, category, 1), Entry(top[1].id, category, 2)]
  {
    var ranked := RankEntries(top, category);
    assert ranked[0] == RankEntry(top, category, 0) && ranked[1] == RankEntry(top, category, 1);
  }

  /** When every entry is in the category, the recompute's entries are the ranked list alone. */
  lemma RecomputeWholeCategory(s: Store, category: nat, n: nat)
    requires forall i :: 0 <= i < |s.entries| ==> s.entries[i].category == category
    ensures Recompute(s, category, n).entries == RankEntries(Top(s, category, n), category)
  {
    FilterNone(s.entries, (e: Entry) => OtherCategory(category, e));
    assert Recompute(s, category, n).entries == [] + RankEntries(Top(s, category, n), category);
  }

  // ---------------------------------------------------------------------
  // Listing

  /**
   * `get_category_leaderboard(category_id)`: the entries of one category,
   * or of all categories when no id (or the falsy id 0) is given, ordered
   * by category and then rank.
   */
  function CategoryLeaderboard(s: Store, categoryId: Option<nat>): (r: seq<Entry>)
    ensures categoryId.Some? && categoryId.value != 0 ==> multiset(r) == multiset(EntriesIn(s, categoryId.value))
    ensures categoryId.None? || categoryId.value == 0 ==> multiset(r) == multiset(s.entries)
    ensures forall i, j :: 0 <= i < j < |r| ==> EntryLe(s.categories, r[i], r[j])
  {
    if categoryId.Some? && categoryId.value != 0 then ByCategoryThenRank(s.categories, EntriesIn(s, categoryId.value))
    else ByCategoryThenRank(s.categories, s.entries)
  }

  /**
   * After the recompute, listing the category gives its ranked top scores
   * in rank order: position i holds the score of rank i + 1.
   */
  lemma ListedInRankOrder(s: Store, category: nat, n: nat)
    requires category != 0
    ensures CategoryLeaderboard(Recompute(s, category, n), Some(category)) == RankEntries(Top(s, category, n), category)
  {
    var r := Recompute(s, category, n);
    var listed := CategoryLeaderboard(r, Some(category));
    var ranked := RankEntries(Top(s, category, n), category);
    var le := (a: Entry, b: Entry) => EntryLe(r.categories, a, b);
    RecomputedCategory(s, category, n);
    assert multiset(listed) == multiset(ranked);
    RankedInEntryOrder(ranked, Top(s, category, n), category, r.categories);
    forall a | a in listed
      ensures a in ranked
    {
      assert a in multiset(ranked);
    }
    SortedUnique(listed, ranked, le);
  }

  /** A ranked list is sorted by (category, rank), and no two of its entries tie in that order. */
  lemma RankedInEntryOrder(ranked: seq<Entry>, top: seq<Score>, category: nat, cats: seq<Category>)
    requires ranked == RankEntries(top, category)
    ensures SortedBy((a: Entry, b: Entry) => EntryLe(cats, a, b), ranked)
    ensures forall a, b :: a in ranked && b in ranked && EntryLe(cats, a, b) && EntryLe(cats, b, a) ==> a == b
  {
    forall a, b | a in ranked && b in ranked && EntryLe(cats, a, b) && EntryLe(cats, b, a)
      ensures a == b
    {
      var i :| 0 <= i < |ranked| && ranked[i] == a;
      var j :| 0 <= j < |ranked| && ranked[j] == b;
    }
  }
}

=== FILE: models.dfy ===
/**
 * The persistent data of the game backend: categories, scores and
 * leaderboard entries, the constraints the database enforces on them, the
 * field validators, cascade deletion, the post-save hook and the three
 * default orderings.
 */
module Models {
  import opened Base
  import opened Sorting

  /** A game category. `code` is unique across the store. */
  datatype Category = Category(id: nat, code: string, name: string, description: string)

  /** A player profile; `owner` is the id of the user it belongs to. */
  datatype Profile = Profile(id: nat, owner: nat)

  /** The user behind a request. An anonymous user is never authenticated. */
  datatype User =
    | Anonymous
    | Member(id: nat, isStaff: bool, profile: Option<Profile>)
  {
    predicate IsAuthenticated() { Member? }
  }

  /** One completed game. `completedAt` is an opaque, increasing timestamp. */
  datatype Score = Score(
    id: nat,
    profile: Profile,
    category: nat,
    moves: int,
    time: int,
    stars: int,
    completedAt: nat)

  /** A leaderboard row: the score it ranks, that score's category, its rank. */
  datatype Entry = Entry(scoreId: nat, category: nat, rank: int)

  /** The database. `nextId` and `clock` hand out fresh ids and timestamps. */
  datatype Store = Store(
    categories: seq<Category>,
    scores: seq<Score>,
    entries: seq<Entry>,
    nextId: nat,
    clock: nat)

  /**
   * The validator bounds of the score fields and of a leaderboard rank. The
   * constants are imported by the models but their values are not part of
   * this model, so they are parameters.
   */
  datatype Bounds = Bounds(
    minMoves: int, maxMoves: int,
    minTime: int, maxTime: int,
    minStars: int, maxStars: int,
    maxRank: int)
  {
    predicate Valid()
    {
      minMoves <= maxMoves && minTime <= maxTime && minStars <= maxStars && 1 <= maxRank
    }
  }

  /** The submitted fields that validation can refuse: the three numbers and the category code. */
  datatype Field = Moves | TimeSeconds | Stars | CategoryCode

  /**
   * The fields whose value lies outside its validator bounds. Every field
   * is checked, so all offending fields are reported together.
   */
  function FieldErrors(b: Bounds, moves: int, time: int, stars: int): (errs: set<Field>)
    ensures Moves in errs <==> moves < b.minMoves || b.maxMoves < moves
    ensures TimeSeconds in errs <==> time < b.minTime || b.maxTime < time
    ensures Stars in errs <==> stars < b.minStars || b.maxStars < stars
    ensures CategoryCode !in errs
  {
    (if b.minMoves <= moves <= b.maxMoves then {} else {Moves})
    + (if b.minTime <= time <= b.maxTime then {} else {TimeSeconds})
    + (if b.minStars <= stars <= b.maxStars then {} else {Stars})
  }

  predicate FieldsValid(b: Bounds, x: Score)
  {
    FieldErrors(b, x.moves, x.time, x.stars) == {}
  }

  /** Whether one field is rejected does not depend on the other two fields. */
  lemma FieldErrorsIndependent(b: Bounds, moves: int, time: int, stars: int,
                               moves': int, time': int, stars': int)
    ensures (Moves in FieldErrors(b, moves, time, stars)) == (Moves in FieldErrors(b, moves, time', stars'))
    ensures (TimeSeconds in FieldErrors(b, moves, time, stars)) == (TimeSeconds in FieldErrors(b, moves', time, stars'))
    ensures (Stars in FieldErrors(b, moves, time, stars)) == (Stars in FieldErrors(b, moves', time', stars))
  {
  }

  // ---------------------------------------------------------------------
  // Keys of the uniqueness constraints

  function CodeOf(c: Category): string { c.code }
  function CategoryIdOf(c: Category): nat { c.id }
  function ScoreIdOf(x: Score): nat { x.id }
  function EntryScoreOf(e: Entry): nat { e.scoreId }
  function EntrySlotOf(e: Entry): (nat, int) { (e.category, e.rank) }

  /** The five fields of the `unique_game_result` constraint. */
  function ResultKey(x: Score): (Profile, nat, int, int, int)
  {
    (x.profile, x.category, x.moves, x.time, x.stars)
  }

  predicate HasScore(s: Store, id: nat, category: nat)
  {
    exists x :: x in s.scores && x.id == id && x.category == category
  }

  predicate HasCategory(s: Store, id: nat)
  {
    exists c :: c in s.categories && c.id == id
  }

  /**
   * What every stored state satisfies. From the schema: unique category
   * codes and ids, unique score ids, unique five-field results, at most one
   * entry per score (one-to-one), unique (category, rank), and references
   * that resolve. From the application: ranks within 1..maxRank (the rank
   * validator), every entry pointing at a score of its own category (the
   * recompute writes the score's category), and counters ahead of every
   * stored id and timestamp.
   */
  ghost predicate Inv(s: Store, b: Bounds)
  {
    && KeysDistinct(s.categories, CodeOf)
    && KeysDistinct(s.categories, CategoryIdOf)
    && KeysDistinct(s.scores, ScoreIdOf)
    && KeysDistinct(s.scores, ResultKey)
    && KeysDistinct(s.entries, EntryScoreOf)
    && KeysDistinct(s.entries, EntrySlotOf)
    && (forall e :: e in s.entries ==> 1 <= e.rank <= b.maxRank)
    && (forall e :: e in s.entries ==> HasScore(s, e.scoreId, e.category))
    && (forall x :: x in s.scores ==> HasCategory(s, x.category))
    && (forall x :: x in s.scores ==> x.id < s.nextId && x.completedAt < s.clock)
    && (forall c :: c in s.categories ==> c.id < s.nextId)
  }

  /** Replacing only the entries keeps the invariant when the new entries meet the entry constraints. */
  lemma ReplaceEntriesKeepsInv(s: Store, r: Store, b: Bounds)
    requires Inv(s, b)
    requires r.categories == s.categories && r.scores == s.scores
    requires r.nextId == s.nextId && r.clock == s.clock
    requires KeysDistinct(r.entries, EntryScoreOf) && KeysDistinct(r.entries, EntrySlotOf)
    requires forall e :: e in r.entries ==> 1 <= e.rank <= b.maxRank && HasScore(s, e.scoreId, e.category)
    ensures Inv(r, b)
  {
  }

  // ---------------------------------------------------------------------
  // Lookups

  /** The first category whose key is k, or None when no category has that key. */
  function CategoryWith<K(==)>(cats: seq<Category>, key: Category -> K, k: K): (r: Option<Category>)
    ensures r.Some? ==> r.value in cats && key(r.value) == k
    ensures r.None? <==> forall c :: c in cats ==> key(c) != k
  {
    if cats == [] then None
    else if key(cats[0]) == k then Some(cats[0])
    else CategoryWith(cats[1..], key, k)
  }

  /** `Category.objects.get(code=code)`: None when no category has that code. */
  function CategoryByCode(cats: seq<Category>, code: string): (r: Option<Category>)
    ensures r.Some? ==> r.value in cats && r.value.code == code
    ensures r.None? <==> forall c :: c in cats ==> c.code != code
  {
    CategoryWith(cats, CodeOf, code)
  }

  /** With unique codes the lookup finds the one category carrying the code. */
  lemma CategoryByCodeUnique(cats: seq<Category>, c: Category)
    requires KeysDistinct(cats, CodeOf)
    requires c in cats
    ensures CategoryByCode(cats, c.code) == Some(c)
  {
    var r := CategoryByCode(cats, c.code);
    var i :| 0 <= i < |cats| && cats[i] == c;
    var j :| 0 <= j < |cats| && cats[j] == r.value;
    assert CodeOf(cats[i]) == CodeOf(cats[j]);
  }

  /** `Category.objects.get(id=id)`: None when no category has that id. */
  function CategoryById(cats: seq<Category>, id: nat): (r: Option<Category>)
    ensures r.Some? ==> r.value in cats && r.value.id == id
    ensures r.None? <==> forall c :: c in cats ==> c.id != id
  {
    CategoryWith(cats, CategoryIdOf, id)
  }

  /** The scores of one category, in store order. */
  function ScoresIn(s: Store, category: nat): (r: seq<Score>)
    ensures forall x :: x in r <==> x in s.scores && x.category == category
  {
    Filter(s.scores, (x: Score) => x.category == category)
  }

  /** The entries of one category, in store order. */
  function EntriesIn(s: Store, category: nat): (r: seq<Entry>)
    ensures forall e :: e in r <==> e in s.entries && e.category == category
  {
    Filter(s.entries, (e: Entry) => e.category == category)
  }

  // ---------------------------------------------------------------------
  // Cascade deletion

  predicate Survives(doomed: set<nat>, x: Score) { x.id !in doomed }
  predicate EntrySurvives(doomed: set<nat>, e: Entry) { e.scoreId !in doomed }

  /**
   * Deletes the scores whose ids are in `doomed`; the one-to-one
   * leaderboard entry of each deleted score goes with it (on_delete CASCADE).
   */
  function DeleteScores(s: Store, doomed: set<nat>): (r: Store)
    ensures r.categories == s.categories && r.nextId == s.nextId && r.clock == s.clock
    ensures forall x :: x in r.scores <==> x in s.scores && x.id !in doomed
    ensures forall e :: e in r.entries <==> e in s.entries && e.scoreId !in doomed
  {
    s.(scores := Filter(s.scores, (x: Score) => Survives(doomed, x)),
       entries := Filter(s.entries, (e: Entry) => EntrySurvives(doomed, e)))
  }

  /** Cascade deletion keeps every schema constraint; in particular no entry is left dangling. */
  lemma DeleteScoresKeepsInv(s: Store, b: Bounds, doomed: set<nat>)
    requires Inv(s, b)
    ensures Inv(DeleteScores(s, doomed), b)
  {
    var r := DeleteScores(s, doomed);
    FilterKeysDistinct(s.scores, (x: Score) => Survives(doomed, x), ScoreIdOf);
    FilterKeysDistinct(s.scores, (x: Score) => Survives(doomed, x), ResultKey);
    FilterKeysDistinct(s.entries, (e: Entry) => EntrySurvives(doomed, e), EntryScoreOf);
    FilterKeysDistinct(s.entries, (e: Entry) => EntrySurvives(doomed, e), EntrySlotOf);
    forall e | e in r.entries
      ensures HasScore(r, e.scoreId, e.category)
    {
      var x :| x in s.scores && x.id == e.scoreId && x.category == e.category;
      assert x in r.scores;
    }
  }

  // ---------------------------------------------------------------------
  // The post-save hook

  /**
   * The `post_save` receiver recomputes the score's category when the row
   * was just created or the save named some update_fields; a plain re-save
   * of an existing row triggers nothing.
   */
  predicate SaveTriggersRecompute(created: bool, updateFields: Option<set<string>>)
  {
    created || (updateFields.Some? && updateFields.value != {})
  }

  // ---------------------------------------------------------------------
  // Default orderings

  /** Categories are listed by name. */
  predicate NameLe(a: Category, b: Category) { StrLe(a.name, b.name) }

  /** Scores are listed newest first. */
  predicate NewerLe(a: Score, b: Score) { a.completedAt >= b.completedAt }

  /** Name of a category id, or "" when the id is unknown. */
  function NameOf(cats: seq<Category>, id: nat): string
  {
    match CategoryById(cats, id)
    case Some(c) => c.name
    case None => ""
  }

  /**
   * Entries are listed by category, then rank. Ordering by the category
   * foreign key follows the category's own default ordering, its name.
   */
  predicate EntryLe(cats: seq<Category>, a: Entry, b: Entry)
  {
    var na := NameOf(cats, a.category);
    var nb := NameOf(cats, b.category);
    if na == nb then a.rank <= b.rank else StrLe(na, nb)
  }

  lemma NameLeTotal()
    ensures TotalPreorder(NameLe)
  {
    forall a: Category, b: Category
      ensures NameLe(a, b) || NameLe(b, a)
    {
      StrLeTotal(a.name, b.name);
    }
    forall a: Category, b: Category, c: Category | NameLe(a, b) && NameLe(b, c)
      ensures NameLe(a, c)
    {
      StrLeTrans(a.name, b.name, c.name);
    }
  }

  lemma NewerLeTotal()
    ensures TotalPreorder(NewerLe)
  {
  }

  lemma EntryLeTotal(cats: seq<Category>)
    ensures TotalPreorder((a: Entry, b: Entry) => EntryLe(cats, a, b))
  {
    var le := (a: Entry, b: Entry) => EntryLe(cats, a, b);
    forall a: Entry, b: Entry
      ensures le(a, b) || le(b, a)
    {
      StrLeTotal(NameOf(cats, a.category), NameOf(cats, b.category));
    }
    forall a: Entry, b: Entry, c: Entry | le(a, b) && le(b, c)
      ensures le(a, c)
    {
      var na, nb, nc := NameOf(cats, a.category), NameOf(cats, b.category), NameOf(cats, c.category);
      StrLeTotal(na, nb);
      StrLeTotal(nb, nc);
      StrLeTotal(na, nc);
      if na != nb && nb != nc {
        StrLeTrans(na, nb, nc);
      }
    }
  }

  /** `Category.objects.all()`: every category, sorted by name. */
  function CategoriesByName(s: Store): (r: seq<Category>)
    ensures multiset(r) == multiset(s.categories)
    ensures SortedBy(NameLe, r)
  {
    NameLeTotal();
    SortBySorted(s.categories, NameLe);
    SortBy(s.categories, NameLe)
  }

  /** A score list in the default order, newest first. */
  function NewestFirst(xs: seq<Score>): (r: seq<Score>)
    ensures multiset(r) == multiset(xs)
    ensures forall i, j :: 0 <= i < j < |r| ==> r[i].completedAt >= r[j].completedAt
  {
    NewerLeTotal();
    SortBySorted(xs, NewerLe);
    SortBy(xs, NewerLe)
  }

  /** An entry list in the default order, by category name and then rank. */
  function ByCategoryThenRank(cats: seq<Category>, es: seq<Entry>): (r: seq<Entry>)
    ensures multiset(r) == multiset(es)
    ensures forall i, j :: 0 <= i < j < |r| ==> EntryLe(cats, r[i], r[j])
  {
    var le := (a: Entry, b: Entry) => EntryLe(cats, a, b);
    EntryLeTotal(cats);
    SortBySorted(es, le);
    SortBy(es, le)
  }
}

=== FILE: naturaltime.dfy ===
/**
 * `shortnaturaltime`: how long ago a score was completed, as the short
 * label ("just now", "5m", "3h", "2d"). Instants
 * and differences are whole microseconds, the resolution of Python's
 * datetimes; the current time is a parameter.
 */
module NaturalTime {
  import opened Base

  const MicrosPerMinute: nat := 60_000_000
  const MicrosPerHour: nat := 3_600_000_000
  const MicrosPerDay: nat := 86_400_000_000

  /** The four shapes of label. */
  datatype Ago = JustNow | MinutesAgo(n: nat) | HoursAgo(n: nat) | DaysAgo(n: nat)

  /**
   * The bucket of a time difference: under a minute (a value in the
   * future included) is "just now"; otherwise whole minutes under an
   * hour, whole hours under a day, and whole days beyond.
   */
  function Classify(delta: int): (a: Ago)
    ensures a.JustNow? <==> delta < MicrosPerMinute
    ensures a.MinutesAgo? <==> MicrosPerMinute <= delta < MicrosPerHour
    ensures a.HoursAgo? <==> MicrosPerHour <= delta < MicrosPerDay
    ensures a.DaysAgo? <==> MicrosPerDay <= delta
    ensures a.MinutesAgo? ==> 1 <= a.n < 60 && a.n * MicrosPerMinute <= delta < (a.n + 1) * MicrosPerMinute
    ensures a.HoursAgo? ==> 1 <= a.n < 24 && a.n * MicrosPerHour <= delta < (a.n + 1) * MicrosPerHour
    ensures a.DaysAgo? ==> 1 <= a.n && a.n * MicrosPerDay <= delta < (a.n + 1) * MicrosPerDay
  {
    if delta < MicrosPerMinute then JustNow
    else if delta < MicrosPerHour then MinutesAgo(delta / MicrosPerMinute)
    else if delta < MicrosPerDay then HoursAgo(delta / MicrosPerHour)
    else DaysAgo(delta / MicrosPerDay)
  }

  /** Each label counts the time it stands for: more time never gives a smaller count in the same unit. */
  lemma ClassifyMonotone(d1: int, d2: int)
    requires d1 <= d2
    ensures Classify(d1).MinutesAgo? && Classify(d2).MinutesAgo? ==> Classify(d1).n <= Classify(d2).n
    ensures Classify(d1).HoursAgo? && Classify(d2).HoursAgo? ==> Classify(d1).n <= Classify(d2).n
    ensures Classify(d1).DaysAgo? && Classify(d2).DaysAgo? ==> Classify(d1).n <= Classify(d2).n
    ensures Classify(d2).JustNow? ==> Classify(d1).JustNow?
  {
  }

  /** `f'{n}m'`, `f'{n}h'`, `f'{n}d'`, or the fixed phrase. */
  function Render(a: Ago): (r: string)
    ensures |r| >= 2
  {
    match a
    case JustNow => "just now"
    case MinutesAgo(n) => Digits(n) + "m"
    case HoursAgo(n) => Digits(n) + "h"
    case DaysAgo(n) => Digits(n) + "d"
  }

  /** Reads a label back: the inverse of `Render`. */
  function ParseAgo(s: string): (r: Option<Ago>)
  {
    if s == "just now" then Some(JustNow)
    else if |s| < 2 || !AllDigits(s[..|s| - 1]) then None
    else
      var n := ParseDigits(s[..|s| - 1]);
      match s[|s| - 1]
      case 'm' => Some(MinutesAgo(n))
      case 'h' => Some(HoursAgo(n))
      case 'd' => Some(DaysAgo(n))
      case _ => None
  }

  /** Every label reads back as the bucket it was made from, so no two buckets share a label. */
  lemma RenderParses(a: Ago)
    ensures ParseAgo(Render(a)) == Some(a)
  {
    var r := Render(a);
    if !a.JustNow? {
      assert r[..|r| - 1] == Digits(a.n);
      assert r != "just now" by {
        assert r[|r| - 1] != "just now"[7];
      }
      DigitsRoundTrip(a.n);
    }
  }

  /** `shortnaturaltime(value)` at the instant `now`. */
  function ShortNaturalTime(now: int, value: int): (r: string)
    ensures r == "just now" <==> now - value < MicrosPerMinute
    ensures ParseAgo(r) == Some(Classify(now - value))
  {
    var a := Classify(now - value);
    RenderParses(a);
    Render(a)
  }
}

=== FILE: queries.dfy ===
/**
 * The read-only score queries: the public leaderboard, a player's best
 * score per category, the most recent scores, and a player's own scores
 * filtered by category code.
 */
module Queries {
  import opened Base
  import opened Sorting
  import opened Models
  import opened Leaderboard
  import opened Access

  /** The number of scores the public leaderboard shows. */
  const LeaderboardLimit: nat := 10

  /** The number of scores the recent-scores action shows. */
  const RecentLimit: nat := 10

  // ---------------------------------------------------------------------
  // The public leaderboard

  /** Why a query fails: a value that is not a number given where a row id is expected (a server error). */
  datatype QueryError = NotANumber(value: string)

  /**
   * The scores a leaderboard query ranks. An absent or empty `category`
   * parameter filters nothing; any other value, "0" included, is compared
   * with the score's category id, which first converts it with `int()`.
   * A value that does not convert raises, and a negative one matches no
   * score.
   */
  function LeaderboardPool(s: Store, category: Option<string>): (r: Result<seq<Score>, QueryError>)
    ensures (category.None? || category.value == "") ==> r == Ok(s.scores)
    ensures r.Err? <==> category.Some? && category.value != "" && !IsIntLiteral(category.value)
    ensures r.Err? ==> r.error == NotANumber(category.value)
    ensures r.Ok? && category.Some? && category.value != "" ==>
              forall x :: x in r.value <==> x in s.scores && x.category == ParseInt(category.value).value
  {
    if category.None? || category.value == "" then Ok(s.scores)
    else match ParseInt(category.value)
      case None => Err(NotANumber(category.value))
      case Some(id) => if id < 0 then Ok([]) else Ok(ScoresIn(s, id))
  }

  /**
   * `get_leaderboard_scores(category_id, limit)`: the best `limit` scores of
   * the pool in the ranking order; none left out ranks before one shown.
   */
  function LeaderboardScores(s: Store, category: Option<string>, limit: nat): (r: Result<seq<Score>, QueryError>)
    ensures r.Err? <==> LeaderboardPool(s, category).Err?
    ensures r.Ok? ==> |r.value| == Min(limit, |LeaderboardPool(s, category).value|)
    ensures r.Ok? ==> forall x :: x in r.value ==> x in LeaderboardPool(s, category).value
    ensures r.Ok? ==> SortedBy(RankLe, r.value)
    ensures r.Ok? ==> forall i, y :: 0 <= i < |r.value| && y in multiset(LeaderboardPool(s, category).value) - multiset(r.value)
                        ==> RankLe(r.value[i], y)
  {
    match LeaderboardPool(s, category)
    case Err(e) => Err(e)
    case Ok(pool) =>
      RankLeTotal();
      TopKSelects(pool, RankLe, limit);
      Ok(TopK(pool, RankLe, limit))
  }

  /** The `leaderboard` action and `get_leaderboard_data`: the query with its default limit of ten. */
  function LeaderboardData(s: Store, category: Option<string>): (r: Result<seq<Score>, QueryError>)
    ensures r.Err? <==> category.Some? && category.value != "" && !IsIntLiteral(category.value)
    ensures r.Ok? ==> |r.value| <= LeaderboardLimit
    ensures r.Ok? ==> |r.value| == LeaderboardLimit || |r.value| == |LeaderboardPool(s, category).value|
    ensures r.Ok? ==> SortedBy(RankLe, r.value)
  {
    LeaderboardScores(s, category, LeaderboardLimit)
  }

  /**
   * The scores the recompute ranks are exactly the first five the public
   * leaderboard of that category shows, the category given by its id
   * written in decimal: both use the same order.
   */
  lemma RankedAreLeaderboardHead(s: Store, category: nat)
    ensures LeaderboardPool(s, Some(ShowInt(category))) == Ok(ScoresIn(s, category))
    ensures LeaderboardData(s, Some(ShowInt(category))).Ok?
    ensures Top(s, category, DefaultTopCount)
              == LeaderboardData(s, Some(ShowInt(category))).value[..Min(DefaultTopCount, |ScoresIn(s, category)|)]
  {
    ShowIntParses(category);
    TopKPrefix(ScoresIn(s, category), RankLe, DefaultTopCount, LeaderboardLimit);
  }

  /**
   * A category code in the `category` parameter: the public leaderboard
   * fails converting it, while the own-scores listing reads the same
   * parameter as a code.
   */
  lemma CodeIsNotAnId(s: Store, code: string)
    requires code != [] && forall i :: 0 <= i < |code| ==> 'A' <= code[i] <= 'Z'
    ensures LeaderboardData(s, Some(code)) == Err(NotANumber(code))
  {
    assert !IsDigit(code[0]) && code[0] != '+' && code[0] != '-';
  }

  // ---------------------------------------------------------------------
  // Best score per category

  /** The order of the best-score pick: more stars, then fewer moves, then less time. */
  predicate NoWorseThan(a: Score, b: Score)
  {
    a.stars > b.stars || (a.stars == b.stars && (a.moves < b.moves || (a.moves == b.moves && a.time <= b.time)))
  }

  /** The `Max('stars')` aggregate of a non-empty list. */
  function MaxStars(xs: seq<Score>): (m: int)
    requires xs != []
    ensures forall x :: x in xs ==> x.stars <= m
    ensures exists x :: x in xs && x.stars == m
  {
    if |xs| == 1 then xs[0].stars
    else
      var rest := MaxStars(xs[1..]);
      assert forall x :: x in xs ==> x == xs[0] || x in xs[1..];
      if xs[0].stars >= rest then xs[0].stars else rest
  }

  /** `order_by('moves', 'time_seconds')`; rows equal on both stay in score-id order. */
  predicate MovesTimeLe(a: Score, b: Score)
  {
    if a.moves != b.moves then a.moves < b.moves
    else if a.time != b.time then a.time < b.time
    else a.id <= b.id
  }

  lemma MovesTimeLeTotal()
    ensures TotalPreorder(MovesTimeLe)
  {
  }

  predicate HasStars(m: int, x: Score) { x.stars == m }

  /** The scores holding the maximum number of stars. */
  function TopStarred(xs: seq<Score>): (r: seq<Score>)
    requires xs != []
    ensures r != []
    ensures forall x :: x in r <==> x in xs && x.stars == MaxStars(xs)
  {
    var m := MaxStars(xs);
    var r := Filter(xs, (x: Score) => HasStars(m, x));
    var w :| w in xs && w.stars == m;
    assert w in r;
    r
  }

  /**
   * The best score of a list, as `get_user_best_scores` picks it: the maximum stars,
   * then the first of those by moves and time. None for an empty list.
   */
  function BestOf(xs: seq<Score>): (r: Option<Score>)
    ensures r.None? <==> xs == []
    ensures r.Some? ==> r.value in xs && forall y :: y in xs ==> NoWorseThan(r.value, y)
  {
    if xs == [] then None
    else
      var cands := TopStarred(xs);
      var sorted := SortBy(cands, MovesTimeLe);
      FirstIsBest(xs, sorted);
      Some(sorted[0])
  }

  lemma FirstIsBest(xs: seq<Score>, sorted: seq<Score>)
    requires xs != []
    requires sorted == SortBy(TopStarred(xs), MovesTimeLe)
    ensures sorted != [] && sorted[0] in xs
    ensures forall y :: y in xs ==> NoWorseThan(sorted[0], y)
  {
    var cands := TopStarred(xs);
    MovesTimeLeTotal();
    SortBySorted(cands, MovesTimeLe);
    assert sorted[0] in multiset(cands);
    forall y | y in xs
      ensures NoWorseThan(sorted[0], y)
    {
      if y.stars == MaxStars(xs) {
        assert y in multiset(sorted);
        var k :| 0 <= k < |sorted| && sorted[k] == y;
        if k > 0 {
          assert MovesTimeLe(sorted[0], sorted[k]);
        }
      }
    }
  }

  /**
   * The pick does not depend on how ties are broken: among one profile's
   * scores of one category, whose five-field results are unique, only one
   * score is no worse than all the others.
   */
  lemma BestUnique(xs: seq<Score>, a: Score, b: Score)
    requires KeysDistinct(xs, ResultKey)
    requires forall x, y :: x in xs && y in xs ==> x.profile == y.profile && x.category == y.category
    requires a in xs && b in xs
    requires forall y :: y in xs ==> NoWorseThan(a, y)
    requires forall y :: y in xs ==> NoWorseThan(b, y)
    ensures a == b
  {
    assert NoWorseThan(a, b) && NoWorseThan(b, a);
    var i :| 0 <= i < |xs| && xs[i] == a;
    var j :| 0 <= j < |xs| && xs[j] == b;
    assert ResultKey(xs[i]) == ResultKey(xs[j]);
  }

  /**
   * The best-score pick and the leaderboard order disagree: with equal
   * stars the pick prefers fewer moves, the leaderboard less time.
   */
  lemma BestDiffersFromRanking()
    ensures var a := Score(1, Profile(1, 1), 1, 10, 50, 3, 0);
            var b := Score(2, Profile(1, 1), 1, 12, 40, 3, 1);
            BestOf([a, b]) == Some(a) && Outranks(b, a)
  {
    var a := Score(1, Profile(1, 1), 1, 10, 50, 3, 0);
    var b := Score(2, Profile(1, 1), 1, 12, 40, 3, 1);
    BestOfTwo(a, b);
  }

  /** Of two scores the one the other is not as good as is the pick. */
  lemma BestOfTwo(a: Score, b: Score)
    requires !NoWorseThan(b, a)
    ensures BestOf([a, b]) == Some(a)
  {
    assert a in [a, b];
  }

  // ---------------------------------------------------------------------
  // The per-category loop

  /** The category ids of a list of scores, position by position. */
  function CategoryIds(xs: seq<Score>): (r: seq<nat>)
    ensures |r| == |xs|
    ensures forall i :: 0 <= i < |xs| ==> r[i] == xs[i].category
  {
    seq(|xs|, i requires 0 <= i < |xs| => xs[i].category)
  }

  /** The categories a list of scores has been played in. */
  ghost function Played(xs: seq<Score>): set<nat>
  {
    set x | x in xs :: x.category
  }

  predicate InCategory(c: nat, x: Score) { x.category == c }

  /** A category the scores were played in has a non-empty pool. */
  lemma PlayedPoolNonEmpty(own: seq<Score>, c: nat)
    ensures c in Played(own) ==> Filter(own, (x: Score) => InCategory(c, x)) != []
  {
    if c in Played(own) {
      var w :| w in own && w.category == c;
      assert w in Filter(own, (x: Score) => InCategory(c, x));
    }
  }

  /**
   * The loop over category ids: for each id the best of the profile's
   * scores there, skipping an id with no score (`if best_score`).
   */
  function BestPerCategory(own: seq<Score>, cats: seq<nat>): (r: seq<Score>)
    ensures |r| <= |cats|
    ensures forall x :: x in r ==> x in own && x.category in cats
    ensures forall x, y :: x in r && y in own && y.category == x.category ==> NoWorseThan(x, y)
    ensures forall c :: c in cats && c in Played(own) ==> c in Played(r)
  {
    if cats == [] then []
    else
      var rest := BestPerCategory(own, cats[1..]);
      var pool := Filter(own, (x: Score) => InCategory(cats[0], x));
      assert forall c :: c in cats ==> c == cats[0] || c in cats[1..];
      PlayedPoolNonEmpty(own, cats[0]);
      match BestOf(pool)
      case None => rest
      case Some(b) => PickedFirst(own, cats, b, rest); [b] + rest
  }

  /** Putting the head category's pick in front of the rest keeps what the loop promises. */
  lemma PickedFirst(own: seq<Score>, cats: seq<nat>, b: Score, rest: seq<Score>)
    requires cats != []
    requires b in own && b.category == cats[0]
    requires forall y :: y in own && y.category == b.category ==> NoWorseThan(b, y)
    requires forall x :: x in rest ==> x in own && x.category in cats[1..]
    requires forall x, y :: x in rest && y in own && y.category == x.category ==> NoWorseThan(x, y)
    requires forall c :: c in cats[1..] && c in Played(own) ==> c in Played(rest)
    ensures forall x :: x in [b] + rest ==> x in own && x.category in cats
    ensures forall x, y :: x in [b] + rest && y in own && y.category == x.category ==> NoWorseThan(x, y)
    ensures forall c :: c in cats && c in Played(own) ==> c in Played([b] + rest)
  {
    assert forall c :: c in cats ==> c == cats[0] || c in cats[1..];
    assert b in [b] + rest;
    assert forall x :: x in rest ==> x in [b] + rest;
  }

  /** Distinct ids in, distinct categories out. */
  lemma {:induction false} BestPerCategoryDistinct(own: seq<Score>, cats: seq<nat>)
    requires forall i, j :: 0 <= i < j < |cats| ==> cats[i] != cats[j]
    ensures DistinctCategories(BestPerCategory(own, cats))
  {
    if cats != [] {
      var tail := cats[1..];
      assert forall i, j :: 0 <= i < j < |tail| ==> tail[i] != tail[j] by {
        forall i, j | 0 <= i < j < |tail| ensures tail[i] != tail[j] {
          assert tail[i] == cats[i + 1] && tail[j] == cats[j + 1];
        }
      }
      BestPerCategoryDistinct(own, tail);
      assert cats[0] !in tail by {
        forall k | 0 <= k < |tail| ensures tail[k] != cats[0] {
          assert tail[k] == cats[k + 1];
        }
      }
      BestPerCategoryStep(own, cats);
    }
  }

  predicate DistinctCategories(xs: seq<Score>)
  {
    forall i, j :: 0 <= i < j < |xs| ==> xs[i].category != xs[j].category
  }

  /** One step of the loop: the head category's pick, if any, in front of the rest. */
  lemma BestPerCategoryStep(own: seq<Score>, cats: seq<nat>)
    requires cats != [] && cats[0] !in cats[1..]
    requires DistinctCategories(BestPerCategory(own, cats[1..]))
    ensures DistinctCategories(BestPerCategory(own, cats))
  {
    var rest := BestPerCategory(own, cats[1..]);
    var pool := Filter(own, (x: Score) => InCategory(cats[0], x));
    if BestOf(pool).Some? {
      var b := BestOf(pool).value;
      assert b.category == cats[0];
      assert BestPerCategory(own, cats) == [b] + rest;
      ConsDistinct(b, rest);
    }
  }

  lemma ConsDistinct(b: Score, rest: seq<Score>)
    requires DistinctCategories(rest)
    requires forall x :: x in rest ==> x.category != b.category
    ensures DistinctCategories([b] + rest)
  {
    var r := [b] + rest;
    forall i, j | 0 <= i < j < |r|
      ensures r[i].category != r[j].category
    {
      assert r[j] == rest[j - 1];
      if i > 0 {
        assert r[i] == rest[i - 1];
      }
    }
  }

  /** Every category played occurs among the category ids of the newest-first list. */
  lemma PlayedIds(own: seq<Score>)
    ensures forall c :: c in CategoryIds(NewestFirst(own)) <==> c in Played(own)
  {
    var ys := NewestFirst(own);
    var ids := CategoryIds(ys);
    forall c
      ensures c in ids <==> c in Played(own)
    {
      if c in ids {
        var k :| 0 <= k < |ids| && ids[k] == c;
        assert ys[k] in multiset(own);
      }
      if c in Played(own) {
        var w :| w in own && w.category == c;
        assert w in multiset(ys);
        var k :| 0 <= k < |ys| && ys[k] == w;
        assert ids[k] == c;
      }
    }
  }

  /**
   * `get_user_best_scores(profile)`, with the category ids deduplicated:
   * exactly one score per category the profile has played, each the
   * profile's best there.
   */
  function UserBestScores(s: Store, p: Profile): (r: seq<Score>)
    ensures forall x :: x in r ==> x in s.scores && x.profile == p
    ensures forall x, y :: x in r && y in s.scores && y.profile == p && y.category == x.category
              ==> NoWorseThan(x, y)
    ensures Played(r) == Played(OwnScores(s, p))
    ensures DistinctCategories(r)
  {
    var own := OwnScores(s, p);
    var cats := Dedup(CategoryIds(NewestFirst(own)));
    PlayedIds(own);
    BestPerCategoryDistinct(own, cats);
    BestPerCategory(own, cats)
  }

  /**
   * The category ids as `get_user_best_scores`' query yields them: the default
   * newest-first ordering adds `completed_at` to the selected columns, so
   * DISTINCT runs over (category, completed_at) pairs.
   */
  function CategoryTimePairs(xs: seq<Score>): (r: seq<(nat, nat)>)
    ensures |r| == |xs|
    ensures forall i :: 0 <= i < |xs| ==> r[i] == (xs[i].category, xs[i].completedAt)
  {
    seq(|xs|, i requires 0 <= i < |xs| => (xs[i].category, xs[i].completedAt))
  }

  function Firsts(ps: seq<(nat, nat)>): (r: seq<nat>)
    ensures |r| == |ps|
    ensures forall i :: 0 <= i < |ps| ==> r[i] == ps[i].0
  {
    seq(|ps|, i requires 0 <= i < |ps| => ps[i].0)
  }

  /** `get_user_best_scores` as written: a category played at two moments is visited twice. */
  function UserBestScoresAsWritten(s: Store, p: Profile): (r: seq<Score>)
    ensures forall x :: x in r ==> x in s.scores && x.profile == p
    ensures forall x, y :: x in r && y in s.scores && y.profile == p && y.category == x.category
              ==> NoWorseThan(x, y)
    ensures Played(r) == Played(OwnScores(s, p))
    ensures |r| <= |OwnScores(s, p)|
  {
    var own := OwnScores(s, p);
    var cats := Firsts(Dedup(CategoryTimePairs(NewestFirst(own))));
    PlayedPairs(own);
    BestPerCategory(own, cats)
  }

  /** Every category played occurs among the first components of the deduplicated pairs. */
  lemma PlayedPairs(own: seq<Score>)
    ensures forall c :: c in Played(own) ==> c in Firsts(Dedup(CategoryTimePairs(NewestFirst(own))))
  {
    var ys := NewestFirst(own);
    var pairs := CategoryTimePairs(ys);
    var kept := Dedup(pairs);
    forall c | c in Played(own)
      ensures c in Firsts(kept)
    {
      var w :| w in own && w.category == c;
      assert w in multiset(ys);
      var k :| 0 <= k < |ys| && ys[k] == w;
      assert pairs[k] in kept;
      var j :| 0 <= j < |kept| && kept[j] == pairs[k];
      assert Firsts(kept)[j] == c;
    }
  }

  function TwoGamesStore(): Store
  {
    Store([Category(1, "ANIMALS", "Animals", "")],
          [Score(1, Profile(1, 1), 1, 20, 60, 3, 0), Score(2, Profile(1, 1), 1, 18, 50, 3, 1)],
          [], 3, 2)
  }

  /** The player's games in that store, newest first. */
  lemma TwoGamesNewestFirst()
    ensures OwnScores(TwoGamesStore(), Profile(1, 1)) == TwoGamesStore().scores
    ensures NewestFirst(OwnScores(TwoGamesStore(), Profile(1, 1)))
              == [TwoGamesStore().scores[1], TwoGamesStore().scores[0]]
  {
    var s := TwoGamesStore();
    var own := OwnScores(s, Profile(1, 1));
    assert own == s.scores;
    var ys := NewestFirst(own);
    assert ys[0].completedAt >= ys[1].completedAt;
    assert ys[0] in multiset(own) && ys[1] in multiset(own);
    assert multiset(ys) == multiset{s.scores[0], s.scores[1]};
  }

  /** The player's best game in that store is the later one, with fewer moves. */
  lemma TwoGamesBest()
    ensures BestOf(Filter(TwoGamesStore().scores, (x: Score) => InCategory(1, x))) == Some(TwoGamesStore().scores[1])
  {
    var s := TwoGamesStore();
    var pool := Filter(s.scores, (x: Score) => InCategory(1, x));
    assert pool == s.scores;
    var b := BestOf(pool).value;
    assert b == s.scores[0] || b == s.scores[1];
    assert !NoWorseThan(s.scores[0], s.scores[1]);
  }

  /** As written, the category is visited once per moment it was played. */
  lemma TwoGamesAsWritten()
    ensures UserBestScoresAsWritten(TwoGamesStore(), Profile(1, 1)) == [TwoGamesStore().scores[1], TwoGamesStore().scores[1]]
  {
    TwoGamesPairs();
    TwoGamesBestTwice();
  }

  lemma TwoGamesPairs()
    ensures Firsts(Dedup(CategoryTimePairs(NewestFirst(OwnScores(TwoGamesStore(), Profile(1, 1)))))) == [1, 1]
  {
    TwoGamesNewestFirst();
    var pairs := CategoryTimePairs(NewestFirst(OwnScores(TwoGamesStore(), Profile(1, 1))));
    assert pairs == [(1, 1), (1, 0)];
    DedupPair((1, 1), (1, 0));
    FirstsOfTwo((1, 1), (1, 0));
  }

  lemma FirstsOfTwo(p: (nat, nat), q: (nat, nat))
    ensures Firsts([p, q]) == [p.0, q.0]
  {
  }

  lemma TwoGamesBestTwice()
    ensures BestPerCategory(OwnScores(TwoGamesStore(), Profile(1, 1)), [1, 1])
              == [TwoGamesStore().scores[1], TwoGamesStore().scores[1]]
  {
    var s := TwoGamesStore();
    TwoGamesNewestFirst();
    TwoGamesBest();
    BestPerCategoryRepeat(OwnScores(s, Profile(1, 1)), 1);
  }

  /** Visiting a category twice picks its best twice. */
  lemma BestPerCategoryRepeat(own: seq<Score>, c: nat)
    ensures BestPerCategory(own, [c, c]) == BestPerCategory(own, [c]) + BestPerCategory(own, [c])
    ensures BestPerCategory(own, [c]) == PickIn(own, c)
  {
    var cc := [c, c];
    assert cc[0] == c && cc[1..] == [c];
    BestPerCategoryCons(own, cc);
    BestPerCategoryOne(own, c);
  }

  lemma BestPerCategoryOne(own: seq<Score>, c: nat)
    ensures BestPerCategory(own, [c]) == PickIn(own, c)
  {
    var one := [c];
    assert one[0] == c && one[1..] == [];
    BestPerCategoryCons(own, one);
  }

  /** The pick for one category: its best score, or nothing when it was not played. */
  function PickIn(own: seq<Score>, c: nat): seq<Score>
  {
    match BestOf(Filter(own, (x: Score) => InCategory(c, x)))
    case None => []
    case Some(b) => [b]
  }

  /** One step of the loop, unfolded. */
  lemma BestPerCategoryCons(own: seq<Score>, cats: seq<nat>)
    requires cats != []
    ensures BestPerCategory(own, cats) == PickIn(own, cats[0]) + BestPerCategory(own, cats[1..])
  {
  }

  /** Deduplicated, the category is visited once. */
  lemma TwoGamesCorrected()
    ensures UserBestScores(TwoGamesStore(), Profile(1, 1)) == [TwoGamesStore().scores[1]]
  {
    var s := TwoGamesStore();
    TwoGamesNewestFirst();
    TwoGamesBest();
    var own := OwnScores(s, Profile(1, 1));
    var ys := NewestFirst(own);
    assert CategoryIds(ys) == [1, 1];
    DedupPair(1, 1);
    BestPerCategoryOne(own, 1);
  }

  /**
   * One player, two games of one category at different moments: the
   * as-written list repeats the best score, the deduplicated one holds it once.
   */
  lemma BestListsCategoryTwice()
    ensures |UserBestScoresAsWritten(TwoGamesStore(), Profile(1, 1))| == 2
    ensures UserBestScoresAsWritten(TwoGamesStore(), Profile(1, 1))[0]
              == UserBestScoresAsWritten(TwoGamesStore(), Profile(1, 1))[1]
    ensures |UserBestScores(TwoGamesStore(), Profile(1, 1))| == 1
  {
    TwoGamesAsWritten();
    TwoGamesCorrected();
  }

  /**
   * `get_best_scores_data` as written, behind the `best` action: nothing for
   * an anonymous or profile-less user, otherwise `get_user_best_scores` as
   * the program runs it, so a category may be listed more than once.
   */
  function BestScoresDataAsWritten(s: Store, user: User): (r: seq<Score>)
    ensures user.Anonymous? || user.profile.None? ==> r == []
    ensures forall x :: x in r ==> x in ProfileScope(s, user)
    ensures user.Member? && user.profile.Some? ==> Played(r) == Played(ProfileScope(s, user))
  {
    match user
    case Anonymous => []
    case Member(_, _, None) => []
    case Member(_, _, Some(p)) => UserBestScoresAsWritten(s, p)
  }

  /**
   * `get_best_scores_data` over the corrected query of Finding 3: the same
   * scores as the program lists, each category once.
   */
  function BestScoresData(s: Store, user: User): (r: seq<Score>)
    ensures user.Anonymous? || user.profile.None? ==> r == []
    ensures forall x :: x in r ==> x in ProfileScope(s, user)
    ensures user.Member? && user.profile.Some? ==> Played(r) == Played(ProfileScope(s, user))
    ensures DistinctCategories(r)
  {
    match user
    case Anonymous => []
    case Member(_, _, None) => []
    case Member(_, _, Some(p)) => UserBestScores(s, p)
  }

  /** Two scores of a consistent store with the same result key are the same score. */
  lemma SameKeySameScore(s: Store, b: Bounds, x: Score, y: Score)
    requires Inv(s, b)
    requires x in s.scores && y in s.scores && ResultKey(x) == ResultKey(y)
    ensures x == y
  {
    var i :| 0 <= i < |s.scores| && s.scores[i] == x;
    var j :| 0 <= j < |s.scores| && s.scores[j] == y;
    assert ResultKey(s.scores[i]) == ResultKey(s.scores[j]);
  }

  /**
   * The program's listing and the corrected one hold the same scores; they
   * differ only in how often a score is repeated.
   */
  lemma BestScoresDataSameScores(s: Store, b: Bounds, user: User)
    requires Inv(s, b)
    ensures forall x :: x in BestScoresDataAsWritten(s, user) <==> x in BestScoresData(s, user)
  {
    if user.Member? && user.profile.Some? {
      var p := user.profile.value;
      var aw := UserBestScoresAsWritten(s, p);
      var fixed := UserBestScores(s, p);
      forall x, y | x in aw && y in fixed && x.category == y.category
        ensures x == y
      {
        assert NoWorseThan(x, y) && NoWorseThan(y, x);
        SameKeySameScore(s, b, x, y);
      }
      forall x | x in aw
        ensures x in fixed
      {
        assert x.category in Played(aw);
        var y :| y in fixed && y.category == x.category;
      }
      forall y | y in fixed
        ensures y in aw
      {
        assert y.category in Played(fixed);
        var x :| x in aw && x.category == y.category;
      }
    }
  }

  /** On the two-games store the program lists the player's best score twice, the corrected listing once. */
  lemma BestScoresDataRepeats()
    ensures var user := Member(1, false, Some(Profile(1, 1)));
            var r := BestScoresDataAsWritten(TwoGamesStore(), user);
            |r| == 2 && r[0] == r[1] && |BestScoresData(TwoGamesStore(), user)| == 1
  {
    var user := Member(1, false, Some(Profile(1, 1)));
    assert BestScoresDataAsWritten(TwoGamesStore(), user) == UserBestScoresAsWritten(TwoGamesStore(), Profile(1, 1));
    assert BestScoresData(TwoGamesStore(), user) == UserBestScores(TwoGamesStore(), Profile(1, 1));
    BestListsCategoryTwice();
  }

  // ---------------------------------------------------------------------
  // Recent scores

  /**
   * The recent-scores action over a scope: at most ten scores, newest
   * first; nothing left out is newer than something shown.
   */
  function RecentScores(scope: seq<Score>): (r: seq<Score>)
    ensures |r| == Min(RecentLimit, |scope|)
    ensures multiset(r) <= multiset(scope)
    ensures forall i, j :: 0 <= i < j < |r| ==> r[i].completedAt >= r[j].completedAt
    ensures forall i, y :: 0 <= i < |r| && y in multiset(scope) - multiset(r) ==> r[i].completedAt >= y.completedAt
  {
    NewerLeTotal();
    TopKSelects(scope, NewerLe, RecentLimit);
    TopK(scope, NewerLe, RecentLimit)
  }

  /** In the score views the scope is the caller's own scores. */
  lemma RecentScoresAreOwn(s: Store, user: User)
    ensures forall x :: x in RecentScores(ProfileScope(s, user)) ==>
              x in s.scores && user.Member? && user.profile == Some(x.profile)
  {
    var r := RecentScores(ProfileScope(s, user));
    forall x | x in r
      ensures x in ProfileScope(s, user)
    {
      assert x in multiset(ProfileScope(s, user));
    }
  }

  // ---------------------------------------------------------------------
  // A player's own scores

  /** Whether category id `id` carries code `code`. */
  predicate CodeMatches(cats: seq<Category>, id: nat, code: string)
  {
    match CategoryById(cats, id)
    case Some(c) => c.code == code
    case None => false
  }

  predicate CodeFilter(cats: seq<Category>, code: string, x: Score)
  {
    CodeMatches(cats, x.category, code)
  }

  /**
   * `get_user_scores_queryset`: the caller's own scores (nothing for an
   * anonymous or profile-less caller), narrowed to the category whose code
   * is the upper-cased query parameter when one is given and non-empty.
   */
  function UserScores(s: Store, user: User, category: Option<string>): (r: seq<Score>)
    ensures forall x :: x in r <==>
              x in ProfileScope(s, user)
              && (category.Some? && category.value != "" ==> CodeMatches(s.categories, x.category, Upper(category.value)))
  {
    var scope := ProfileScope(s, user);
    if category.Some? && category.value != "" then
      Filter(scope, (x: Score) => CodeFilter(s.categories, Upper(category.value), x))
    else scope
  }

  /** The filter ignores case, and with unique codes and ids it selects the one category with that code. */
  lemma UserScoresOfCategory(s: Store, b: Bounds, user: User, code: string, c: Category)
    requires Inv(s, b)
    requires c in s.categories && c.code == Upper(code) && code != ""
    ensures forall x :: x in UserScores(s, user, Some(code)) <==> x in ProfileScope(s, user) && x.category == c.id
  {
    forall x | x in ProfileScope(s, user)
      ensures CodeMatches(s.categories, x.category, Upper(code)) <==> x.category == c.id
    {
      match CategoryById(s.categories, x.category)
      case Some(d) =>
        if d.code == c.code {
          var i :| 0 <= i < |s.categories| && s.categories[i] == c;
          var j :| 0 <= j < |s.categories| && s.categories[j] == d;
          assert CodeOf(s.categories[i]) == CodeOf(s.categories[j]);
        }
        if x.category == c.id {
          var i :| 0 <= i < |s.categories| && s.categories[i] == c;
          var j :| 0 <= j < |s.categories| && s.categories[j] == d;
          assert CategoryIdOf(s.categories[i]) == CategoryIdOf(s.categories[j]);
        }
      case None =>
    }
  }
}

=== FILE: sorting.dfy ===
/**
 * Stable insertion sort over a caller-supplied "ranks no later than"
 * relation. Every ordered query of the store (the leaderboard order, the
 * (category, rank) entry order, newest-first score order) is this sort with
 * a different relation, followed by a prefix cut for the query's limit.
 */
module Sorting {
  import opened Base

  ghost predicate TotalPreorder<T(!new)>(le: (T, T) -> bool)
  {
    && (forall a, b :: le(a, b) || le(b, a))
    && (forall a, b, c :: le(a, b) && le(b, c) ==> le(a, c))
  }

  predicate SortedBy<T>(le: (T, T) -> bool, xs: seq<T>)
  {
    forall i, j :: 0 <= i < j < |xs| ==> le(xs[i], xs[j])
  }

  /** Inserts x in front of the first element it ranks no later than. */
  function Insert<T>(x: T, xs: seq<T>, le: (T, T) -> bool): (r: seq<T>)
    ensures |r| == |xs| + 1
    ensures multiset(r) == multiset(xs) + multiset{x}
  {
    if xs == [] then [x]
    else if le(x, xs[0]) then [x] + xs
    else
      assert xs == [xs[0]] + xs[1..];
      [xs[0]] + Insert(x, xs[1..], le)
  }

  lemma {:induction false} InsertSorted<T(!new)>(x: T, xs: seq<T>, le: (T, T) -> bool)
    requires TotalPreorder(le)
    requires SortedBy(le, xs)
    ensures SortedBy(le, Insert(x, xs, le))
  {
    if xs == [] || le(x, xs[0]) {
    } else {
      var rest := Insert(x, xs[1..], le);
      InsertSorted(x, xs[1..], le);
      assert le(xs[0], x);
      forall k | 0 <= k < |rest|
        ensures le(xs[0], rest[k])
      {
        InsertedFrom(x, xs[1..], le, k);
        if rest[k] != x {
          var m :| 0 <= m < |xs[1..]| && xs[1..][m] == rest[k];
          assert xs[1 + m] == rest[k];
        }
      }
      assert Insert(x, xs, le) == [xs[0]] + rest;
      ConsSorted(xs[0], rest, le);
    }
  }

  /** Every element of Insert(x, xs) is x or an element of xs. */
  lemma InsertedFrom<T>(x: T, xs: seq<T>, le: (T, T) -> bool, k: nat)
    requires k < |xs| + 1
    ensures Insert(x, xs, le)[k] == x || Insert(x, xs, le)[k] in xs
  {
    var r := Insert(x, xs, le);
    assert r[k] in multiset(r);
    assert r[k] in multiset(xs) + multiset{x};
  }

  /** A head no later than every element of a sorted sequence keeps it sorted. */
  lemma ConsSorted<T>(h: T, rest: seq<T>, le: (T, T) -> bool)
    requires SortedBy(le, rest)
    requires forall k :: 0 <= k < |rest| ==> le(h, rest[k])
    ensures SortedBy(le, [h] + rest)
  {
    var r := [h] + rest;
    forall i, j | 0 <= i < j < |r|
      ensures le(r[i], r[j])
    {
      assert r[j] == rest[j - 1];
      if i > 0 {
        assert r[i] == rest[i - 1];
      }
    }
  }

  function SortBy<T>(xs: seq<T>, le: (T, T) -> bool): (r: seq<T>)
    ensures |r| == |xs|
    ensures multiset(r) == multiset(xs)
  {
    if xs == [] then []
    else
      assert xs == [xs[0]] + xs[1..];
      Insert(xs[0], SortBy(xs[1..], le), le)
  }

  lemma {:induction false} SortBySorted<T(!new)>(xs: seq<T>, le: (T, T) -> bool)
    requires TotalPreorder(le)
    ensures SortedBy(le, SortBy(xs, le))
  {
    if xs != [] {
      SortBySorted(xs[1..], le);
      InsertSorted(xs[0], SortBy(xs[1..], le), le);
    }
  }

  /** The first n elements of the sorted sequence (fewer when xs is shorter). */
  function TopK<T>(xs: seq<T>, le: (T, T) -> bool, n: nat): (r: seq<T>)
    ensures |r| == Min(n, |xs|)
    ensures multiset(r) <= multiset(xs)
    ensures forall x :: x in r ==> x in xs
  {
    var ys := SortBy(xs, le);
    var k := Min(n, |xs|);
    assert ys == ys[..k] + ys[k..];
    assert forall x :: x in ys[..k] ==> x in multiset(xs);
    ys[..k]
  }

  /** The kept prefix is sorted and no dropped element ranks before a kept one. */
  lemma TopKSelects<T(!new)>(xs: seq<T>, le: (T, T) -> bool, n: nat)
    requires TotalPreorder(le)
    ensures SortedBy(le, TopK(xs, le, n))
    ensures forall i, y :: 0 <= i < |TopK(xs, le, n)| && y in multiset(xs) - multiset(TopK(xs, le, n))
              ==> le(TopK(xs, le, n)[i], y)
  {
    var ys := SortBy(xs, le);
    var k := Min(n, |xs|);
    assert ys == ys[..k] + ys[k..];
    assert multiset(ys) == multiset(ys[..k]) + multiset(ys[k..]);
    SortBySorted(xs, le);
    forall i, y | 0 <= i < k && y in multiset(xs) - multiset(ys[..k])
      ensures le(ys[..k][i], y)
    {
      assert y in multiset(ys[k..]);
      var m :| 0 <= m < |ys[k..]| && ys[k..][m] == y;
      assert ys[k + m] == y;
    }
  }

  /** A shorter cut of the same sorted sequence is a prefix of a longer one. */
  lemma TopKPrefix<T>(xs: seq<T>, le: (T, T) -> bool, n: nat, m: nat)
    requires n <= m
    ensures TopK(xs, le, n) == TopK(xs, le, m)[..Min(n, |xs|)]
  {
  }

  /** Two sequences with the same elements, sorted by a relation antisymmetric on those elements, are equal. */
  lemma {:induction false} SortedUnique<T(!new)>(xs: seq<T>, ys: seq<T>, le: (T, T) -> bool)
    requires forall a, b :: a in xs && b in xs && le(a, b) && le(b, a) ==> a == b
    requires SortedBy(le, xs) && SortedBy(le, ys)
    requires multiset(xs) == multiset(ys)
    ensures xs == ys
  {
    if xs != [] {
      SortedHeads(xs, ys, le);
      assert xs == [xs[0]] + xs[1..];
      assert ys == [ys[0]] + ys[1..];
      assert multiset(xs[1..]) == multiset(ys[1..]) by {
        assert multiset(xs) == multiset([xs[0]]) + multiset(xs[1..]);
        assert multiset(ys) == multiset([ys[0]]) + multiset(ys[1..]);
        assert multiset(xs[1..]) == multiset(xs) - multiset([xs[0]]);
        assert multiset(ys[1..]) == multiset(ys) - multiset([ys[0]]);
      }
      SortedTail(xs, le);
      SortedTail(ys, le);
      assert forall a :: a in xs[1..] ==> a in xs;
      SortedUnique(xs[1..], ys[1..], le);
    }
  }

  lemma SortedHeads<T(!new)>(xs: seq<T>, ys: seq<T>, le: (T, T) -> bool)
    requires forall a, b :: a in xs && b in xs && le(a, b) && le(b, a) ==> a == b
    requires SortedBy(le, xs) && SortedBy(le, ys)
    requires multiset(xs) == multiset(ys)
    requires xs != []
    ensures |ys| == |xs| && xs[0] == ys[0]
  {
    assert |ys| == |xs| by {
      assert |multiset(xs)| == |xs| && |multiset(ys)| == |ys|;
    }
    assert xs[0] in multiset(ys);
    assert ys[0] in multiset(xs);
    var i :| 0 <= i < |ys| && ys[i] == xs[0];
    var j :| 0 <= j < |xs| && xs[j] == ys[0];
    if i != 0 && j != 0 {
      assert le(xs[0], xs[j]) && le(ys[0], ys[i]);
    }
  }

  lemma SortedTail<T>(xs: seq<T>, le: (T, T) -> bool)
    requires SortedBy(le, xs) && xs != []
    ensures SortedBy(le, xs[1..])
  {
    forall a, b | 0 <= a < b < |xs[1..]| ensures le(xs[1..][a], xs[1..][b]) {
      assert xs[1..][a] == xs[a + 1] && xs[1..][b] == xs[b + 1];
    }
  }

  /** Lexicographic order on strings by character code, as a "no later than" relation. */
  predicate StrLe(a: string, b: string)
  {
    if a == [] then true
    else if b == [] then false
    else if a[0] != b[0] then a[0] < b[0]
    else StrLe(a[1..], b[1..])
  }

  lemma {:induction false} StrLeTotal(a: string, b: string)
    ensures StrLe(a, b) || StrLe(b, a)
    ensures StrLe(a, b) && StrLe(b, a) ==> a == b
  {
    if a != [] && b != [] && a[0] == b[0] {
      StrLeTotal(a[1..], b[1..]);
      assert a == [a[0]] + a[1..] && b == [b[0]] + b[1..];
    }
  }

  lemma {:induction false} StrLeTrans(a: string, b: string, c: string)
    requires StrLe(a, b) && StrLe(b, c)
    ensures StrLe(a, c)
  {
    if a != [] && b != [] && c != [] && a[0] == b[0] && b[0] == c[0] {
      StrLeTrans(a[1..], b[1..], c[1..]);
    }
  }
}

=== FILE: submission.dfy ===
/**
 * Score submission: the serializer validates the three numeric fields,
 * resolves the category code, attaches the caller's profile, and upserts
 * the score on its five-field identity. Saving a score fires the post-save
 * hook, which recomputes the category's leaderboard.
 */
module Submission {
  import opened Base
  import opened Models
  import opened Leaderboard

  /** The request in the serializer context; `user` is None when the request carries no user attribute. */
  datatype Request = Request(user: Option<User>)

  /**
   * What a client posts. `clientId`, `clientCompletedAt` and `clientProfile`
   * stand for values sent for the read-only fields id, completed_at and
   * profile: the serializer accepts and drops them.
   */
  datatype Payload = Payload(
    categoryCode: string,
    moves: int,
    time: int,
    stars: int,
    clientId: Option<nat>,
    clientCompletedAt: Option<nat>,
    clientProfile: Option<nat>)

  datatype SubmitError =
    | InvalidFields(fields: set<Field>)   // 400, one message per offending field
    | CategoryNotFound(code: string)      // 400 keyed 'category', quoting the code as sent
    | ProfileRequired                     // 400 keyed 'profile'
    | NoProfile                           // reading request.user.profile fails: the call errors out

  /** The validated data after preparation: the category object and the profile replace the code. */
  datatype Prepared = Prepared(category: Category, profile: Profile, moves: int, time: int, stars: int)

  /** The profile of the request's user, when the request has an authenticated user. */
  predicate AuthenticatedRequest(request: Option<Request>)
  {
    request.Some? && request.value.user.Some? && request.value.user.value.IsAuthenticated()
  }

  /**
   * `prepare_score_data` of common/score.py. The category is resolved
   * first; only then is an authenticated user required. The first failing
   * check raises, so at most one error is reported.
   */
  function PrepareScoreData(cats: seq<Category>, p: Payload, request: Option<Request>): (r: Result<Prepared, SubmitError>)
    ensures CategoryByCode(cats, Upper(p.categoryCode)).None? ==> r == Err(CategoryNotFound(p.categoryCode))
    ensures CategoryByCode(cats, Upper(p.categoryCode)).Some? && !AuthenticatedRequest(request) ==> r == Err(ProfileRequired)
    ensures r.Ok? <==> CategoryByCode(cats, Upper(p.categoryCode)).Some? && AuthenticatedRequest(request)
                       && request.value.user.value.profile.Some?
    ensures r.Ok? ==> r.value.category in cats && r.value.category.code == Upper(p.categoryCode)
                      && r.value.profile == request.value.user.value.profile.value
                      && r.value.moves == p.moves && r.value.time == p.time && r.value.stars == p.stars
  {
    match CategoryByCode(cats, Upper(p.categoryCode))
    case None => Err(CategoryNotFound(p.categoryCode))
    case Some(c) =>
      if AuthenticatedRequest(request) then
        match request.value.user.value.profile
        case None => Err(NoProfile)
        case Some(prof) => Ok(Prepared(c, prof, p.moves, p.time, p.stars))
      else Err(ProfileRequired)
  }

  /**
   * The `prepare_score_data` of utils/score_utils.py: the same, except that
   * any request carrying a user goes on to read `user.profile`, with no
   * authentication check; an anonymous user has no profile to read.
   */
  function PrepareScoreDataUnchecked(cats: seq<Category>, p: Payload, request: Option<Request>): (r: Result<Prepared, SubmitError>)
    ensures CategoryByCode(cats, Upper(p.categoryCode)).None? ==> r == Err(CategoryNotFound(p.categoryCode))
    ensures CategoryByCode(cats, Upper(p.categoryCode)).Some? ==>
              (r == Err(ProfileRequired) <==> request.None? || request.value.user.None?)
    ensures r.Ok? ==> r.value.category in cats && r.value.category.code == Upper(p.categoryCode)
                      && r.value.moves == p.moves && r.value.time == p.time && r.value.stars == p.stars
  {
    match CategoryByCode(cats, Upper(p.categoryCode))
    case None => Err(CategoryNotFound(p.categoryCode))
    case Some(c) =>
      if request.Some? && request.value.user.Some? then
        match request.value.user.value
        case Anonymous => Err(NoProfile)
        case Member(_, _, profile) =>
          if profile.None? then Err(NoProfile) else Ok(Prepared(c, profile.value, p.moves, p.time, p.stars))
      else Err(ProfileRequired)
  }

  /**
   * The two variants agree on every request except one carrying an
   * anonymous user: there the checked variant answers 'profile required'
   * and the unchecked one fails reading the profile.
   */
  lemma PrepareVariantsAgree(cats: seq<Category>, p: Payload, request: Option<Request>)
    ensures !(request.Some? && request.value.user == Some(Anonymous)) ==>
              PrepareScoreData(cats, p, request) == PrepareScoreDataUnchecked(cats, p, request)
    ensures request.Some? && request.value.user == Some(Anonymous) && CategoryByCode(cats, Upper(p.categoryCode)).Some? ==>
              PrepareScoreData(cats, p, request) == Err(ProfileRequired)
              && PrepareScoreDataUnchecked(cats, p, request) == Err(NoProfile)
  {
  }

  /** Codes that upper-case alike ('animals', 'Animals', 'ANIMALS') resolve to the same category. */
  lemma PrepareIgnoresCase(cats: seq<Category>, p: Payload, code: string, request: Option<Request>)
    requires Upper(code) == Upper(p.categoryCode)
    ensures PrepareScoreData(cats, p.(categoryCode := code), request).Ok? == PrepareScoreData(cats, p, request).Ok?
    ensures PrepareScoreData(cats, p.(categoryCode := code), request).Ok? ==>
              PrepareScoreData(cats, p.(categoryCode := code), request) == PrepareScoreData(cats, p, request)
  {
  }

  /** The score row, if any, carrying the five-field identity `key`. */
  function FindResult(scores: seq<Score>, key: (Profile, nat, int, int, int)): (r: Option<Score>)
    ensures r.Some? ==> r.value in scores && ResultKey(r.value) == key
    ensures r.None? <==> forall x :: x in scores ==> ResultKey(x) != key
  {
    if scores == [] then None
    else if ResultKey(scores[0]) == key then Some(scores[0])
    else FindResult(scores[1..], key)
  }

  /** With unique identities, the lookup finds the one row that has the identity. */
  lemma FindResultUnique(scores: seq<Score>, x: Score)
    requires KeysDistinct(scores, ResultKey)
    requires x in scores
    ensures FindResult(scores, ResultKey(x)) == Some(x)
  {
    var y := FindResult(scores, ResultKey(x)).value;
    var i :| 0 <= i < |scores| && scores[i] == x;
    var j :| 0 <= j < |scores| && scores[j] == y;
    assert ResultKey(scores[i]) == ResultKey(scores[j]);
  }

  /** The fields named in the save that `update_or_create` performs on a found row with empty defaults. */
  const ResaveFields: set<string> := {"completed_at"}

  /**
   * `Score.objects.update_or_create(<five fields>, defaults={})`, followed
   * by the post-save hook. A found row is re-saved unchanged, naming only
   * its auto-timestamp field; a new row takes the next id and timestamp.
   */
  function Upsert(s: Store, d: Prepared): (r: (Store, Score))
    ensures r.0.categories == s.categories
    ensures r.1 in r.0.scores
    ensures ResultKey(r.1) == (d.profile, d.category.id, d.moves, d.time, d.stars)
    ensures FindResult(s.scores, (d.profile, d.category.id, d.moves, d.time, d.stars)).Some? ==>
              r.1 in s.scores && r.0.scores == s.scores && r.0.nextId == s.nextId
    ensures FindResult(s.scores, (d.profile, d.category.id, d.moves, d.time, d.stars)).None? ==>
              r.1 == NewRow(s, d) && r.0.scores == s.scores + [NewRow(s, d)] && r.0.nextId == s.nextId + 1
  {
    match FindResult(s.scores, (d.profile, d.category.id, d.moves, d.time, d.stars))
    case Some(x) =>
      var s1 := if SaveTriggersRecompute(false, Some(ResaveFields)) then Recompute(s, x.category, DefaultTopCount) else s;
      (s1, x)
    case None =>
      var x := NewRow(s, d);
      var s0 := AppendNew(s, d);
      assert s0.scores[|s.scores|] == x;
      var s1 := if SaveTriggersRecompute(true, None) then Recompute(s0, x.category, DefaultTopCount) else s0;
      (s1, x)
  }

  /**
   * Every field error the serializer collects before `create` runs, all
   * reported together. The `category` field is a `CharField`: it strips
   * surrounding spaces, refuses a blank value, and refuses a value holding
   * a NUL character.
   */
  function PayloadErrors(b: Bounds, p: Payload): (errs: set<Field>)
    ensures CategoryCode in errs <==> AllSpace(p.categoryCode) || '\0' in Trim(p.categoryCode)
    ensures forall f :: f != CategoryCode ==> (f in errs <==> f in FieldErrors(b, p.moves, p.time, p.stars))
  {
    FieldErrors(b, p.moves, p.time, p.stars)
    + (if Trim(p.categoryCode) == [] || '\0' in Trim(p.categoryCode) then {CategoryCode} else {})
  }

  /** The validated data `create` receives: the code as the field cleaned it. */
  function Validated(p: Payload): Payload
  {
    p.(categoryCode := Trim(p.categoryCode))
  }

  /**
   * `ScoreSerializer.create` behind a POST: field validation (all
   * offending fields together), then preparation of the cleaned data, then
   * the upsert.
   */
  function CreateScore(s: Store, b: Bounds, p: Payload, request: Option<Request>): (r: Result<(Store, Score), SubmitError>)
    ensures PayloadErrors(b, p) != {} ==> r == Err(InvalidFields(PayloadErrors(b, p)))
    ensures r.Ok? <==> PayloadErrors(b, p) == {} && PrepareScoreData(s.categories, Validated(p), request).Ok?
    ensures (PayloadErrors(b, p) == {} && PrepareScoreData(s.categories, Validated(p), request).Err?) ==>
              r == Err(PrepareScoreData(s.categories, Validated(p), request).error)
    ensures r.Ok? ==> r.value.1 in r.value.0.scores && r.value.0.categories == s.categories
    ensures r.Ok? ==> r.value.1.moves == p.moves && r.value.1.time == p.time && r.value.1.stars == p.stars
                      && r.value.1.profile == request.value.user.value.profile.value
                      && exists c :: c in s.categories && c.id == r.value.1.category && c.code == Upper(Trim(p.categoryCode))
    ensures r.Err? && r.error.CategoryNotFound? ==> r.error.code == Trim(p.categoryCode)
  {
    var errs := PayloadErrors(b, p);
    if errs != {} then Err(InvalidFields(errs))
    else match PrepareScoreData(s.categories, Validated(p), request)
      case Err(e) => Err(e)
      case Ok(d) => Ok(Upsert(s, d))
  }

  /** A code sent with spaces around it is the code: " animals " submits what "animals" does. */
  lemma CreateIgnoresPadding(s: Store, b: Bounds, p: Payload, request: Option<Request>, pre: string, post: string)
    requires AllSpace(pre) && AllSpace(post)
    ensures CreateScore(s, b, p.(categoryCode := pre + Trim(p.categoryCode) + post), request)
            == CreateScore(s, b, p, request)
  {
    var q := p.(categoryCode := pre + Trim(p.categoryCode) + post);
    PaddedValidatesAlike(b, p, q, pre, post);
    SameValidationSameCreate(s, b, p, q, request);
  }

  /** Padding changes neither the field errors nor the validated data. */
  lemma PaddedValidatesAlike(b: Bounds, p: Payload, q: Payload, pre: string, post: string)
    requires AllSpace(pre) && AllSpace(post)
    requires q == p.(categoryCode := pre + Trim(p.categoryCode) + post)
    ensures Validated(q) == Validated(p) && PayloadErrors(b, q) == PayloadErrors(b, p)
  {
    TrimPadded(pre, Trim(p.categoryCode), post);
  }

  /** Creation sees the payload only through its field errors and its validated data. */
  lemma SameValidationSameCreate(s: Store, b: Bounds, p: Payload, q: Payload, request: Option<Request>)
    requires Validated(q) == Validated(p) && PayloadErrors(b, q) == PayloadErrors(b, p)
    ensures CreateScore(s, b, q, request) == CreateScore(s, b, p, request)
  {
  }

  /** Read-only fields sent by the client change nothing. */
  lemma CreateIgnoresReadOnly(s: Store, b: Bounds, p: Payload, request: Option<Request>,
                              id: Option<nat>, at: Option<nat>, prof: Option<nat>)
    ensures CreateScore(s, b, p.(clientId := id, clientCompletedAt := at, clientProfile := prof), request)
            == CreateScore(s, b, p, request)
  {
  }

  /** Upserting keeps every schema constraint. */
  lemma UpsertKeepsInv(s: Store, b: Bounds, d: Prepared)
    requires Inv(s, b)
    requires DefaultTopCount <= b.maxRank
    requires d.category in s.categories
    ensures Inv(Upsert(s, d).0, b)
  {
    UpsertRecomputes(s, d);
    if FindResult(s.scores, (d.profile, d.category.id, d.moves, d.time, d.stars)).Some? {
      RecomputeKeepsInv(s, b, d.category.id, DefaultTopCount);
    } else {
      NewResultKeepsInv(s, b, d);
      RecomputeKeepsInv(AppendNew(s, d), b, d.category.id, DefaultTopCount);
    }
  }

  /** The store a new submission appends its row to, before the hook runs. */
  function AppendNew(s: Store, d: Prepared): Store
  {
    s.(scores := s.scores + [NewRow(s, d)],
       nextId := s.nextId + 1, clock := s.clock + 1)
  }

  /** The row a new submission stores: the next id, the submitted numbers and the current timestamp. */
  function NewRow(s: Store, d: Prepared): Score
  {
    Score(s.nextId, d.profile, d.category.id, d.moves, d.time, d.stars, s.clock)
  }

  /**
   * What an upsert does to the leaderboard: the submitted category's
   * entries become the ranked top five of the resulting scores, and every
   * other category's entries stay as they were.
   */
  lemma UpsertEffect(s: Store, d: Prepared)
    ensures EntriesIn(Upsert(s, d).0, d.category.id)
            == RankEntries(Top(Upsert(s, d).0, d.category.id, DefaultTopCount), d.category.id)
    ensures forall c :: c != d.category.id ==> EntriesIn(Upsert(s, d).0, c) == EntriesIn(s, c)
  {
    var s0 := Saved(s, d);
    UpsertRecomputes(s, d);
    RecomputeSelfRanked(s0, d.category.id, DefaultTopCount);
    RecomputeLeavesOthers(s0, d.category.id, DefaultTopCount);
    assert s0.entries == s.entries;
    assert forall c :: EntriesIn(s0, c) == EntriesIn(s, c);
  }

  /** The store after the row is found or appended, before the post-save hook runs. */
  function Saved(s: Store, d: Prepared): Store
  {
    if FindResult(s.scores, (d.profile, d.category.id, d.moves, d.time, d.stars)).Some? then s else AppendNew(s, d)
  }

  /** The hook rebuilds the submitted category of the saved store. */
  lemma UpsertRecomputes(s: Store, d: Prepared)
    ensures Upsert(s, d).0 == Recompute(Saved(s, d), d.category.id, DefaultTopCount)
    ensures Upsert(s, d).1.category == d.category.id
  {
    match FindResult(s.scores, (d.profile, d.category.id, d.moves, d.time, d.stars))
    case Some(x) =>
      assert SaveTriggersRecompute(false, Some(ResaveFields));
    case None =>
      assert SaveTriggersRecompute(true, None);
  }

  /** The saved store keeps the invariant: a found row changes nothing, a new one is fresh. */
  lemma SavedKeepsInv(s: Store, b: Bounds, d: Prepared)
    requires Inv(s, b)
    requires d.category in s.categories
    ensures Inv(Saved(s, d), b)
  {
    if FindResult(s.scores, (d.profile, d.category.id, d.moves, d.time, d.stars)).None? {
      NewResultKeepsInv(s, b, d);
    }
  }

  /**
   * The upsert as the program runs it: the post-save hook rebuilds the
   * category with the write loop of `update_category_leaderboard`. The
   * save and the hook run inside the transaction of `update_or_create`, so
   * a refused write undoes the save as well: an error leaves no store.
   * When the loop succeeds it stores what the atomic rebuild stores, up to
   * the order of the entries; a category's first ranked scores always go
   * through; a new score that takes rank 1 from a ranked one fails.
   */
  method UpsertAsWritten(s: Store, b: Bounds, d: Prepared) returns (r: Result<(Store, Score), WriteError>)
    requires Inv(s, b)
    requires d.category in s.categories
    ensures r.Ok? ==> r.value.1 == Upsert(s, d).1 && r.value.0.categories == s.categories
                      && r.value.0.scores == Upsert(s, d).0.scores
                      && forall e :: e in r.value.0.entries <==> e in Upsert(s, d).0.entries
    ensures Unranked(Saved(s, d), d.category.id) ==> r.Ok?
    ensures FirstWriteRefused(Saved(s, d), d.category.id, DefaultTopCount) ==> r.Err?
    ensures r.Ok? <==> WriteRanks(Pruned(Saved(s, d), d.category.id, DefaultTopCount), d.category.id,
                                  Top(Saved(s, d), d.category.id, DefaultTopCount), 0).Ok?
  {
    SavedKeepsInv(s, b, d);
    UpsertRecomputes(s, d);
    var w := UpdateCategoryLeaderboard(Saved(s, d), d.category.id, DefaultTopCount);
    match w
    case Err(e) => r := Err(e);
    case Ok(s1) => r := Ok((s1, Upsert(s, d).1));
  }

  /** The store before the new leader arrives: its category holds one score, ranked 1. */
  function NewLeaderBefore(): Store
  {
    Store([Category(1, "ANIMALS", "Animals", "")], [Score(1, Profile(1, 1), 1, 20, 60, 4, 0)], [Entry(1, 1, 1)], 2, 1)
  }

  /** The new leader's submission: five stars, in fewer moves and less time. */
  function NewLeaderData(): Prepared
  {
    Prepared(Category(1, "ANIMALS", "Animals", ""), Profile(1, 1), 15, 45, 5)
  }

  /**
   * Submitting the new leader: the saved store is the one on which the
   * write loop's first write is refused, while the corrected upsert ranks
   * the new score 1 and the former leader 2.
   */
  lemma NewLeaderSubmission()
    ensures Saved(NewLeaderBefore(), NewLeaderData()) == NewLeaderStore()
    ensures FirstWriteRefused(NewLeaderStore(), 1, DefaultTopCount)
    ensures Upsert(NewLeaderBefore(), NewLeaderData()).0.entries == [Entry(2, 1, 1), Entry(1, 1, 2)]
  {
    var s := NewLeaderBefore();
    var d := NewLeaderData();
    assert FindResult(s.scores, (d.profile, d.category.id, d.moves, d.time, d.stars)) == None by {
      assert s.scores[0].moves != d.moves;
    }
    assert AppendNew(s, d) == NewLeaderStore();
    NewLeaderCollides();
    UpsertRecomputes(s, d);
  }

  /** Bounds under which the store before the new leader meets the schema. */
  function NewLeaderBounds(): (b: Bounds)
    ensures Inv(NewLeaderBefore(), b)
  {
    var s := NewLeaderBefore();
    assert HasScore(s, 1, 1) by { assert s.scores[0].id == 1; }
    assert HasCategory(s, 1) by { assert s.categories[0].id == 1; }
    Bounds(0, 100, 0, 3600, 0, 5, 5)
  }

  /** The new leader's submission, run as written, fails, and nothing is stored. */
  method NewLeaderSubmissionFails() returns (r: Result<(Store, Score), WriteError>)
    ensures r.Err?
  {
    NewLeaderSubmission();
    r := UpsertAsWritten(NewLeaderBefore(), NewLeaderBounds(), NewLeaderData());
  }

  /** After an upsert exactly one row carries the submitted identity: the returned one. */
  lemma UpsertSingleRow(s: Store, b: Bounds, d: Prepared)
    requires Inv(s, b)
    requires DefaultTopCount <= b.maxRank
    requires d.category in s.categories
    ensures forall y :: y in Upsert(s, d).0.scores && ResultKey(y) == ResultKey(Upsert(s, d).1) ==> y == Upsert(s, d).1
  {
    UpsertKeepsInv(s, b, d);
    SameKeySame(Upsert(s, d).0.scores, Upsert(s, d).1);
  }

  /** The row a new submission appends keeps the invariant. */
  lemma NewResultKeepsInv(s: Store, b: Bounds, d: Prepared)
    requires Inv(s, b)
    requires d.category in s.categories
    requires FindResult(s.scores, (d.profile, d.category.id, d.moves, d.time, d.stars)).None?
    ensures Inv(AppendNew(s, d), b)
  {
    var x := Score(s.nextId, d.profile, d.category.id, d.moves, d.time, d.stars, s.clock);
    assert HasCategory(s, x.category);
    AppendFreshKeepsInv(s, b, x);
  }

  /** Upserting the same prepared data again returns the same row and changes nothing further. */
  lemma UpsertIdempotent(s: Store, b: Bounds, d: Prepared)
    requires Inv(s, b)
    requires DefaultTopCount <= b.maxRank
    requires d.category in s.categories
    ensures Upsert(Upsert(s, d).0, d) == Upsert(s, d)
  {
    var key := (d.profile, d.category.id, d.moves, d.time, d.stars);
    var (r, x) := Upsert(s, d);
    UpsertKeepsInv(s, b, d);
    FindResultUnique(r.scores, x);
    match FindResult(s.scores, key)
    case Some(_) =>
      RecomputeIdempotent(s, x.category, DefaultTopCount);
    case None =>
      RecomputeIdempotent(AppendNew(s, d), x.category, DefaultTopCount);
  }

  /**
   * A submission that succeeds keeps every schema constraint, stores valid
   * fields, and leaves exactly one row with the submitted identity: the
   * returned one.
   */
  lemma CreateKeepsInv(s: Store, b: Bounds, p: Payload, request: Option<Request>)
    requires Inv(s, b)
    requires DefaultTopCount <= b.maxRank
    requires CreateScore(s, b, p, request).Ok?
    ensures Inv(CreateScore(s, b, p, request).value.0, b)
    ensures FieldsValid(b, CreateScore(s, b, p, request).value.1)
    ensures forall y :: y in CreateScore(s, b, p, request).value.0.scores
              && ResultKey(y) == ResultKey(CreateScore(s, b, p, request).value.1)
              ==> y == CreateScore(s, b, p, request).value.1
  {
    var d := PrepareScoreData(s.categories, Validated(p), request).value;
    assert CreateScore(s, b, p, request).value == Upsert(s, d);
    UpsertKeepsInv(s, b, d);
    UpsertSingleRow(s, b, d);
  }

  /** With unique identities, a row with the identity of a stored row is that row. */
  lemma SameKeySame(scores: seq<Score>, x: Score)
    requires KeysDistinct(scores, ResultKey)
    requires x in scores
    ensures forall y :: y in scores && ResultKey(y) == ResultKey(x) ==> y == x
  {
    forall y | y in scores && ResultKey(y) == ResultKey(x)
      ensures y == x
    {
      var i :| 0 <= i < |scores| && scores[i] == x;
      var j :| 0 <= j < |scores| && scores[j] == y;
      assert ResultKey(scores[i]) == ResultKey(scores[j]);
    }
  }

  /** Appending a score with a fresh id and timestamp, a new identity and an existing category keeps the invariant. */
  lemma AppendFreshKeepsInv(s: Store, b: Bounds, x: Score)
    requires Inv(s, b)
    requires x.id == s.nextId && x.completedAt == s.clock
    requires HasCategory(s, x.category)
    requires forall y :: y in s.scores ==> ResultKey(y) != ResultKey(x)
    ensures Inv(s.(scores := s.scores + [x], nextId := s.nextId + 1, clock := s.clock + 1), b)
  {
    var s0 := s.(scores := s.scores + [x], nextId := s.nextId + 1, clock := s.clock + 1);
    assert KeysDistinct([x], ScoreIdOf);
    assert KeysDistinct([x], ResultKey);
    ConcatKeysDistinct(s.scores, [x], ScoreIdOf);
    ConcatKeysDistinct(s.scores, [x], ResultKey);
    forall e | e in s0.entries
      ensures HasScore(s0, e.scoreId, e.category)
    {
      var y :| y in s.scores && y.id == e.scoreId && y.category == e.category;
      assert y in s0.scores;
    }
  }

  /**
   * Submitting the same result twice: the second call returns the row the
   * first one stored and leaves the store exactly as the first call left it.
   */
  lemma CreateResubmitIdempotent(s: Store, b: Bounds, p: Payload, request: Option<Request>)
    requires Inv(s, b)
    requires DefaultTopCount <= b.maxRank
    requires CreateScore(s, b, p, request).Ok?
    ensures CreateScore(CreateScore(s, b, p, request).value.0, b, p, request)
            == CreateScore(s, b, p, request)
  {
    var d := PrepareScoreData(s.categories, Validated(p), request).value;
    assert CreateScore(s, b, p, request).value == Upsert(s, d);
    var r := Upsert(s, d).0;
    assert PrepareScoreData(r.categories, Validated(p), request) == Ok(d);
    UpsertIdempotent(s, b, d);
  }
}
